=== FILE: README.md ===
# Anime diary: a Dafny model

This project models the core of an anime-diary web application. The application has three parts:

- **The Flask backend.** SQLAlchemy models for anime and diary entries. Three services: `DiaryService`, `AnimeService` and `UserService`. The three blueprints that expose them under `/api/diary`, `/api/animes` and `/api/users`.
- **The browser client.** The `api.js` module wraps every backend route in a `fetch` call.
- **The browser-local diary.** The anime page (`AnimeDetail.tsx`) and the diary page (`Diary.tsx`) keep the user's scores in `localStorage` under `anime-diary`, without using the backend.

## The database

The database is one immutable value `Store.Db` holding three tables. Each table is a sequence of rows in insertion order.

A service call returns `Store.Txn`: either its result or the Python exception it raised, together with the tables after the call. The tables are the new ones when the call committed and the old ones when it rolled back or never reached a commit.

`Store.Valid` collects the constraints the model classes declare and the services rely on:

- unique primary keys;
- unique, non-null `mal_id`; non-null `title`;
- the `unique_user_anime` constraint; the score check (1..10); a valid `status`;
- `anime_id` referencing a stored anime;
- unique usernames and emails.

Every mutating operation is proved to keep `Valid`.

Request bodies are JSON objects of scalars (`Json.Value`), and Python's truthiness, `isinstance(v, int)`, `dict.get` and SQL equality are written out. SQLite's type affinity is modelled for the numeric columns:

- `Text.SqlNumeral` is the number SQLite reads from text: optional ASCII whitespace around an optional sign, digits and an optional fraction;
- `Json.NumericAffinity` turns such text into that number and leaves anything else alone;
- what an INTEGER or FLOAT column stores after a write goes through that affinity (`Json.ColumnInt`, `Json.ColumnReal`), so `"3"` is stored as 3;
- a `filter_by` or `Query.get` on an INTEGER column compares after applying it to the bound value (`Json.SqlEq`), so `"5"` finds the row whose key is 5.

The only SQL comparisons on TEXT columns are the user lookups by `username` and `email`. There SQLite applies TEXT affinity to the bound value, and the cell holds text: `Json.TextAffinity` renders an integer, a `bool` or an integral REAL as SQLite does, and `Json.TextEq` compares both sides after it, so `5` finds the email `"5"`. Python's `==` on JSON scalars is `Json.SameValue`.

An update writes a column only when Python's `==` finds the assigned value different from the loaded one (`Json.Dirty`), as SQLAlchemy's flush does, and `updated_at` moves to the clock only when some column is written. So `"3"` sent over a stored 3 is written, converted back to 3 and stamps the row.

Integers are unbounded. The 64-bit limit of SQLite and of Python's `sqlite3` binding is not modelled (see "## Left out").

`Http.HandleErrors` is the `handle_errors` decorator:

- a `ValueError` becomes a 400 `{"error": message}`;
- any other exception becomes a 500.

Each route is a function from the tables and the request to `Http.Served`, which pairs the response with the tables after the request.

## The client

The client functions take the backend as a parameter, `server: Request -> Reply`. A `Reply` is either an HTTP answer or `Unreachable`, which stands for a rejected `fetch`.

Each call returns the requests it sent and either its value or the JavaScript error it threw. JavaScript semantics are modelled in `Js`:

- truthiness and `||`;
- a property read on `undefined`/`null` throws;
- a default parameter replaces only `undefined`;
- `JSON.stringify` drops `undefined` members.

The section "The client against the backend" in `api_client.dfy` wires each client call to the route it calls: the server answers with exactly what that route answers. It then proves what the caller finally receives.

## Parameters

Things the code reads from outside are parameters of the model:

- the clock (`now`);
- the password hash and its check (`hash`, `check`);
- the Jikan API's answer to a search (`jikan`);
- the backend as the client sees it (`server`);
- the configured `VITE_DEFAULT_USER_ID` (`configured`).

## Model

| member | source | states |
|---|---|---|
| Store.Find | backend/app/services/diary_service.py:28 | A query's `.first()`: the index of the first row that satisfies the filter, and `None` exactly when no row does |
| Store.FindAgrees | backend/app/services/diary_service.py:28 | Two filters that agree on every row find the same first row |
| Store.Filter | backend/app/services/diary_service.py:11 | `filter_by(...).all()`: keeps exactly the satisfying rows, each as often as in the table, and nothing else |
| Store.FilterMembers | backend/app/services/diary_service.py:122 | A row is in a filtered listing iff it is stored and satisfies the filter |
| Store.FilterAll | backend/app/services/diary_service.py:11 | A filter every row satisfies returns the table unchanged |
| Store.NextId | backend/app/models/anime.py:9 | A new INTEGER PRIMARY KEY is at least 1 and larger than every key in use, so it is fresh |
| Store.RemoveAt | backend/app/services/diary_service.py:113 | Deleting one row leaves the other rows in their order |
| Store.EmptyValid | backend/app/models/diary_entry.py:13-16 | The empty database satisfies every declared constraint |
| Store.EntriesOkRemoveAt | backend/app/models/diary_entry.py:13-16 | Deleting a diary row keeps the unique `(user_id, anime_id)` pair, the score check and the anime reference |
| Store.EntriesOkAppend | backend/app/models/diary_entry.py:13-16 | A well-formed row with a fresh id and a fresh `(user_id, anime_id)` can be appended without breaking the constraints |
| Store.EntriesOkReplace | backend/app/models/diary_entry.py:18-26 | Rewriting the non-key columns of a diary row with valid values keeps the constraints |
| Store.EntriesOkFilter | backend/app/models/diary_entry.py:13-16 | Deleting any set of diary rows keeps the constraints |
| Store.EntriesOkSub | backend/app/models/diary_entry.py:13-16 | Any order-preserving subsequence of a valid diary table is valid |
| Store.EntriesOkCons | backend/app/models/diary_entry.py:13-16 | A well-formed row clashing with no later row can be put in front of a valid table |
| Store.HeadDiffersFromFiltered | backend/app/models/diary_entry.py:14 | The first diary row shares neither id nor `(user_id, anime_id)` with any later row a filter keeps |
| Store.StoredEntryRowOk | backend/app/models/diary_entry.py:15 | Every stored diary row has a score in 1..10 and a valid status |
| Store.EntriesOkAnimesKept | backend/app/models/diary_entry.py:20 | Diary rows keep their anime reference as long as the anime table keeps every primary key in place |
| Store.UsersOkRemoveAt | backend/app/services/user_service.py:80 | Deleting a user keeps usernames and emails unique |
| Store.EntryDictNestsItsAnime | backend/app/models/diary_entry.py:31-44 | In a valid database an entry serialises with its anime nested, and the nested `id` equals the entry's `anime_id` |
| Json.Get | backend/app/services/diary_service.py:33 | `dict.get(key)`: the member when present, `None` otherwise |
| Json.GetOr | backend/app/services/diary_service.py:40 | `dict.get(key, default)`: the member when present, the default otherwise |
| Json.PyInt | backend/app/services/diary_service.py:37 | `isinstance(v, int)` accepts integers and booleans, `True` being 1 and `False` 0 |
| Json.ColumnInt | backend/app/models/diary_entry.py:23 | An INTEGER column stores the number that numeric affinity reads from the value (an integral float as an integer, a `bool` as 0 or 1), keeps null and non-numeric text, and never stores a boolean |
| Json.NumericAffinity | backend/app/models/diary_entry.py:19 | Text that spells a number becomes a number; every other value, and text spelling no number, is left as it is |
| Json.NumericAffinityOfInteger | backend/app/models/diary_entry.py:19 | The decimal text of any integer converts to exactly that integer |
| Json.IntegerTextReadsAlike | backend/app/models/diary_entry.py:19 | A non-zero integer and its decimal text have the same numeric reading and the same truthiness |
| Json.NumericAffinityKeepsWords | backend/app/models/diary_entry.py:19 | Text holding a lower-case letter stays text |
| Json.ColumnIntFixpoints | backend/app/models/diary_entry.py:23 | The values an INTEGER column can hold are exactly those a write leaves unchanged, and every write produces one |
| Json.ColumnIntIdempotent | backend/app/services/anime_service.py:56 | Writing an INTEGER column twice stores what writing it once stores |
| Json.ColumnValueFixed | backend/app/models/diary_entry.py:19 | A value an INTEGER column holds is left alone when SQLite reads it with numeric affinity |
| Json.ColumnReal | backend/app/models/anime.py:13 | A FLOAT column stores as a float the number numeric affinity reads from the value, and keeps null and non-numeric values |
| Json.ColumnRealIdempotent | backend/app/models/anime.py:13 | Writing a FLOAT column twice stores what writing it once stores |
| Json.SqlEqOnColumns | backend/app/models/diary_entry.py:19 | Between values an INTEGER column can hold, SQL equality is plain equality |
| Json.ColumnIntSqlEq | backend/app/models/diary_entry.py:19 | A stored integer still matches, in a `filter_by`, the value it was written from |
| Json.SqlEqSameGiven | backend/app/services/diary_service.py:50-53 | Two INTEGER cells that match the same filter value are equal |
| Json.SqlEqNumericText | backend/app/services/diary_service.py:45 | An INTEGER cell holding n matches the bound text of n, and also " n.0" |
| Json.SqlEqRefl | backend/app/services/diary_service.py:28 | SQL equality under numeric affinity is reflexive, for every value |
| Json.SqlEqSym | backend/app/services/diary_service.py:28 | SQL equality under numeric affinity is symmetric |
| Json.SameValueSym | backend/app/services/diary_service.py:93-99 | Python `==` on JSON scalars is symmetric |
| Json.TextAffinity | backend/app/services/user_service.py:56 | TEXT affinity keeps text and NULL, turns an integer or a `bool` into text that parses back as its value, and renders an integral REAL below 10^15 as text exactly then |
| Json.TextAffinityReadsBack | backend/app/services/user_service.py:56 | The text TEXT affinity makes of a number reads back, under NUMERIC affinity, as a number Python finds equal to it |
| Json.PointZeroReadsBack | backend/app/services/user_service.py:56 | The text of an integral REAL, "-5.0" or "5.0", reads back as that number |
| Json.TextEqOnText | backend/app/services/user_service.py:19-22 | Between strings, the TEXT-column comparison is string equality |
| Json.TextEqFacts | backend/app/services/user_service.py:19-22 | The TEXT-column comparison is reflexive, symmetric and transitive |
| Json.TextEqFindsDigits | backend/app/services/user_service.py:56 | An integer matches a TEXT cell exactly when the cell holds its decimal digits, though Python's `==` never equates text with a number |
| Json.SameValueTrans | backend/app/services/diary_service.py:93-99 | Python `==` on JSON scalars is transitive |
| Json.SameValueRefl | backend/app/services/diary_service.py:93-99 | Every scalar is Python-equal to itself, so assigning the loaded value is never written |
| Json.SameValueAffinity | backend/app/services/diary_service.py:93-99 | Python-equal values have Python-equal numeric readings |
| Json.ColumnIntOfEqual | backend/app/services/diary_service.py:93-99 | A value Python finds equal to what an INTEGER column holds would store exactly that value again |
| Json.ReadsAsGiven | backend/app/services/anime_service.py:55-57 | A numeric column reads as the given value whether or not the flush wrote it |
| Text.StripLeft | backend/app/controllers/anime_controller.py:48 | Removes exactly the longest whitespace prefix |
| Text.StripRight | backend/app/controllers/anime_controller.py:48 | Removes exactly the longest whitespace suffix |
| Text.StripEmptyIffAllSpace | backend/app/controllers/anime_controller.py:48-52 | `q.strip()` is empty exactly when every character of `q` is whitespace |
| Text.NatToString | backend/app/controllers/anime_controller.py:49 | A natural number renders as a non-empty run of digits without leading zeros |
| Text.ParseDigits | backend/app/controllers/anime_controller.py:49 | A string parses as digits exactly when it is a non-empty run of decimal digits |
| Text.IntToStringRoundTrip | backend/app/controllers/anime_controller.py:49 | Rendering an integer in decimal and reading it back with `type=int` gives the integer |
| Text.NaturalRoundTrip | backend/app/controllers/anime_controller.py:49 | The round trip for non-negative integers |
| Text.NegativeRoundTrip | backend/app/controllers/anime_controller.py:49 | The round trip for negative integers, through the leading minus sign |
| Text.NatDigitsParse | backend/app/controllers/anime_controller.py:49 | The decimal digits of a natural number parse back as that number |
| Text.SignedRoundTrip | backend/app/controllers/anime_controller.py:49 | A minus sign in front of digits that read as m parses as -m |
| Text.StripUnchanged | backend/app/controllers/anime_controller.py:48 | A string with no whitespace at either end strips to itself |
| Text.AscendingSpellings | backend/app/services/diary_service.py:19 | `order.lower() == 'asc'` holds exactly for the eight case spellings of "asc" |
| Text.IndexOf | backend/app/models/diary_entry.py:19 | The position of the first occurrence of a character, and `None` exactly when it does not occur |
| Text.UnsignedNumeral | backend/app/models/diary_entry.py:19 | A run of digits reads as the integer `ParseDigits` gives; a decimal reading always has a point |
| Text.SqlNumeralOfInteger | backend/app/models/diary_entry.py:19 | SQLite reads the decimal rendering of every integer back as that integer |
| Text.UnsignedSqlNumeral | backend/app/models/diary_entry.py:19 | Plain digits read as the integer they spell |
| Text.SignedSqlNumeral | backend/app/models/diary_entry.py:19 | A minus sign before digits that spell m reads as -m |
| Text.SqlNumeralOfPointZero | backend/app/models/diary_entry.py:19 | The digits of n followed by ".0" read as the decimal n |
| Text.PointZeroNumeral | backend/app/models/diary_entry.py:19 | Digits spelling m followed by ".0" read as the decimal m |
| Text.SignedPointZero | backend/app/services/user_service.py:56 | A minus sign, digits spelling m, and ".0" read as the decimal -m |
| Text.NegativePointZero | backend/app/services/user_service.py:56 | The text SQLite gives a negative integral REAL, "-" with the digits of m and ".0", reads as the decimal -m |
| Text.NegatedDecimal | backend/app/services/user_service.py:56 | A minus sign before an unsigned decimal numeral that ends in a digit reads as the negated decimal |
| Text.PointZeroUnsigned | backend/app/models/diary_entry.py:19 | The unsigned reading of digits and ".0" is the decimal of the digits |
| Text.UnsignedText | backend/app/models/diary_entry.py:19 | Text that starts and ends with a digit has no whitespace to skip and reads as an unsigned numeral |
| Text.SqlNumeralLeadingSpace | backend/app/models/diary_entry.py:19 | A leading ASCII space does not change the number a text spells |
| Text.SpacedPointZero | backend/app/models/diary_entry.py:19 | A space, digits spelling m and ".0" read as the decimal m |
| Text.SqlNumeralRejectsLetter | backend/app/models/diary_entry.py:19 | Text holding a lower-case letter spells no number |
| Text.SqlNumeralOnlyNumberChars | backend/app/models/diary_entry.py:19 | Text that spells a number holds only digits, signs, points and ASCII whitespace |
| Text.NumeralChar | backend/app/models/diary_entry.py:19 | A signed numeral holds only digits, signs and points |
| Text.UnsignedNumeralChar | backend/app/models/diary_entry.py:19 | An unsigned numeral holds only digits and points |
| Text.StripNoEdgeSpace | backend/app/controllers/anime_controller.py:48 | A string that neither starts nor ends with whitespace strips to itself |
| Ordering.SortColumn | backend/app/services/diary_service.py:18-22 | `getattr(DiaryEntry, sort_by, created_at)`: a column name picks that column, an unknown name falls back to `created_at`, and exactly the enumerated non-column attributes raise a non-`ValueError` |
| Ordering.CreatedAtIsColumn | backend/app/services/diary_service.py:18-22 | The default sort key `created_at` is a column, not one of the non-column attributes |
| Ordering.TextLeTotal | backend/app/services/diary_service.py:19-22 | The text ordering used for ORDER BY is total |
| Ordering.TextLeTrans | backend/app/services/diary_service.py:19-22 | The text ordering is transitive |
| Ordering.ValueLeTotal | backend/app/services/diary_service.py:19-22 | SQLite's ordering of mixed column values (null, numbers, text) is total |
| Ordering.ValueLeTrans | backend/app/services/diary_service.py:19-22 | SQLite's ordering of mixed column values is transitive |
| Ordering.BeforeTotal | backend/app/services/diary_service.py:19-22 | Any two entries are comparable by a column, ascending or descending |
| Ordering.BeforeTrans | backend/app/services/diary_service.py:19-22 | The entry ordering by a column is transitive |
| Ordering.Insert | backend/app/services/diary_service.py:19-22 | Inserting into an ordered listing keeps it ordered and adds exactly that entry |
| Ordering.Sort | backend/app/services/diary_service.py:19-24 | `order_by(...).all()`: a permutation of the input that is ordered by the column in the requested direction |
| DiaryService.ScoreOf | backend/app/services/diary_service.py:36-38 | A score is accepted exactly when it is an `int` (booleans included) between 1 and 10 |
| DiaryService.GetUserDiary | backend/app/services/diary_service.py:9-24 | Exactly the user's entries passing the status filter, each once, ordered by the `sort_by` column, ascending iff `order` is "asc" in any case; raises exactly for the enumerated non-column attributes |
| DiaryService.UnfilteredStatusListsAll | backend/app/services/diary_service.py:14 | A missing, empty or invalid status lists every entry of the user |
| DiaryService.GetEntry | backend/app/services/diary_service.py:26-28 | The entry with that id and that owner, and `None` exactly when this user has no such entry |
| DiaryService.AddToDiary | backend/app/services/diary_service.py:30-72 | A failure is a `ValueError` that changes nothing; missing fields are reported first; success implies every check passed |
| DiaryService.AddToDiaryErrorOrder | backend/app/services/diary_service.py:33-72 | The error is that of the first failed check, in the order missing fields, score, status, anime, existing entry, then a null `user_id` failing at commit; a request passing every check succeeds |
| DiaryService.AddToDiaryAppendsOne | backend/app/services/diary_service.py:58-69 | Success appends exactly one entry with a fresh id, built from the request with its defaults (`watching`, 0), and touches no other table |
| DiaryService.AddToDiaryReadsUserText | backend/app/services/diary_service.py:45-64 | A `user_id` given as decimal text gets the same answer and stores the same row as the integer |
| DiaryService.AddToDiaryReadsAnimeText | backend/app/services/diary_service.py:45-64 | A non-zero `anime_id` given as decimal text gets the same answer and stores the same row as the integer |
| DiaryService.AddToDiaryReadsEpisodesText | backend/app/services/diary_service.py:45-64 | An `episodes_watched` given as decimal text gets the same answer and stores the same row as the integer |
| DiaryService.AddToDiarySameUser | backend/app/services/diary_service.py:45-64 | Any two `user_id` values with the same numeric reading give the same outcome for the same request |
| DiaryService.AddToDiarySameAnime | backend/app/services/diary_service.py:45-64 | Any two `anime_id` values with the same numeric reading and truthiness give the same outcome |
| DiaryService.AddToDiarySameEpisodes | backend/app/services/diary_service.py:45-64 | Any two `episodes_watched` values with the same numeric reading give the same outcome |
| DiaryService.SameAffinityUser | backend/app/services/diary_service.py:50-60 | Two `user_id` values with the same numeric reading give the same outcome |
| DiaryService.SameUserFacts | backend/app/services/diary_service.py:50-60 | Two `user_id` values that find the same entry and store the same cell give the same outcome |
| DiaryService.ColumnIntOfAffinity | backend/app/models/diary_entry.py:19 | Values with the same numeric reading store the same INTEGER cell and are null together |
| DiaryService.SameAffinityAnime | backend/app/services/diary_service.py:45-61 | Two `anime_id` values with the same numeric reading and truthiness give the same outcome |
| DiaryService.SameAnimeFacts | backend/app/services/diary_service.py:45-61 | Two `anime_id` values that find the same anime and the same entry give the same outcome |
| DiaryService.SameAffinityEpisodes | backend/app/services/diary_service.py:64 | Two `episodes_watched` values with the same numeric reading give the same outcome |
| DiaryService.SameEpisodeFacts | backend/app/services/diary_service.py:64 | Two `episodes_watched` values that store the same cell give the same outcome |
| DiaryService.AddToDiaryKeepsValid | backend/app/services/diary_service.py:49-56 | Adding keeps every constraint, including one entry per user and anime |
| DiaryService.UpdateEntry | backend/app/services/diary_service.py:74-103 | `None`, with nothing changed, exactly when the user has no such entry; a failure is a `ValueError` that changes nothing |
| DiaryService.ApplyUpdateAsRequested | backend/app/services/diary_service.py:81-99 | A validated request leaves each named column reading as the request's value, writes only columns Python finds different, and stamps `updated_at` exactly when it writes one |
| DiaryService.UpdateEntryChangesOnlyGivenKeys | backend/app/services/diary_service.py:81-100 | Success rewrites that entry in place as the request asks: only columns whose value Python finds different are written, `updated_at` moves exactly then, and keys, other rows and other tables stay |
| DiaryService.UpdateEntryAcceptsValid | backend/app/services/diary_service.py:81-100 | On the user's entry, a request whose score and status pass validation always succeeds |
| DiaryService.UpdateEntryStampsEqualText | backend/app/models/diary_entry.py:26 | The decimal text of the stored episode count keeps the count but moves `updated_at` to the clock |
| DiaryService.UpdateEntryKeepsValid | backend/app/services/diary_service.py:81-103 | Updating keeps every constraint |
| DiaryService.RemoveFromDiary | backend/app/services/diary_service.py:105-118 | `True` exactly when the user owns the entry; then exactly one row is gone and nothing is added |
| DiaryService.RemoveFromDiaryRemovesExactlyThatEntry | backend/app/services/diary_service.py:112-115 | After a removal no entry has that id and every other entry is still stored |
| DiaryService.RemoveFromDiaryKeepsValid | backend/app/services/diary_service.py:105-118 | Removal keeps every constraint |
| DiaryService.GetStats | backend/app/services/diary_service.py:120-155 | All zeros for a user without entries; otherwise `total_animes` is the number of the user's entries |
| DiaryService.StatusCountsPartition | backend/app/services/diary_service.py:138-143 | On entries with valid statuses the four status counts add up to the number of entries |
| DiaryService.StatsCountsSumToTotal | backend/app/services/diary_service.py:135-143 | In a valid database the status counts of the statistics add up to `total_animes` |
| DiaryService.SumEpisodesOfIntegers | backend/app/services/diary_service.py:145 | When every episode count is an integer or null, `total_episodes` is their integer sum with null as 0 |
| AnimeService.SaveOrUpdate | backend/app/services/anime_service.py:34-63 | A failure is a `ValueError` that changes nothing; success returns the key of a row carrying the record's `mal_id`; users and diary are untouched |
| AnimeService.SaveNewInserts | backend/app/services/anime_service.py:42-63 | A new `mal_id` appends one row with a fresh key built from the record, `title` defaulting to ""; a malformed `images` is an error; a null `mal_id`, and otherwise a null `title`, fails with SQLite's NOT NULL message for that column |
| AnimeService.SaveExistingRefreshes | backend/app/services/anime_service.py:53-59 | A stored `mal_id` refreshes only score, episodes and status of its first row: each given one ends reading as the record's value, is written exactly when Python finds it different, and `updated_at` moves exactly then; every other row and column stays |
| AnimeService.SaveOrUpdateKeepsValid | backend/app/services/anime_service.py:34-63 | An upsert keeps `mal_id` unique and non-null |
| AnimeService.RefreshKeepsValid | backend/app/services/anime_service.py:53-57 | Refreshing a stored row keeps the database valid |
| AnimeService.InsertKeepsValid | backend/app/services/anime_service.py:42-52 | Inserting a new row keeps the database valid |
| AnimeService.NewRowKeepsAnimesOk | backend/app/models/anime.py:9-11 | A row with a fresh key and fresh non-null `mal_id` can be appended, and every key found before is still found |
| AnimeService.SaveAll | backend/app/services/anime_service.py:25-30 | One key per record on success; users and diary untouched whatever happens |
| AnimeService.SaveOrUpdateKeepsKeys | backend/app/services/anime_service.py:34-63 | An upsert keeps every existing row's key and `mal_id` at its index |
| AnimeService.SaveAllKeepsKeys | backend/app/services/anime_service.py:25-30 | A batch keeps every existing row's key and `mal_id` at its index |
| AnimeService.SaveAllOnePerRecord | backend/app/services/anime_service.py:25-30 | The k-th returned key names a final row whose `mal_id` is the k-th record's |
| AnimeService.NamesRowKept | backend/app/services/anime_service.py:25-30 | A key that named a record's row still names it after later saves |
| AnimeService.NamesEveryRecord | backend/app/services/anime_service.py:25-30 | Keys naming the first record and, in order, the rest name every record of the batch in order |
| AnimeService.SaveAllKeepsValid | backend/app/services/anime_service.py:25-30 | A batch of upserts keeps the database valid |
| AnimeService.SearchAnimes | backend/app/services/anime_service.py:10-32 | A failed Jikan request is a `ValueError` prefixed "Error fetching from Jikan API: " that changes nothing; a listing is saved record by record |
| AnimeService.GetAnime | backend/app/services/anime_service.py:65-67 | The row with that primary key, and `None` exactly when there is none |
| AnimeService.GetAnimeByMalId | backend/app/controllers/anime_controller.py:93-94 | The lookup the controller expects: a row with that `mal_id`, and `None` exactly when there is none |
| AnimeService.CreateAnime | backend/app/services/anime_service.py:69-93 | A falsy `mal_id` or `title` is rejected first, then a stored `mal_id`; success appends one row carrying both; failures change nothing |
| AnimeService.CreateRow | backend/app/services/anime_service.py:71-90 | A created row matches the given `mal_id`, which no stored row matched |
| AnimeService.CreateAnimeReadsNumericText | backend/app/services/anime_service.py:71-80 | A non-zero `mal_id` given as decimal text gets the same answer and stores the same row as the integer |
| AnimeService.CreateAnimeRefusesStoredText | backend/app/services/anime_service.py:70-75 | A `mal_id` given as the text of a stored catalog id is refused as "Anime already exists" |
| AnimeService.CreateAnimeRefusesStored | backend/app/services/anime_service.py:70-75 | A non-zero integer `mal_id` that is already stored is refused as "Anime already exists" when a title is given |
| AnimeService.CreateAnimeSameMalId | backend/app/services/anime_service.py:71-80 | Any two `mal_id` values with the same numeric reading and truthiness give the same outcome |
| AnimeService.SameAffinityMalId | backend/app/services/anime_service.py:71-80 | Two `mal_id` values with the same numeric reading and truthiness give the same outcome |
| AnimeService.SameMalIdFacts | backend/app/services/anime_service.py:71-80 | Two `mal_id` values that find the same row and store the same cell give the same outcome |
| AnimeService.CreateAnimeKeepsValid | backend/app/services/anime_service.py:74-90 | Creating keeps `mal_id` unique |
| AnimeService.UpdateAnime | backend/app/services/anime_service.py:95-120 | `None`, with nothing changed, exactly when no row has that key; every failure is "Error updating anime" and changes nothing |
| AnimeService.UpdateAnimeChangesOnlyGivenKeys | backend/app/services/anime_service.py:102-117 | Each column the request names ends reading as its value and is written exactly when Python finds it different; `updated_at` moves exactly then; the key and `mal_id` never change; an empty request changes nothing |
| AnimeService.UpdateAnimeKeepsValid | backend/app/services/anime_service.py:95-120 | Updating keeps the database valid |
| AnimeService.DeleteAnime | backend/app/services/anime_service.py:122-135 | `True` exactly when the row exists and no diary entry references it; then exactly that row is gone and nothing else changes |
| AnimeService.DeleteAnimeKeepsValid | backend/app/services/anime_service.py:129-132 | A deletion keeps the database valid and leaves no row with that key |
| AnimeService.AnimesOkRemoveAt | backend/app/models/anime.py:9-10 | Deleting an anime row keeps keys and `mal_id` unique, and the deleted key is gone |
| AnimeService.EntriesOkWithoutAnime | backend/app/models/diary_entry.py:20 | Diary rows that do not reference the deleted anime still reference stored ones |
| AnimeReplay.AlikeFacts | backend/app/models/anime.py:13-16 | Each refreshed column's SQL comparison is an equivalence that contains Python `==` |
| AnimeReplay.ConvFacts | backend/app/models/anime.py:13-16 | A stored value reads like the value written, and a number column stores values it finds alike identically |
| AnimeReplay.WriteNearOrFar | backend/app/services/anime_service.py:55-57 | On a value alike `p`, a record's value not alike `p` overwrites it and any other keeps it alike `p` |
| AnimeReplay.WriteNear | backend/app/services/anime_service.py:55-57 | A record's value alike `p` leaves a value equal to `p` in place or at the stored form of `p`, and leaves that stored form alone |
| AnimeReplay.WritesConverge | backend/app/services/anime_service.py:55-57 | Once a batch gives a column a value not alike `p`, all start values alike `p` end equal |
| AnimeReplay.WritesSettle | backend/app/services/anime_service.py:55-57 | When every value a batch gives a column is alike `p`, a start equal to `p` ends as itself or the stored form of `p`, which is stable |
| AnimeReplay.WritesIdempotent | backend/app/services/anime_service.py:55-57 | Replaying a batch's Python-`==`-guarded writes to one column changes nothing more |
| AnimeReplay.StepShape | backend/app/services/anime_service.py:53-57 | A refresh changes only score, episodes, status and the update stamp |
| AnimeReplay.RowRunShape | backend/app/services/anime_service.py:25-30 | A batch of refreshes on one row changes only score, episodes, status and the update stamp |
| AnimeReplay.RowRunIdempotent | backend/app/services/anime_service.py:25-30 | Running a batch of refreshes twice on a row equals running it once |
| AnimeReplay.RowRunAbsorb | backend/app/services/anime_service.py:25-30 | A refresh that is a no-op on a row is absorbed after a batch on it (the batch with that refresh in front is idempotent) |
| AnimeReplay.StepIdempotent | backend/app/services/anime_service.py:53-59 | Refreshing a row twice with the same record equals refreshing it once, `updated_at` included |
| AnimeReplay.SaveStep | backend/app/services/anime_service.py:34-63 | One upsert refreshes the old rows, appends at most one, and leaves every matching row a fixpoint |
| AnimeReplay.SaveAllRows | backend/app/services/anime_service.py:25-30 | After a batch each old row is the batch run on it and every row is a fixpoint of the batch |
| AnimeReplay.UpdateKeepsAnimesOk | backend/app/services/anime_service.py:53-57 | Refreshing a stored row keeps the anime table's constraints |
| AnimeReplay.SaveAllUpdatesOnly | backend/app/services/anime_service.py:25-30 | When every record's `mal_id` is stored, a batch succeeds and inserts no row |
| AnimeReplay.MatchingRowsUnique | backend/app/models/anime.py:10 | With unique `mal_id`s the keys naming the records' rows are determined |
| AnimeReplay.SaveAllReplayTable | backend/app/services/anime_service.py:25-30 | The tables a successful batch leaves are a fixpoint of the same batch |
| AnimeReplay.SaveAllReplay | backend/app/services/anime_service.py:10-32 | Re-running a successful search batch with the same answer returns the same keys and changes nothing |
| UserService.PyLen | backend/app/services/user_service.py:11 | `len(v)` succeeds exactly on a string and gives its length; otherwise it raises a non-`ValueError` |
| UserService.TooShort | backend/app/services/user_service.py:11 | `not v or len(v) < n` is false exactly for a string of at least n characters |
| UserService.NotAnEmail | backend/app/services/user_service.py:13 | `not v or '@' not in v` is false exactly for a string containing "@" |
| UserService.CreateUser | backend/app/services/user_service.py:8-34 | Success needs a username of at least 3 characters, an email with "@", a password of at least 8, and a username and email nobody has; it appends that user with the hashed password; failures change nothing |
| UserService.CreateUserErrorOrder | backend/app/services/user_service.py:11-22 | The error is that of the first failed check: username, email, password, taken username, taken email; a request passing every check succeeds |
| UserService.CreateUserKeepsValid | backend/app/services/user_service.py:18-31 | Registration keeps usernames and emails unique |
| UserService.AuthenticateUser | backend/app/services/user_service.py:36-42 | A returned user is stored, its username matches the given one as a TEXT column compares, and its hash accepts the password |
| UserService.AuthenticateNumericUsername | backend/app/services/user_service.py:36-42 | A number given as the username finds the user named by its digits, and authenticates iff that user's hash accepts the password |
| UserService.AuthenticateUserIff | backend/app/services/user_service.py:36-42 | With unique usernames, authentication succeeds exactly when the named user's hash accepts the password |
| UserService.CreateThenAuthenticate | backend/app/services/user_service.py:8-42 | A user just registered authenticates with the password it registered with |
| UserService.GetUser | backend/app/services/user_service.py:44-46 | The user with that key, and `None` exactly when there is none |
| UserService.UpdateUser | backend/app/services/user_service.py:48-70 | `None`, with nothing changed, exactly for an absent user; failures change nothing |
| UserService.UpdateUserChangesOnlyGivenKeys | backend/app/services/user_service.py:55-63 | Only the email and the password hash change, each only when named; id and username stay; other tables untouched |
| UserService.UpdateUserOwnEmailAccepted | backend/app/services/user_service.py:56 | Resubmitting the user's own email is never reported as taken |
| UserService.UpdateUserRefusesNumericEmail | backend/app/services/user_service.py:55-57 | A number given as the email is refused as "Email already exists" when another user's email is its digits |
| UserService.UpdateUserEmailTaken | backend/app/services/user_service.py:55-57 | An email that matches another user's email is refused with "Email already exists" before the password is looked at, and the database is left as it was |
| UserService.UpdateUserKeepsValid | backend/app/services/user_service.py:48-70 | Updating keeps usernames and emails unique and emails non-null |
| UserService.DeleteUser | backend/app/services/user_service.py:72-85 | `True` exactly for a stored user, which is then gone; with `cascade` exactly that user's diary entries go too, without it every entry stays |
| UserService.DeleteUserKeepsValid | backend/app/services/user_service.py:72-85 | Deletion keeps the database valid and the user can no longer be found |
| Http.HandleErrors | backend/app/controllers/diary_controller.py:10-20 | A handler's own response passes through; a `ValueError` becomes 400 and any other exception 500, both with an error message |
| Http.HandleErrorsReportsException | backend/app/controllers/diary_controller.py:16-19 | The exception can be read back from the error response it became |
| Http.Handle | backend/app/controllers/diary_controller.py:10-20 | Running a service call under the decorator keeps its tables and reports its exception |
| DiaryController.EntryList | backend/app/controllers/diary_controller.py:59 | One serialised entry per entry, in order |
| DiaryController.ListedDicts | backend/app/controllers/diary_controller.py:58-59 | A listing holding exactly the listed entries serialises to one listed entry per item |
| DiaryController.GetDiary | backend/app/controllers/diary_controller.py:23-59 | 200 exactly when `sort_by` is not one of the enumerated non-column attributes (else 500), listing exactly as many entries as the user has after the status filter, each one of them |
| DiaryController.GetDiaryEntry | backend/app/controllers/diary_controller.py:62-86 | 404 exactly when no entry has that id; otherwise 200 with that entry |
| DiaryController.AddToDiary | backend/app/controllers/diary_controller.py:89-131 | A body lacking a required key is a 400 "Missing required fields"; 201 exactly when the service accepts; every failure is a 400 changing nothing; a 201 carries a newly stored entry |
| DiaryController.AddToDiaryKeepsValid | backend/app/controllers/diary_controller.py:125-131 | The add route keeps the database valid |
| DiaryController.UpdateDiaryEntry | backend/app/controllers/diary_controller.py:134-174 | 404 exactly when no entry has that id; otherwise 200 with the updated entry or a 400 changing nothing; the 500 branch is unreachable |
| DiaryController.UpdateDiaryEntryKeepsValid | backend/app/controllers/diary_controller.py:166-174 | The update route keeps the database valid |
| DiaryController.RemoveFromDiary | backend/app/controllers/diary_controller.py:177-206 | 404, changing nothing, exactly when no entry has that id; otherwise 200 and one entry fewer |
| DiaryController.RemoveFromDiaryLeavesNoEntry | backend/app/controllers/diary_controller.py:196-206 | After a 200 the database is valid and the entry route answers 404 for that id |
| DiaryController.RemovalByOwner | backend/app/controllers/diary_controller.py:201 | The route deletes on behalf of the entry's own owner, so the service always finds it |
| DiaryController.GetDiaryStats | backend/app/controllers/diary_controller.py:209-227 | 200 exactly when the statistics can be computed (else 500), with `total_animes` the number of the user's entries |
| DiaryController.GetStatsFailsInternally | backend/app/services/diary_service.py:145 | The statistics only fail with a non-`ValueError`, so the route answers 500, never 400 |
| DiaryController.SumEpisodesFailsInternally | backend/app/services/diary_service.py:145 | Summing episode counts can fail only with a non-`ValueError` exception (a text among the counts) |
| DiaryController.StatsPartitionEntries | backend/app/services/diary_service.py:147-155 | In a valid database the rendered status counts add up to the rendered `total_animes` |
| DiaryController.StatsDocCounts | backend/app/services/diary_service.py:147-155 | The rendered dictionary carries each count under its own key |
| AnimeController.StoredAnimes | backend/app/controllers/anime_controller.py:55 | One serialised row per returned key, in order |
| AnimeController.SearchAnimes | backend/app/controllers/anime_controller.py:23-55 | A blank `q` is a 400 that asks the catalogue nothing and changes nothing; otherwise 200 with one item per catalogue record, or a 400 |
| AnimeController.SearchFailsWithValueError | backend/app/services/anime_service.py:31-32 | A search only fails with a `ValueError`, so the route answers 400, never 500 |
| AnimeController.SaveAllFailsWithValueError | backend/app/services/anime_service.py:61-63 | A batch only fails with a `ValueError` |
| AnimeController.GetAnimeFindsRow | backend/app/services/anime_service.py:65-67 | With unique keys the lookup by a stored row's key finds that row |
| AnimeController.SearchListsStoredRows | backend/app/controllers/anime_controller.py:54-55 | A successful search keeps the database valid and lists, record by record, the stored row with that record's `mal_id` |
| AnimeController.SaveAllListing | backend/app/controllers/anime_controller.py:54-55 | The listing of a successful batch names, record by record, the row it saved |
| AnimeController.SearchServed | backend/app/controllers/anime_controller.py:48-55 | A 200 means a non-blank query, a catalogue listing and a successful batch, answered with the saved rows |
| AnimeController.SearchAnswer | backend/app/controllers/anime_controller.py:48-55 | A non-blank query whose listing saves is answered 200 with the saved rows |
| AnimeController.ListsStoredRows | backend/app/controllers/anime_controller.py:55 | Keys naming the records' rows serialise to those rows |
| AnimeController.SearchReplay | backend/app/controllers/anime_controller.py:23-55 | Repeating a successful search with the same catalogue answer and clock returns the same response and changes nothing |
| AnimeController.ListAnimes | backend/app/controllers/anime_controller.py:58-71 | Always 200 with every stored anime, serialised in table order |
| AnimeController.GetAnimeAsWritten | backend/app/controllers/anime_controller.py:74-103 | The handler calls a method the service does not define, so every request escapes as a 500 |
| AnimeController.GetAnimeAsWrittenMissesStoredAnime | backend/app/controllers/anime_controller.py:93-94 | A stored anime with a non-negative key gets 500 from the route as written and 200 from the corrected route |
| AnimeController.GetAnime | backend/app/controllers/anime_controller.py:93-103 | 404 exactly when neither a `mal_id` nor a primary key matches; otherwise 200 with a matching row, and a `mal_id` match wins |
| AnimeController.SearchThenGetByMalId | backend/app/controllers/anime_controller.py:54-103 | After a successful search, each record's non-negative integer `mal_id` fetches exactly the row the search listed for it |
| AnimeController.GetAnimeFindsListedRow | backend/app/controllers/anime_controller.py:93-103 | Looking up a listed row's integer `mal_id` answers with that row |
| AnimeController.LookupFindsListedRow | backend/app/controllers/anime_controller.py:93-94 | The lookup by a listed row's `mal_id` finds exactly that row |
| AnimeController.SameMalIdSameRow | backend/app/models/anime.py:10 | In a valid table at most one row matches a given `mal_id` |
| AnimeController.CreateAnime | backend/app/controllers/anime_controller.py:106-147 | A body lacking `mal_id` or `title` is a 400 "Missing required fields"; 201 exactly when the service accepts, carrying the new last row; every failure is a 400 changing nothing |
| AnimeController.CreateThenList | backend/app/controllers/anime_controller.py:58-147 | A created anime is listed last, exactly as the creation answered it |
| AnimeController.CreateAnimeKeepsValid | backend/app/controllers/anime_controller.py:141-147 | The create route keeps the database valid |
| AnimeController.UpdateAnime | backend/app/controllers/anime_controller.py:150-179 | 404 exactly when no row has that key; a 400 changes nothing; a 200 carries the updated row under its key |
| AnimeController.UpdateAnimeKeepsValid | backend/app/controllers/anime_controller.py:173-179 | The update route keeps the database valid |
| AnimeController.DeleteAnime | backend/app/controllers/anime_controller.py:182-206 | 200 exactly when the row exists and no diary entry references it; otherwise 404 changing nothing |
| AnimeController.DeleteAnimeRemovesRow | backend/app/controllers/anime_controller.py:201-206 | After a 200 no row has that key and the database is valid |
| UserController.Register | backend/app/controllers/user_controller.py:23-64 | A body lacking a required key is a 400; 201 exactly when the service accepts, appending the new user last; failures are 400 or 500 and change nothing |
| UserController.RegisterKeepsValid | backend/app/controllers/user_controller.py:53-64 | Registration keeps the database valid |
| UserController.RegisterThenGetUser | backend/app/controllers/user_controller.py:23-107 | A registered user is fetched by its new id exactly as registration answered it |
| UserController.RegisterTwiceRefused | backend/app/services/user_service.py:19-20 | The same registration sent twice is refused the second time as a taken username, changing nothing |
| UserController.ListUsers | backend/app/controllers/user_controller.py:67-80 | Always 200 with every user, serialised in table order |
| UserController.RegisterThenList | backend/app/controllers/user_controller.py:23-80 | A registered user is listed last, exactly as registration answered it |
| UserController.GetUser | backend/app/controllers/user_controller.py:83-107 | 404 exactly when no user has that id; otherwise 200 with that user |
| UserController.UpdateUser | backend/app/controllers/user_controller.py:110-144 | 404 exactly for an absent user; a missing body is a 500; failures change nothing; a 200 carries the user under its id |
| UserController.UpdateUserRefusesNumericEmail | backend/app/controllers/user_controller.py:110-144 | A number as the email, when another user's email is its digits, answers 400 "Email already exists" and changes nothing |
| UserController.UpdateUserKeepsValid | backend/app/controllers/user_controller.py:138-144 | The update route keeps the database valid |
| UserController.UpdateThenGetUser | backend/app/controllers/user_controller.py:83-144 | After an update, fetching the user answers what the update answered |
| UserController.DeleteUser | backend/app/controllers/user_controller.py:147-171 | 404, changing nothing, exactly when no user has that id; otherwise 200 and one user fewer |
| UserController.DeleteThenGetUser | backend/app/controllers/user_controller.py:147-171 | A deleted user can no longer be fetched and the database stays valid |
| UserController.DeleteUserEmptiesDiary | backend/app/models/diary_entry.py:19 | After a deletion the user's diary lists nothing when it cascades, and exactly what it listed before when it does not |
| UserController.DiaryIgnoresUsers | backend/app/controllers/diary_controller.py:23-59 | A diary listing does not depend on the users table |
| UserController.EntryListIgnoresUsers | backend/app/controllers/diary_controller.py:23-59 | Serialising diary entries reads the animes they name, not the users |
| Js.Or | frontend/client/src/api.js:29 | `a \|\| b` is `a` when it is truthy and `b` otherwise |
| Js.Prop | frontend/client/src/api.js:50 | Reading a member throws `TypeError` exactly on `undefined` or `null`, and a missing member is `undefined` |
| Js.Default | frontend/client/src/api.js:156-158 | A default parameter replaces `undefined` only |
| Js.Stringified | frontend/client/src/api.js:253-258 | `JSON.stringify` keeps exactly the members that are not `undefined`, with their values |
| Js.DocToJsMember | frontend/client/src/api.js:28-29 | Reading a member of a decoded response body reads the decoded member |
| Js.TruthyAgrees | frontend/client/src/api.js:82 | Python and JavaScript agree on which JSON scalars are truthy |
| ApiClient.BodyError | frontend/client/src/api.js:80-83 | A non-JSON error body throws `SyntaxError`, a `null` body `TypeError`, otherwise `Error(body.error)` or the fallback when that is falsy |
| ApiClient.Send | frontend/client/src/api.js:19-33 | Exactly one request; a rejected fetch rethrows, a non-ok answer throws the function's error, an ok answer is read |
| ApiClient.SearchAnimes | frontend/client/src/api.js:16-34 | A query that trims to nothing returns `[]` and sends nothing; any other is sent as typed with limit 12, and an ok body without `animes` gives `[]` |
| ApiClient.GetAnimeDetail | frontend/client/src/api.js:41-55 | One request for that id; a result implies an ok answer |
| ApiClient.RegisterUser | frontend/client/src/api.js:66-91 | One registration request with exactly the defined members; an ok answer yields its `user`; a non-ok answer throws the body's error or "Erro ao registrar usuário"; no answer is a network error |
| ApiClient.GetUser | frontend/client/src/api.js:98-112 | One request for that user; a result implies an ok answer |
| ApiClient.DefaultUserId | frontend/client/src/api.js:7 | The configured id when it is truthy, else 1 |
| ApiClient.GetOrCreateDefaultUser | frontend/client/src/api.js:118-138 | Never throws; the fetched user's id, else a newly registered default user's id, else the configured id |
| ApiClient.DefaultUserWhenOffline | frontend/client/src/api.js:118-138 | With the backend unreachable, two attempts are made and the configured id (or 1) is returned |
| ApiClient.DefaultUserFromBackend | frontend/client/src/api.js:118-122 | When the backend serves the default user, its id is returned and nobody is registered |
| ApiClient.AddBody | frontend/client/src/api.js:152-173 | The add body always carries status, episodes and notes with their defaults, and each required member exactly when its argument is defined |
| ApiClient.AddToDiary | frontend/client/src/api.js:152-187 | One request with that body; an ok answer yields its `entry`; a non-ok answer throws the body's error or "Erro ao adicionar ao diário"; no answer is a network error |
| ApiClient.AddBodyHasRequiredKeys | backend/app/controllers/diary_controller.py:127-128 | Given its three required arguments, the client's body passes the route's required-field check |
| ApiClient.GetDiary | frontend/client/src/api.js:194-208 | One request; an ok body without `entries` gives `[]` |
| ApiClient.GetDiaryEntry | frontend/client/src/api.js:215-229 | One request for that entry; a result implies an ok answer |
| ApiClient.UpdateBody | frontend/client/src/api.js:240-258 | The update body always carries episodes and notes with their defaults, and score and status exactly when given |
| ApiClient.UpdateDiaryEntry | frontend/client/src/api.js:240-272 | One request with that body; an ok answer yields its `entry`; a non-ok answer throws the body's error or "Erro ao atualizar entrada"; no answer is a network error |
| ApiClient.RemoveDiaryEntry | frontend/client/src/api.js:279-295 | `true` exactly on an ok answer, whatever its body; otherwise the body's error or "Erro ao remover entrada" |
| ApiClient.GetDiaryStats | frontend/client/src/api.js:302-316 | One request for that user; a result implies an ok answer |
| ApiClient.ClientReadsHandledError | frontend/client/src/api.js:80-83 | A backend `ValueError` reaches the caller as its message, any other exception as "Internal server error" |
| ApiClient.ReadsServedMember | frontend/client/src/api.js:28-29 | A member a route guarantees reaches the client decoded |
| ApiClient.DetailFromBackend | frontend/client/src/api.js:41-55 | Against the corrected lookup route, the anime it serves on a 200 and "Anime não encontrado" on a 404 |
| ApiClient.DetailFromRouteAsWritten | frontend/client/src/api.js:45-47 | Against the lookup route as written, the detail page never receives an anime |
| ApiClient.SearchFromBackend | frontend/client/src/api.js:16-34 | Against the search route, the listed animes on a 200 and an error with the status text on a 400 |
| ApiClient.SearchFromReply | frontend/client/src/api.js:24-29 | For a non-blank query, a 200 reply yields its `animes` and a 400 the status-text error |
| ApiClient.SearchBlankOnlyToBackend | frontend/client/src/api.js:17 | U+001C is not blank to the client but blank to the backend: it is sent and the client throws the 400 error |
| ApiClient.UserFromBackend | frontend/client/src/api.js:98-112 | Against the user route, the user on a 200 and "Usuário não encontrado" on a 404 |
| ApiClient.DiaryFromBackend | frontend/client/src/api.js:194-208 | Without query parameters the diary route always answers 200 and the client gets its entries |
| ApiClient.EntryFromBackend | frontend/client/src/api.js:215-229 | Against the entry route, the entry on a 200 and "Entrada não encontrada" on a 404 |
| ApiClient.RemoveFromBackend | frontend/client/src/api.js:279-295 | `true` exactly when the delete route deleted the entry, else the route's "Diary entry not found" |
| ApiClient.StatsFromBackend | frontend/client/src/api.js:302-316 | The statistics on a 200; the route's 500 becomes "Erro ao buscar estatísticas" |
| ApiClient.ReadsErrorMessage | frontend/client/src/api.js:80-83 | An error response reporting a message makes the client throw that message, the fallback only for an empty one |
| ApiClient.RegisterFromBackend | frontend/client/src/api.js:66-91 | Against the registration route: the new user on a 201, otherwise the route's error message, "Missing required fields" for an incomplete body |
| ApiClient.UpdateFromBackend | frontend/client/src/api.js:240-272 | Against the update route: the updated entry on a 200, "Diary entry not found" on a 404, otherwise the route's error message |
| ApiClient.AddFromBackend | frontend/client/src/api.js:152-187 | Against the add route: the new entry on a 201, otherwise the route's error message, "Missing required fields" for an incomplete body |
| ApiClient.BlankSearchRefused | backend/app/controllers/anime_controller.py:48-52 | U+001C is not JavaScript whitespace, yet the search route refuses it as blank with a 400 |
| LocalDiary.Load | frontend/client/src/pages/AnimeDetail.tsx:66-67 | The stored list, or `[]` when nothing is stored |
| LocalDiary.SavedScore | frontend/client/src/pages/AnimeDetail.tsx:43-50 | The score of the first saved entry for that anime, else 0 |
| LocalDiary.FirstForUnique | frontend/client/src/pages/AnimeDetail.tsx:69 | `findIndex` picks at most one index |
| LocalDiary.NewEntry | frontend/client/src/pages/AnimeDetail.tsx:70-78 | The new entry throws exactly when the anime has no `images.jpg` path; otherwise it has the local id, the anime and the chosen score |
| LocalDiary.HandleAddToDiary | frontend/client/src/pages/AnimeDetail.tsx:63-88 | Nothing happens without an anime or a score; otherwise the first entry for the anime gets the new score and nothing else changes, or the new entry is appended |
| LocalDiary.AddThenShowScore | frontend/client/src/pages/AnimeDetail.tsx:43-88 | After saving, the anime page shows the score just saved |
| LocalDiary.AddKeepsOnePerAnime | frontend/client/src/pages/AnimeDetail.tsx:80-84 | Saving never creates a second entry for an anime |
| LocalDiary.AddTwiceSame | frontend/client/src/pages/AnimeDetail.tsx:63-88 | Saving the same score again, at any later time, stores the same list |
| LocalDiary.AddWithoutImagesThrows | frontend/client/src/pages/AnimeDetail.tsx:74 | An anime shaped as the backend serialises it has no `images`, so every save throws |
| LocalDiary.ScoreOptionsAreValidScores | frontend/client/src/pages/AnimeDetail.tsx:173 | The offered scores are exactly those the backend accepts for `user_score` |
| LocalDiary.Open | frontend/client/src/pages/Diary.tsx:20-25 | The diary page shows the stored list, or nothing |
| LocalDiary.RemoveEntry | frontend/client/src/pages/Diary.tsx:27-31 | Keeps exactly the entries with another id, each as often, in order, and stores them; an absent id changes nothing |
| LocalDiary.KeptEntries | frontend/client/src/pages/Diary.tsx:28 | The filter keeps exactly the entries whose id differs, and a list without that id whole |
| LocalDiary.UpdateScore | frontend/client/src/pages/Diary.tsx:33-39 | Entries with that id get the score and nothing else changes; length and order kept; stored |
| LocalDiary.UpdateThenShowScore | frontend/client/src/pages/Diary.tsx:33-39 | A re-scored entry shows its new score on its anime's page when it is that anime's first entry |
| LocalDiary.UpdateThenRemove | frontend/client/src/pages/Diary.tsx:27-39 | Removing after re-scoring leaves what removing alone leaves |
| LocalDiary.RemoveUpdatedAgree | frontend/client/src/pages/Diary.tsx:28-35 | Filtering out an id gives the same list before and after re-scoring that id |
| LocalDiary.RemoveTwice | frontend/client/src/pages/Diary.tsx:27-31 | Removing twice is removing once |
| LocalDiary.CountLabel | frontend/client/src/pages/Diary.tsx:48-49 | "1 anime registrado" for one entry, the plural of both words otherwise |
| LocalDiary.CountLabelReadsBack | frontend/client/src/pages/Diary.tsx:48-49 | The label starts with the count, which parses back to the number of entries |

## Left out

- Console logging (`console.error`) and React rendering beyond the count label: no state is involved.
- URL building and `encodeURIComponent`: requests are modelled as datatypes naming the route and its arguments.
- The HTTP call to the Jikan API and its timeout: the catalogue's answer is the parameter `jikan`. Only its `data` records and a failure are modelled.
- Password hashing and checking: these are the parameters `hash` and `check`.
- `datetime.utcnow()` and `Date.now()`: these are the parameter `now`.
- `backend/app/models/user.py` is not part of this model. The user row is assumed to be an id, a unique non-null username, a unique non-null email and a password hash, serialised as id, username and email.
- `to_dict` timestamps: the ISO formatting of `created_at` and `updated_at` is left out; they are integers.
- Floating-point arithmetic: JavaScript numbers and Python floats are `real`.
- Values inside request bodies that are arrays or objects: only JSON scalars are modelled.
- Request bodies that are not JSON objects: a body that does not decode, or decodes to a list, string or number, is not modelled. Flask's `get_json` raises `BadRequest` on an undecodable body, which `handle_errors` turns into a 500, and a string body can pass the key check of `backend/app/controllers/diary_controller.py:127` (a substring test) and then raise `TypeError`, another 500. Every route takes `Option<Data>`: an object or no body.
- `JSON.parse` of arbitrary `localStorage` text: the stored list is given already parsed, as entries.
- `response.statusText`: it is a parameter of each reply.
- The `limit` query parameter's forms that Werkzeug's `int()` accepts beyond an optional sign and decimal digits (underscores, Unicode digits): `Text.ParseInt` covers those two forms only.
- DiaryService.GetStats: states only `total_animes` and the empty case; the status counts and the episode sum are stated by `DiaryService.StatsCountsSumToTotal` and `DiaryService.SumEpisodesOfIntegers`.
- DiaryController.GetDiaryStats: `average_score` is the exact mean; rounding to two decimals is not modelled.
- DiaryController.StatsDocCounts: only the integer members are stated, for the same reason.
- DiaryController.GetDiary: states the number and the membership of listed entries, not their order. The order is stated by `DiaryService.GetUserDiary`.
- AnimeService.SaveOrUpdate: an exception inside the session other than the NOT NULL constraints and a malformed `images` member is not modelled.
- Concurrency and the database session lifecycle: each request runs alone, as one transaction.
- `backend/app/models/diary_entry.py:5` creates a second `SQLAlchemy()` instance instead of importing the shared one of `backend/app/models/__init__.py:3`. That instance is never registered with the app, `create_all` covers only the shared one, and the `relationship('DiaryEntry')` of `backend/app/models/anime.py:21` cannot find a class registered elsewhere. The model follows the evident intent: one instance, one registry and one database holding the three tables.
- Json.NumericAffinity: only the forms an optional sign, digits and an optional point-and-digits take, inside ASCII whitespace, are converted. Exponents (`"5e2"`) and a bare point (`"5."`, `".5"`) are left as text, where SQLite would convert them. Digits spelling an integer outside -2^63..2^63-1 are converted to that exact integer, where SQLite reads a REAL.
- Json.NumericAffinityKeepsWords: `"5e2"` holds a lower-case letter and SQLite reads it as 500; the exponent form is not modelled, so the lemma holds only in the model.
- Text.SqlNumeralRejectsLetter: the letter `e` of an exponent (`"5e2"`) does not make SQLite reject a numeral; the exponent form is not modelled.
- Text.SqlNumeralOnlyNumberChars: SQLite numerals may also hold an exponent marker `e` or `E`; the exponent form is not modelled.
- Json.TextAffinity: a non-integral REAL, or one of magnitude 10^15 or more, keeps its number. SQLite compares its 15-digit `%!.15g` text instead, so a user lookup by such a number may match text the model does not.
- Integers beyond 64 bits. SQLite stores integers in 64 bits and Python's `sqlite3` refuses to bind an `int` outside -2^63..2^63-1 with `OverflowError: Python int too large to convert to SQLite INTEGER`. That is not a `ValueError`: outside a `try` it reaches `handle_errors` as a 500, and inside the `try` of `update_entry`, `update_anime` and `_save_or_update_anime` it becomes their prefixed `ValueError`. SQLite reads integer text beyond 64 bits, and stores an integral float beyond them, as a REAL. The model's integers are unbounded and it has none of these failures or conversions; the lines below name every member whose contract this affects.
- Json.ColumnInt: an integral value outside 64 bits (the text `"99999999999999999999"`, the float 1e20) is stored as the exact integer, where SQLite stores a REAL.
- Json.NumericAffinityOfInteger: holds in SQLite only for integers inside 64 bits; beyond them the text reads as a REAL.
- Json.IntegerTextReadsAlike: holds in SQLite only inside 64 bits.
- Text.SqlNumeralOfInteger: SQLite reads the rendering of an integer beyond 64 bits as a REAL, not as that integer.
- Text.UnsignedSqlNumeral: digits spelling 2^63 or more read as a REAL in SQLite.
- Text.SignedSqlNumeral: below -2^63 SQLite reads a REAL.
- DiaryService.GetUserDiary: a `user_id` outside 64 bits raises `OverflowError` at the query, which the model does not.
- DiaryService.GetEntry: an id or `user_id` outside 64 bits raises `OverflowError`; the model returns `None`.
- DiaryService.AddToDiary: a `user_id`, `anime_id` or `episodes_watched` outside 64 bits raises `OverflowError` at the lookups or at the commit, which is not an `IntegrityError`; the model answers from the unbounded value.
- DiaryService.AddToDiaryErrorOrder: a request passing every check with an integer outside 64 bits fails at the commit in the source; the model says it succeeds.
- DiaryService.AddToDiaryReadsUserText: for n outside 64 bits the integer raises while its text binds and reads as a REAL.
- DiaryService.AddToDiaryReadsAnimeText: for n outside 64 bits the integer raises while its text does not.
- DiaryService.AddToDiaryReadsEpisodesText: for n outside 64 bits the integer fails at the commit while the text is stored as a REAL.
- DiaryService.AddToDiarySameUser: an integer outside 64 bits and its text share a reading in the model, yet only the integer raises.
- DiaryService.AddToDiarySameAnime: the same 64-bit split between an integer and its text.
- DiaryService.AddToDiarySameEpisodes: the same 64-bit split between an integer and its text.
- DiaryService.SameAffinityUser: the same 64-bit split between an integer and its text.
- DiaryService.SameAffinityAnime: the same 64-bit split between an integer and its text.
- DiaryService.SameAffinityEpisodes: the same 64-bit split between an integer and its text.
- DiaryService.UpdateEntry: an id outside 64 bits raises at the lookup, where the model returns `None`; an `episodes_watched` outside 64 bits gives "Error updating entry: Python int too large to convert to SQLite INTEGER", where the model succeeds.
- DiaryService.UpdateEntryChangesOnlyGivenKeys: an `episodes_watched` outside 64 bits makes the source answer "Error updating entry"; the lemma describes the row the model stores for it.
- DiaryService.RemoveFromDiary: an id outside 64 bits raises `OverflowError`; the model returns `False`.
- DiaryService.GetStats: a `user_id` outside 64 bits raises `OverflowError` at the query.
- AnimeService.SaveOrUpdate: a Jikan `mal_id`, `score` or `episodes` that is an integer outside 64 bits fails with "Error saving anime: " and the overflow message in the source, since `sqlite3` binds every `int` as an INTEGER; the model stores it.
- AnimeService.GetAnime: a key outside 64 bits raises `OverflowError`; the model returns `None`.
- AnimeService.CreateAnime: a `mal_id` outside 64 bits raises `OverflowError` at the duplicate check, outside the `try`; the model stores the row.
- AnimeService.CreateAnimeReadsNumericText: for n outside 64 bits the integer raises while its text is stored as a REAL.
- AnimeService.CreateAnimeSameMalId: an integer outside 64 bits and its text share a reading in the model, yet only the integer raises.
- AnimeService.SameAffinityMalId: the same 64-bit split between an integer and its text.
- AnimeService.UpdateAnime: a key outside 64 bits raises at the lookup, where the model returns `None`; `episodes` outside 64 bits gives "Error updating anime", where the model succeeds.
- AnimeService.UpdateAnimeChangesOnlyGivenKeys: `episodes` outside 64 bits makes the source answer "Error updating anime"; the lemma describes the row the model stores for it.
- AnimeService.DeleteAnime: a key outside 64 bits raises `OverflowError` outside the `try`; the model returns `False`.
- UserService.GetUser: a key outside 64 bits raises `OverflowError`; the model returns `None`.
- UserService.UpdateUser: a key outside 64 bits raises at the lookup, and so does an integer `email` that large at the uniqueness query; the model returns `None` or stores it.
- UserService.DeleteUser: a key outside 64 bits raises `OverflowError`; the model returns `False`.
- DiaryController.GetDiary: a user id outside 64 bits answers 500 in the source; the model answers 200.
- DiaryController.GetDiaryEntry: an id outside 64 bits answers 500 in the source, not 404.
- DiaryController.AddToDiary: an `anime_id`, `user_id` or `episodes_watched` outside 64 bits answers 500 in the source, and 400 or 201 in the model.
- DiaryController.UpdateDiaryEntry: an id outside 64 bits answers 500 in the source, not 404, and an `episodes_watched` that large answers 400, not 200.
- DiaryController.RemoveFromDiary: an id outside 64 bits answers 500 in the source, not 404.
- DiaryController.GetDiaryStats: a user id outside 64 bits answers 500 in the source for a reason the model does not have.
- AnimeController.SearchAnimes: a catalogue record with an integer outside 64 bits makes the source answer 400 with the save error; the model answers 200.
- AnimeController.GetAnime: with the corrected lookups, an id outside 64 bits would raise `OverflowError` and answer 500, not 404.
- AnimeController.CreateAnime: a `mal_id` outside 64 bits answers 500 in the source, and 201 in the model.
- AnimeController.UpdateAnime: a key outside 64 bits answers 500 in the source, not 404, and `episodes` that large answers 400, not 200.
- AnimeController.DeleteAnime: a key outside 64 bits answers 500 in the source, not 404.
- UserController.GetUser: an id outside 64 bits answers 500 in the source, not 404.
- UserController.UpdateUser: an id outside 64 bits answers 500 in the source, not 404.
- UserController.DeleteUser: an id outside 64 bits answers 500 in the source, not 404.
- ApiClient.DiaryFromBackend: "always answers 200" holds for user ids inside 64 bits only; beyond them the route answers 500.
- AnimeService.CreateAnime: TEXT affinity is not modelled, so a number written into `title`, `synopsis`, `image_url` or `status` stays a number instead of becoming its text. The same holds for `notes` in DiaryService.AddToDiary and for the email in UserService.UpdateUser. Comparisons of the user columns still apply the affinity to both sides (`Json.TextEq`), so lookups and uniqueness agree with SQLite.
- DiaryService.AddToDiary: numeric text in `user_id`, `anime_id` and `episodes_watched` is read as SQLite reads it, within the forms `Json.NumericAffinity` converts.
- DiaryController.GetDiaryStats: an `episodes_watched` stored from numeric text is an integer, so it sums. Only text outside the converted forms still makes the route answer 500.
- AnimeService.SaveNewInserts: the error message carries SQLAlchemy's `str(e)` only up to the failing column. The SQL statement, its parameters and the documentation link that follow are not modelled.
- Ordering.SortColumn: the non-column attributes are enumerated as current releases define them (Python 3.14, SQLAlchemy 2.0, Flask-SQLAlchemy 3.1): the class body's, the mapping attributes of SQLAlchemy's declarative base and Flask-SQLAlchemy's model base (including `__fsa__`, `__table_cls__` and `__abstract__`), and the attributes of `type` and `object` that `Ordering.PythonClassAttributes` lists (including `__text_signature__`, `__getstate__`, `__annotations__`, `__type_params__`, `__or__`, `__ror__`, `__static_attributes__`, `__firstlineno__` and `__annotate__`). An older release that lacks one of them falls back to `created_at` where the model raises, and an attribute a later release adds falls back in the model where the source raises. The detail text of the resulting error is the model's own.
- DiaryService.GetUserDiary: raises for the attributes `Ordering.SortColumn` enumerates, with the same limit.
- DiaryController.GetDiary: answers 500 for the attributes `Ordering.SortColumn` enumerates, with the same limit.
- Route ids: Werkzeug's `<int:...>` converter matches unsigned digits only, so the routes take a `nat`. Flask's own 404 page for a URL carrying a negative id is not modelled.
- AnimeController.SearchThenGetByMalId: stated for a non-negative `mal_id` only, since no route can carry a negative one.
- AnimeController.GetAnimeAsWrittenMissesStoredAnime: stated for a stored anime with a non-negative key only, since no route can carry a negative one.
- UserService.DeleteUser: whether the user's diary entries go with the user is the parameter `cascade`. The ON DELETE CASCADE of `backend/app/models/diary_entry.py:19` fires only when SQLite enforces foreign keys, which the application never turns on. Any ORM cascade would be declared in the User model, which is not part of this model. A relationship that nulls `user_id` instead (failing NOT NULL, so that `delete_user` rolls back and returns `False`) is not modelled.

## Findings

| source | as written | input that shows it | evidently intended | confidence | as-written member | corrected member |
|---|---|---|---|---|---|---|
| backend/app/controllers/anime_controller.py:94 | `GET /api/animes/<id>` calls `anime_service.get_anime_by_mal_id`, which `AnimeService` does not define, so the attribute lookup raises and every request answers 500 | any id, including the primary key of a stored anime | look the id up as a `mal_id` first and as a primary key second; 404 only when neither matches | not executed | AnimeController.GetAnimeAsWritten (with AnimeController.GetAnimeAsWrittenMissesStoredAnime and ApiClient.DetailFromRouteAsWritten) | AnimeController.GetAnime (with AnimeService.GetAnimeByMalId and AnimeController.SearchThenGetByMalId) |

## Notes on behaviour

- `updateDiaryEntry` sends `user_score` and `status` only when its caller passes them. `JSON.stringify` drops `undefined` members, so the backend then leaves those columns as they were. The model follows the code.
- `handleAddToDiary` reads `anime.images.jpg.image_url`. The backend serialises an anime with `image_url` and no `images`, so saving from the detail page throws a `TypeError` for any anime the backend serves (`LocalDiary.AddWithoutImagesThrows`).
- The client and the backend disagree on blank queries. Python's `str.strip` treats U+001C..U+001F as whitespace; JavaScript's `trim` does not. Such a query is sent, refused with 400, and surfaces as the client's search error (`ApiClient.SearchBlankOnlyToBackend`).
- `DELETE /api/animes/<id>` answers 404 for a stored anime that a diary entry references. The relationship nulls the entry's `anime_id`, the NOT NULL constraint fails, and the service rolls back and returns `False`.

=== FILE: anime_controller.dfy ===
/**
 * The `/api/animes` routes: search through the Jikan catalogue, the listing, the
 * lookup of one anime, and the manual create, update and delete.
 */
module AnimeController {
  import opened Wrappers
  import opened Json
  import opened Store
  import opened Http
  import opened Strings = Text
  import Service = AnimeService
  import Replay = AnimeReplay

  const MsgQueryRequired: string := "Search query is required"
  const MsgAnimeNotFound: string := "Anime not found"
  const MsgCreated: string := "Anime created successfully"
  const MsgUpdated: string := "Anime updated successfully"
  const MsgDeleted: string := "Anime deleted successfully"
  const DefaultLimit: int := 12

  /** What `str()` of the exception says when the controller calls a method the service lacks. */
  const MsgNoMalIdLookup: string := "'AnimeService' object has no attribute 'get_anime_by_mal_id'"

  /** `request.args.get('limit', 12, type=int)`: a value `int()` rejects falls back to 12. */
  function Limit(arg: Option<string>): int {
    if arg.None? then DefaultLimit
    else match ParseInt(arg.value)
      case Some(n) => n
      case None => DefaultLimit
  }

  /** The stored row with this primary key, serialised as the response lists it. */
  function StoredAnime(db: Db, id: int): Doc {
    match Service.GetAnime(db, id)
    case Some(a) => AnimeDict(a)
    case None => Leaf(Null)
  }

  function StoredAnimes(db: Db, ids: seq<int>): (d: Doc)
    ensures d.List? && |d.items| == |ids|
    ensures forall i :: 0 <= i < |ids| ==> d.items[i] == StoredAnime(db, ids[i])
  {
    List(seq(|ids|, i requires 0 <= i < |ids| => StoredAnime(db, ids[i])))
  }

  /** The text the search route sends to the catalogue: `q`, stripped. */
  function Query(q: Option<string>): string {
    Strip(ArgOr(q, ""), PySpace)
  }

  /**
   * `GET /api/animes/search?q=&limit=`: a blank `q` gets 400 "Search query is
   * required" without consulting the catalogue; otherwise the catalogue's answer to
   * the stripped query is saved record by record and the saved rows are listed.
   * `jikan` stands for the HTTP request to the Jikan API.
   */
  function SearchAnimes(db: Db, q: Option<string>, limit: Option<string>,
                        jikan: (string, int) -> Service.JikanReply, now: int): (s: Served)
    ensures AllIn(ArgOr(q, ""), PySpace) ==> s == Served(ErrorReply(400, MsgQueryRequired), db)
    ensures s.response.status == 200 || s.response.status == 400
    ensures s.response.status == 200 ==>
      && jikan(Query(q), Limit(limit)).Listing?
      && Member(s.response, "animes").Some? && Member(s.response, "animes").value.List?
      && |Member(s.response, "animes").value.items| == |jikan(Query(q), Limit(limit)).records|
  {
    StripEmptyIffAllSpace(ArgOr(q, ""), PySpace);
    var query := Query(q);
    if query == [] then Served(ErrorReply(400, MsgQueryRequired), db)
    else
      var reply := jikan(query, Limit(limit));
      SearchFailsWithValueError(db, reply, now);
      var t := Service.SearchAnimes(db, reply, now);
      match t.result
      case Ok(ids) => Served(Response(200, Object(map["animes" := StoredAnimes(t.db, ids)])), t.db)
      case Err(x) => Served(HandleErrors(Err(x)), t.db)
  }

  lemma SearchFailsWithValueError(db: Db, reply: Service.JikanReply, now: int)
    ensures var t := Service.SearchAnimes(db, reply, now);
      t.result.Err? ==> t.result.error.ValueError?
  {
    if reply.Listing? {
      SaveAllFailsWithValueError(db, reply.records, now);
    }
  }

  lemma {:induction false} SaveAllFailsWithValueError(db: Db, recs: seq<Service.JikanRecord>, now: int)
    ensures Service.SaveAll(db, recs, now).result.Err? ==> Service.SaveAll(db, recs, now).result.error.ValueError?
    decreases |recs|
  {
    if recs != [] {
      var first := Service.SaveOrUpdate(db, recs[0], now);
      if first.result.Ok? {
        SaveAllFailsWithValueError(first.db, recs[1..], now);
      }
    }
  }

  /** In a table with unique primary keys, the lookup by key finds the row at any index holding it. */
  lemma GetAnimeFindsRow(db: Db, i: nat)
    requires AnimesOk(db.animes) && i < |db.animes|
    ensures Service.GetAnime(db, db.animes[i].id) == Some(db.animes[i])
  {
  }

  /**
   * A successful search on a valid database lists, in the catalogue's order, the
   * stored row of each record: the row whose `mal_id` is the record's.
   */
  lemma SearchListsStoredRows(db: Db, q: Option<string>, limit: Option<string>,
                              jikan: (string, int) -> Service.JikanReply, now: int)
    requires Valid(db)
    requires SearchAnimes(db, q, limit, jikan, now).response.status == 200
    ensures var s := SearchAnimes(db, q, limit, jikan, now);
      var recs := jikan(Query(q), Limit(limit)).records;
      var items := Member(s.response, "animes").value.items;
      && Valid(s.db)
      && ListsMatchingRows(items, s.db.animes, recs)
  {
    SearchServed(db, q, limit, jikan, now);
    SaveAllListing(db, jikan(Query(q), Limit(limit)).records, now);
  }

  /** The listing a successful batch renders names, record by record, the row it saved. */
  lemma SaveAllListing(db: Db, recs: seq<Service.JikanRecord>, now: int)
    requires Valid(db)
    requires Service.SaveAll(db, recs, now).result.Ok?
    ensures var t := Service.SaveAll(db, recs, now);
      Valid(t.db) && ListsMatchingRows(StoredAnimes(t.db, t.result.value).items, t.db.animes, recs)
  {
    var t := Service.SaveAll(db, recs, now);
    Service.SaveAllKeepsValid(db, recs, now);
    Service.SaveAllOnePerRecord(db, recs, now);
    assert Replay.NamesMatchingRows(t.db.animes, recs, t.result.value);
    ListsStoredRows(t.db, recs, t.result.value);
  }

  /** A successful search answers with the saved rows, looked up by the keys the batch returned. */
  lemma SearchServed(db: Db, q: Option<string>, limit: Option<string>,
                     jikan: (string, int) -> Service.JikanReply, now: int)
    requires SearchAnimes(db, q, limit, jikan, now).response.status == 200
    ensures Query(q) != [] && jikan(Query(q), Limit(limit)).Listing?
    ensures var t := Service.SaveAll(db, jikan(Query(q), Limit(limit)).records, now);
      && t.result.Ok?
      && SearchAnimes(db, q, limit, jikan, now)
         == Served(Response(200, Object(map["animes" := StoredAnimes(t.db, t.result.value)])), t.db)
  {
    StripEmptyIffAllSpace(ArgOr(q, ""), PySpace);
  }

  /** A non-blank query whose listing saves without error is answered 200 with the saved rows. */
  lemma SearchAnswer(db: Db, q: Option<string>, limit: Option<string>,
                     jikan: (string, int) -> Service.JikanReply, now: int)
    requires Query(q) != [] && jikan(Query(q), Limit(limit)).Listing?
    requires Service.SaveAll(db, jikan(Query(q), Limit(limit)).records, now).result.Ok?
    ensures var t := Service.SaveAll(db, jikan(Query(q), Limit(limit)).records, now);
      SearchAnimes(db, q, limit, jikan, now)
        == Served(Response(200, Object(map["animes" := StoredAnimes(t.db, t.result.value)])), t.db)
  {
  }

  /** Item `k` of a listing is the serialised stored row whose `mal_id` is record `k`'s. */
  predicate ListsMatchingRows(items: seq<Doc>, animes: seq<Anime>, recs: seq<Service.JikanRecord>) {
    |items| == |recs| && forall k :: 0 <= k < |recs| ==> ListsRowAt(items[k], animes, recs[k])
  }

  /** `item` is the serialised stored row whose `mal_id` is the record's. */
  predicate ListsRowAt(item: Doc, animes: seq<Anime>, rec: Service.JikanRecord) {
    exists i :: 0 <= i < |animes| && item == AnimeDict(animes[i]) && SqlEq(animes[i].malId, Service.MalIdOf(rec))
  }

  lemma ListsStoredRows(d: Db, recs: seq<Service.JikanRecord>, ids: seq<int>)
    requires AnimesOk(d.animes)
    requires Replay.NamesMatchingRows(d.animes, recs, ids)
    ensures ListsMatchingRows(StoredAnimes(d, ids).items, d.animes, recs)
  {
    var items := StoredAnimes(d, ids).items;
    forall k | 0 <= k < |recs|
      ensures ListsRowAt(items[k], d.animes, recs[k])
    {
      var id, rec := ids[k], recs[k];
      var i :| 0 <= i < |d.animes| && d.animes[i].id == id && SqlEq(d.animes[i].malId, Service.MalIdOf(rec));
      GetAnimeFindsRow(d, i);
      assert items[k] == AnimeDict(d.animes[i]);
    }
  }

  /**
   * Running the same search again against the same catalogue answer (and clock)
   * returns the same response and changes nothing more.
   */
  lemma SearchReplay(db: Db, q: Option<string>, limit: Option<string>,
                     jikan: (string, int) -> Service.JikanReply, now: int)
    requires Valid(db)
    requires SearchAnimes(db, q, limit, jikan, now).response.status == 200
    ensures var s := SearchAnimes(db, q, limit, jikan, now);
      SearchAnimes(s.db, q, limit, jikan, now) == s
  {
    var recs := jikan(Query(q), Limit(limit)).records;
    SearchServed(db, q, limit, jikan, now);
    Replay.SaveAllReplay(db, recs, now);
    SearchAnswer(Service.SaveAll(db, recs, now).db, q, limit, jikan, now);
  }

  /** `GET /api/animes`: every stored anime, in table order. */
  function ListAnimes(db: Db): (r: Response)
    ensures r.status == 200
    ensures Member(r, "animes").Some? && Member(r, "animes").value.List?
    ensures |Member(r, "animes").value.items| == |db.animes|
    ensures forall i :: 0 <= i < |db.animes| ==> Member(r, "animes").value.items[i] == AnimeDict(db.animes[i])
  {
    Response(200, Object(map["animes" := List(seq(|db.animes|, i requires 0 <= i < |db.animes| => AnimeDict(db.animes[i])))]))
  }

  /**
   * `GET /api/animes/<anime_id>` as written: the handler first calls
   * `get_anime_by_mal_id`, which the service does not define, so the attribute
   * lookup raises and every request, whatever the id, is answered 500.
   */
  function GetAnimeAsWritten(db: Db, id: nat): (r: Response)
    ensures ReportedException(r) == Some(Internal(MsgNoMalIdLookup))
  {
    HandleErrorsReportsException(Internal(MsgNoMalIdLookup));
    HandleErrors(Err(Internal(MsgNoMalIdLookup)))
  }

  /** Even an anime that is stored cannot be fetched through the route as written. */
  lemma GetAnimeAsWrittenMissesStoredAnime(db: Db, i: nat)
    requires i < |db.animes| && db.animes[i].id >= 0
    ensures GetAnimeAsWritten(db, db.animes[i].id).status == 500
    ensures GetAnime(db, db.animes[i].id).status == 200
  {
    assert db.animes[i] in db.animes;
  }

  /**
   * `GET /api/animes/<anime_id>` as its comments intend: the id is looked up as a
   * catalogue `mal_id` first and as a primary key second; 404 "Anime not found"
   * exactly when neither matches. A `mal_id` match wins over a primary-key match.
   */
  function GetAnime(db: Db, id: nat): (r: Response)
    ensures r.status == 404 <==> forall a :: a in db.animes ==> !SqlEq(a.malId, Int(id)) && a.id != id
    ensures r.status != 404 ==>
      && r.status == 200
      && exists a :: a in db.animes && Member(r, "anime") == Some(AnimeDict(a))
           && (SqlEq(a.malId, Int(id)) || a.id == id)
    ensures (exists a :: a in db.animes && SqlEq(a.malId, Int(id))) ==>
      exists a :: a in db.animes && Member(r, "anime") == Some(AnimeDict(a)) && SqlEq(a.malId, Int(id))
  {
    match Service.GetAnimeByMalId(db, id)
    case Some(a) => Response(200, Object(map["anime" := AnimeDict(a)]))
    case None =>
      assert forall a :: a in db.animes ==> !SqlEq(a.malId, Int(id)) by {
        forall a | a in db.animes
          ensures !SqlEq(a.malId, Int(id))
        {
          var k :| 0 <= k < |db.animes| && db.animes[k] == a;
        }
      }
      match Service.GetAnime(db, id)
      case Some(a) => Response(200, Object(map["anime" := AnimeDict(a)]))
      case None => ErrorReply(404, MsgAnimeNotFound)
  }

  /**
   * After a successful search every record whose `mal_id` is an integer can be
   * fetched by that `mal_id`, and the lookup answers with the row the search listed.
   */
  lemma SearchThenGetByMalId(db: Db, q: Option<string>, limit: Option<string>,
                             jikan: (string, int) -> Service.JikanReply, now: int, k: nat)
    requires Valid(db)
    requires SearchAnimes(db, q, limit, jikan, now).response.status == 200
    requires k < |jikan(Query(q), Limit(limit)).records|
    requires Service.MalIdOf(jikan(Query(q), Limit(limit)).records[k]).Int?
    requires Service.MalIdOf(jikan(Query(q), Limit(limit)).records[k]).i >= 0
    ensures var s := SearchAnimes(db, q, limit, jikan, now);
      var r := GetAnime(s.db, Service.MalIdOf(jikan(Query(q), Limit(limit)).records[k]).i);
      r.status == 200 && Member(r, "anime") == Some(Member(s.response, "animes").value.items[k])
  {
    var recs := jikan(Query(q), Limit(limit)).records;
    var s := SearchAnimes(db, q, limit, jikan, now);
    SearchListsStoredRows(db, q, limit, jikan, now);
    var item, rec := Member(s.response, "animes").value.items[k], recs[k];
    assert ListsRowAt(item, s.db.animes, rec);
    GetAnimeFindsListedRow(s.db, item, rec, Service.MalIdOf(rec).i);
  }

  /** Looking up a listed row's integer `mal_id` answers with that very row. */
  lemma GetAnimeFindsListedRow(d: Db, item: Doc, rec: Service.JikanRecord, m: nat)
    requires AnimesOk(d.animes)
    requires ListsRowAt(item, d.animes, rec) && Service.MalIdOf(rec) == Int(m)
    ensures GetAnime(d, m).status == 200 && Member(GetAnime(d, m), "anime") == Some(item)
  {
    LookupFindsListedRow(d, item, rec, m);
    GetAnimeAnswersFound(d, m);
  }

  /** The service's lookup by that `mal_id` finds the listed row itself. */
  lemma LookupFindsListedRow(d: Db, item: Doc, rec: Service.JikanRecord, m: nat)
    requires AnimesOk(d.animes)
    requires ListsRowAt(item, d.animes, rec) && Service.MalIdOf(rec) == Int(m)
    ensures Service.GetAnimeByMalId(d, m).Some? && AnimeDict(Service.GetAnimeByMalId(d, m).value) == item
  {
    var i :| 0 <= i < |d.animes| && item == AnimeDict(d.animes[i]) && SqlEq(d.animes[i].malId, Int(m));
    var found := Service.GetAnimeByMalId(d, m);
    assert found.Some?;
    var j :| 0 <= j < |d.animes| && d.animes[j] == found.value;
    SameMalIdSameRow(d.animes, i, j, Int(m));
  }

  /** In a valid table at most one row matches a given `mal_id`. */
  lemma SameMalIdSameRow(animes: seq<Anime>, i: nat, j: nat, given: Value)
    requires AnimesOk(animes) && i < |animes| && j < |animes|
    requires SqlEq(animes[i].malId, given) && SqlEq(animes[j].malId, given)
    ensures i == j
  {
    SqlEqSameGiven(animes[i].malId, animes[j].malId, given);
  }

  /** A row found by `mal_id` is the one the route answers with. */
  lemma GetAnimeAnswersFound(d: Db, m: nat)
    requires Service.GetAnimeByMalId(d, m).Some?
    ensures GetAnime(d, m) == Response(200, Object(map["anime" := AnimeDict(Service.GetAnimeByMalId(d, m).value)]))
  {
  }

  /** The keys `POST /api/animes` requires in its body. */
  const CreateKeys: seq<string> := ["mal_id", "title"]

  /**
   * `POST /api/animes`: a missing body or one without `mal_id` or `title` gets 400
   * "Missing required fields"; otherwise the service creates the row. Every
   * failure is a 400 that changes nothing; a 201 carries the new, last row.
   */
  function CreateAnime(db: Db, data: Option<Data>, now: int): (s: Served)
    ensures Lacks(data, CreateKeys) ==> s == Served(ErrorReply(400, Service.MsgMissingFields), db)
    ensures s.response.status == 201 <==>
      !Lacks(data, CreateKeys) && Service.CreateAnime(db, data.value, now).result.Ok?
    ensures s.response.status != 201 ==> s.response.status == 400 && s.db == db
    ensures s.response.status == 201 ==>
      && |s.db.animes| == |db.animes| + 1
      && s.db.animes[..|db.animes|] == db.animes
      && Member(s.response, "anime") == Some(AnimeDict(s.db.animes[|db.animes|]))
  {
    if Lacks(data, CreateKeys) then Served(ErrorReply(400, Service.MsgMissingFields), db)
    else
      var t := Service.CreateAnime(db, data.value, now);
      Handle(t, (a: Anime) => Response(201, Object(map["message" := Text(MsgCreated), "anime" := AnimeDict(a)])))
  }

  /** A created anime is listed last by `GET /api/animes`, exactly as the creation answered it. */
  lemma CreateThenList(db: Db, data: Option<Data>, now: int)
    requires CreateAnime(db, data, now).response.status == 201
    ensures var s := CreateAnime(db, data, now);
      var items := Member(ListAnimes(s.db), "animes").value.items;
      |items| == |db.animes| + 1 && Some(items[|db.animes|]) == Member(s.response, "anime")
  {
  }

  lemma CreateAnimeKeepsValid(db: Db, data: Option<Data>, now: int)
    requires Valid(db)
    ensures Valid(CreateAnime(db, data, now).db)
  {
    if !Lacks(data, CreateKeys) {
      Service.CreateAnimeKeepsValid(db, data.value, now);
    }
  }

  /**
   * `PUT /api/animes/<anime_id>`: 404 exactly when no row has that primary key; a
   * missing body or a null title is a 400 that changes nothing; a 200 carries the
   * updated row, which keeps its primary key.
   */
  function UpdateAnime(db: Db, id: nat, data: Option<Data>, now: int): (s: Served)
    ensures s.response.status == 404 <==> forall a :: a in db.animes ==> a.id != id
    ensures s.response.status == 200 || s.response.status == 400 || s.response.status == 404
    ensures s.response.status != 200 ==> s.db == db
    ensures s.response.status == 200 ==>
      exists a :: a in s.db.animes && a.id == id && Member(s.response, "anime") == Some(AnimeDict(a))
  {
    var t := Service.UpdateAnime(db, id, data, now);
    match t.result
    case Ok(Some(a)) =>
      var k := AnimeIndex(db.animes, id).value;
      assert t.db.animes[k] == a;
      Served(Response(200, Object(map["message" := Text(MsgUpdated), "anime" := AnimeDict(a)])), t.db)
    case Ok(None) =>
      assert forall a :: a in db.animes ==> a.id != id by {
        forall a | a in db.animes
          ensures a.id != id
        {
          var k :| 0 <= k < |db.animes| && db.animes[k] == a;
        }
      }
      Served(ErrorReply(404, MsgAnimeNotFound), t.db)
    case Err(x) => Served(HandleErrors(Err(x)), t.db)
  }

  lemma UpdateAnimeKeepsValid(db: Db, id: nat, data: Option<Data>, now: int)
    requires Valid(db)
    ensures Valid(UpdateAnime(db, id, data, now).db)
  {
    Service.UpdateAnimeKeepsValid(db, id, data, now);
  }

  /**
   * `DELETE /api/animes/<anime_id>`: 200 exactly when the row exists and no diary
   * entry references it; otherwise 404 and nothing changes.
   */
  function DeleteAnime(db: Db, id: nat): (s: Served)
    ensures s.response.status == 200 <==>
      (exists a :: a in db.animes && a.id == id) && forall e :: e in db.entries ==> e.animeId != id
    ensures s.response.status != 200 ==> s.response.status == 404 && s.db == db
  {
    var t := Service.DeleteAnime(db, id);
    if t.result.value then Served(Response(200, Object(map["message" := Text(MsgDeleted)])), t.db)
    else Served(ErrorReply(404, MsgAnimeNotFound), t.db)
  }

  /** After a 200 from the delete route no row has that primary key, and the database stays valid. */
  lemma DeleteAnimeRemovesRow(db: Db, id: nat)
    requires Valid(db)
    requires DeleteAnime(db, id).response.status == 200
    ensures Valid(DeleteAnime(db, id).db)
    ensures forall a :: a in DeleteAnime(db, id).db.animes ==> a.id != id
  {
    Service.DeleteAnimeKeepsValid(db, id);
  }
}

=== FILE: anime_replay.dfy ===
/**
 * Replaying a search: running the same batch of Jikan records a second time, with
 * the same clock, leaves the anime table exactly as the first run left it and
 * returns the same rows.
 *
 * The argument is row by row. A record only touches the row whose `mal_id` it
 * matches, and on that row it writes score, episodes and status when Python finds
 * its value different from the loaded one. A column's value after a batch is
 * therefore not simply the last value given to it: a start value equal to that
 * last value survives. The argument instead tracks which values the column's SQL
 * comparison finds alike, and `updated_at` ends at the run's clock as soon as any
 * write happened.
 */
module AnimeReplay {
  import opened Wrappers
  import opened Json
  import opened Store
  import opened AnimeService

  /** Record `r` upserts the row whose `mal_id` is `m`. */
  predicate Applies(r: JikanRecord, m: Value) {
    SqlEq(m, MalIdOf(r))
  }

  /** What record `r` does to row `a`. */
  function Step(r: JikanRecord, a: Anime, now: int): Anime {
    if Applies(r, a.malId) then Touch(Refresh(a, r.fields), RefreshDirty(a, r.fields), now) else a
  }

  /** What a batch does to row `a`, record by record. */
  function RowRun(recs: seq<JikanRecord>, a: Anime, now: int): Anime
    decreases |recs|
  {
    if recs == [] then a else RowRun(recs[1..], Step(recs[0], a, now), now)
  }

  // ---------------------------------------------------------------------------
  // One column under a sequence of writes

  /** The kinds of column a record refreshes: FLOAT (score), INTEGER (episodes) and VARCHAR (status). */
  datatype Column = RealColumn | IntColumn | TextColumn

  /** What the column stores when `v` is written to it. */
  function Conv(c: Column, v: Value): Value {
    match c
    case RealColumn => ColumnReal(v)
    case IntColumn => ColumnInt(v)
    case TextColumn => v
  }

  /** Whether the column's own SQL comparison finds `a` and `b` equal. */
  predicate Alike(c: Column, a: Value, b: Value) {
    if c.TextColumn? then SameValue(a, b) else SqlEq(a, b)
  }

  /** `Alike` is an equivalence that contains Python `==`. */
  lemma AlikeFacts(c: Column, a: Value, b: Value, d: Value)
    ensures Alike(c, a, a)
    ensures Alike(c, a, b) ==> Alike(c, b, a)
    ensures Alike(c, a, b) && Alike(c, b, d) ==> Alike(c, a, d)
    ensures SameValue(a, b) ==> Alike(c, a, b)
  {
    SqlEqRefl(a);
    SqlEqSym(a, b);
    SameValueSym(a, b);
    if Alike(c, a, b) && Alike(c, b, d) {
      if c.TextColumn? {
        SameValueTrans(a, b, d);
      } else {
        SameValueTrans(NumericAffinity(a), NumericAffinity(b), NumericAffinity(d));
      }
    }
    if SameValue(a, b) {
      SameValueAffinity(a, b);
    }
  }

  /**
   * A stored value reads like the value written, and a number column stores values
   * it finds alike identically.
   */
  lemma ConvFacts(c: Column, a: Value, b: Value)
    ensures Alike(c, Conv(c, a), a)
    ensures !c.TextColumn? && Alike(c, a, b) ==> Conv(c, a) == Conv(c, b)
  {
    ReadsAsGiven(a, a);
    SameValueRefl(a);
  }

  /**
   * The value a column holds after record `r`, on the row whose `mal_id` is `m`:
   * the record's value is written only when Python finds it different.
   */
  function Write(r: JikanRecord, m: Value, key: string, c: Column, v: Value): Value {
    if Applies(r, m) && Dirty(r.fields, key, v) then Conv(c, r.fields[key]) else v
  }

  function Writes(recs: seq<JikanRecord>, m: Value, key: string, c: Column, v: Value): Value
    decreases |recs|
  {
    if recs == [] then v else Writes(recs[1..], m, key, c, Write(recs[0], m, key, c, v))
  }

  /** Record `r` gives this column of this row a value the column does not find alike `p`. */
  predicate FarHead(r: JikanRecord, m: Value, key: string, c: Column, p: Value) {
    Applies(r, m) && key in r.fields && !Alike(c, r.fields[key], p)
  }

  /** Some record of the batch gives this column of this row a value not alike `p`. */
  predicate FarWrite(recs: seq<JikanRecord>, m: Value, key: string, c: Column, p: Value)
    decreases |recs|
  {
    recs != [] && (FarHead(recs[0], m, key, c, p) || FarWrite(recs[1..], m, key, c, p))
  }

  /**
   * One record on a start value alike `p`: a value not alike `p` overwrites it,
   * and any other write leaves it alike `p`.
   */
  lemma WriteNearOrFar(r: JikanRecord, m: Value, key: string, c: Column, p: Value, x: Value)
    requires Alike(c, x, p)
    ensures FarHead(r, m, key, c, p) ==> Write(r, m, key, c, x) == Conv(c, r.fields[key])
    ensures !FarHead(r, m, key, c, p) ==> Alike(c, Write(r, m, key, c, x), p)
  {
    if Applies(r, m) && key in r.fields {
      var raw := r.fields[key];
      AlikeFacts(c, x, raw, p);
      ConvFacts(c, raw, raw);
      AlikeFacts(c, Conv(c, raw), raw, p);
    }
  }

  /**
   * One record whose value is alike `p`: a start value equal to `p` survives or
   * becomes the stored form of `p`, and the stored form of `p` survives.
   */
  lemma WriteNear(r: JikanRecord, m: Value, key: string, c: Column, p: Value, x: Value)
    requires !FarHead(r, m, key, c, p)
    ensures SameValue(x, p) ==> Write(r, m, key, c, x) == x || Write(r, m, key, c, x) == Conv(c, p)
    ensures Write(r, m, key, c, Conv(c, p)) == Conv(c, p)
  {
    if Applies(r, m) && key in r.fields {
      var raw := r.fields[key];
      ConvFacts(c, raw, p);
      ConvFacts(c, p, p);
      AlikeFacts(c, raw, p, p);
      SameValueSym(raw, p);
      if SameValue(x, p) && c.TextColumn? {
        SameValueTrans(x, p, raw);
      }
    }
  }

  /**
   * Two start values alike `p` end equal once the batch gives the column a value
   * not alike `p`: neither is equal to that value, so both are overwritten.
   */
  lemma {:induction false} WritesConverge(recs: seq<JikanRecord>, m: Value, key: string, c: Column,
                                          p: Value, x: Value, y: Value)
    requires Alike(c, x, p) && Alike(c, y, p)
    requires FarWrite(recs, m, key, c, p)
    ensures Writes(recs, m, key, c, x) == Writes(recs, m, key, c, y)
    decreases |recs|
  {
    var r := recs[0];
    WriteNearOrFar(r, m, key, c, p, x);
    WriteNearOrFar(r, m, key, c, p, y);
    if !FarHead(r, m, key, c, p) {
      WritesConverge(recs[1..], m, key, c, p, Write(r, m, key, c, x), Write(r, m, key, c, y));
    }
  }

  /**
   * When every value the batch gives the column is alike `p`, a start value equal
   * to `p` either survives or becomes the stored form of `p`, and the stored form of
   * `p` survives.
   */
  lemma {:induction false} WritesSettle(recs: seq<JikanRecord>, m: Value, key: string, c: Column,
                                        p: Value, x: Value)
    requires !FarWrite(recs, m, key, c, p)
    ensures SameValue(x, p) ==>
      Writes(recs, m, key, c, x) == x || Writes(recs, m, key, c, x) == Conv(c, p)
    ensures Writes(recs, m, key, c, Conv(c, p)) == Conv(c, p)
    decreases |recs|
  {
    if recs != [] {
      var r := recs[0];
      WriteNear(r, m, key, c, p, x);
      WritesSettle(recs[1..], m, key, c, p, Write(r, m, key, c, x));
    }
  }

  /** Replaying a batch's writes to one column changes nothing more. */
  lemma {:induction false} WritesIdempotent(recs: seq<JikanRecord>, m: Value, key: string, c: Column, v: Value)
    ensures Writes(recs, m, key, c, Writes(recs, m, key, c, v)) == Writes(recs, m, key, c, v)
    decreases |recs|
  {
    if recs != [] {
      var r, rest := recs[0], recs[1..];
      var u := Write(r, m, key, c, v);
      var y := Writes(rest, m, key, c, u);
      WritesIdempotent(rest, m, key, c, u);
      if Write(r, m, key, c, y) != y && !Dirty(r.fields, key, v) {
        var raw := r.fields[key];
        assert u == v && SameValue(v, raw);
        if FarWrite(rest, m, key, c, raw) {
          ConvFacts(c, raw, raw);
          AlikeFacts(c, v, raw, raw);
          WritesConverge(rest, m, key, c, raw, Conv(c, raw), v);
        } else {
          WritesSettle(rest, m, key, c, raw, v);
        }
      }
    }
  }

  // ---------------------------------------------------------------------------
  // One row under a batch

  /** Whether two rows agree on every column but `updated_at`. */
  predicate SameButStamp(a: Anime, b: Anime) {
    a.(updatedAt := 0) == b.(updatedAt := 0)
  }

  lemma StepShape(r: JikanRecord, a: Anime, now: int)
    ensures var b := Step(r, a, now);
      && b.id == a.id && b.malId == a.malId && b.title == a.title && b.synopsis == a.synopsis
      && b.imageUrl == a.imageUrl && b.createdAt == a.createdAt
      && b.score == Write(r, a.malId, "score", RealColumn, a.score)
      && b.episodes == Write(r, a.malId, "episodes", IntColumn, a.episodes)
      && b.status == Write(r, a.malId, "status", TextColumn, a.status)
      && (b == a || b.updatedAt == now)
  {
  }

  lemma {:induction false} RowRunShape(recs: seq<JikanRecord>, a: Anime, now: int)
    ensures var b := RowRun(recs, a, now);
      && b.id == a.id && b.malId == a.malId && b.title == a.title && b.synopsis == a.synopsis
      && b.imageUrl == a.imageUrl && b.createdAt == a.createdAt
      && b.score == Writes(recs, a.malId, "score", RealColumn, a.score)
      && b.episodes == Writes(recs, a.malId, "episodes", IntColumn, a.episodes)
      && b.status == Writes(recs, a.malId, "status", TextColumn, a.status)
      && (b == a || b.updatedAt == now)
    decreases |recs|
  {
    if recs != [] {
      StepShape(recs[0], a, now);
      RowRunShape(recs[1..], Step(recs[0], a, now), now);
    }
  }

  /** Running a batch twice on a row is running it once. */
  lemma RowRunIdempotent(recs: seq<JikanRecord>, a: Anime, now: int)
    ensures RowRun(recs, RowRun(recs, a, now), now) == RowRun(recs, a, now)
  {
    var y := RowRun(recs, a, now);
    RowRunShape(recs, a, now);
    RowRunShape(recs, y, now);
    WritesIdempotent(recs, a.malId, "score", RealColumn, a.score);
    WritesIdempotent(recs, a.malId, "episodes", IntColumn, a.episodes);
    WritesIdempotent(recs, a.malId, "status", TextColumn, a.status);
    assert SameButStamp(RowRun(recs, y, now), y);
  }

  /**
   * A record that leaves row `z` as it is, replayed in front of a batch that
   * already ran on `z`, changes nothing.
   */
  lemma RowRunAbsorb(r: JikanRecord, recs: seq<JikanRecord>, z: Anime, now: int)
    requires Step(r, z, now) == z
    ensures RowRun(recs, Step(r, RowRun(recs, z, now), now), now) == RowRun(recs, z, now)
  {
    var s := [r] + recs;
    assert s[0] == r && s[1..] == recs;
    RowRunIdempotent(s, z, now);
  }

  // ---------------------------------------------------------------------------
  // The table under a batch

  /** Refreshing a row twice with the same record is refreshing it once. */
  lemma StepIdempotent(r: JikanRecord, a: Anime, now: int)
    ensures Step(r, Step(r, a, now), now) == Step(r, a, now)
  {
    RowRunIdempotent([r], a, now);
    assert RowRun([r], a, now) == Step(r, a, now);
    assert RowRun([r], Step(r, a, now), now) == Step(r, Step(r, a, now), now);
  }

  /**
   * One upsert on a valid table: every old row becomes its `Step`, at most one
   * row is appended, and afterwards every row the record matches is a fixpoint of it.
   */
  lemma SaveStep(db: Db, r: JikanRecord, now: int)
    requires AnimesOk(db.animes)
    requires SaveOrUpdate(db, r, now).result.Ok?
    ensures var a := SaveOrUpdate(db, r, now).db.animes;
      && |db.animes| <= |a|
      && (forall j :: 0 <= j < |db.animes| ==> a[j] == Step(r, db.animes[j], now))
      && (forall j :: 0 <= j < |a| && Applies(r, a[j].malId) ==> Step(r, a[j], now) == a[j])
  {
    var a := SaveOrUpdate(db, r, now).db.animes;
    match AnimeWithMalId(db.animes, MalIdOf(r))
    case Some(i) =>
      forall j | 0 <= j < |db.animes|
        ensures a[j] == Step(r, db.animes[j], now)
      {
        if j != i && Applies(r, db.animes[j].malId) {
          SqlEqSameGiven(db.animes[i].malId, db.animes[j].malId, MalIdOf(r));
        }
      }
      forall j | 0 <= j < |a| && Applies(r, a[j].malId)
        ensures Step(r, a[j], now) == a[j]
      {
        StepIdempotent(r, db.animes[j], now);
      }
    case None =>
      var n := a[|db.animes|];
      assert a == db.animes + [n];
      ColumnIntSqlEq(n.malId, MalIdOf(r));
      ColumnIntIdempotent(Get(r.fields, "episodes"));
      ColumnRealIdempotent(Get(r.fields, "score"));
      assert Refresh(n, r.fields) == n;
  }

  /**
   * A successful batch on a valid table: each old row ends as the batch run on it,
   * and every row of the result is a fixpoint of the batch.
   */
  lemma {:induction false} SaveAllRows(db: Db, recs: seq<JikanRecord>, now: int)
    requires Valid(db)
    requires SaveAll(db, recs, now).result.Ok?
    ensures var d := SaveAll(db, recs, now).db.animes;
      && |db.animes| <= |d|
      && (forall j :: 0 <= j < |db.animes| ==> d[j] == RowRun(recs, db.animes[j], now))
      && (forall j :: 0 <= j < |d| ==> RowRun(recs, d[j], now) == d[j])
    decreases |recs|
  {
    if recs != [] {
      var r := recs[0];
      var rest := recs[1..];
      var t1 := SaveOrUpdate(db, r, now);
      var db1 := t1.db;
      SaveStep(db, r, now);
      SaveOrUpdateKeepsValid(db, r, now);
      SaveAllRows(db1, rest, now);
      SaveAllKeepsValid(db1, rest, now);
      var d := SaveAll(db, recs, now).db.animes;
      assert d == SaveAll(db1, rest, now).db.animes;
      var i :| 0 <= i < |db1.animes| && db1.animes[i].id == t1.result.value
        && SqlEq(db1.animes[i].malId, MalIdOf(r));
      forall j | 0 <= j < |d|
        ensures RowRun(recs, d[j], now) == d[j]
      {
        if Applies(r, d[j].malId) {
          RowRunShape(rest, db1.animes[i], now);
          SqlEqSameGiven(d[i].malId, d[j].malId, MalIdOf(r));
          assert i == j;
          RowRunAbsorb(r, rest, db1.animes[i], now);
        }
      }
    }
  }

  /** Refreshing a stored row from a record keeps the anime table's constraints. */
  lemma UpdateKeepsAnimesOk(db: Db, r: JikanRecord, now: int)
    requires AnimesOk(db.animes) && AnimeWithMalId(db.animes, MalIdOf(r)).Some?
    ensures AnimesOk(SaveOrUpdate(db, r, now).db.animes)
  {
    SaveOrUpdateKeepsKeys(db, r, now);
    var s := SaveOrUpdate(db, r, now).db.animes;
    forall j, l | 0 <= j < l < |s|
      ensures s[j].id != s[l].id && s[j].malId != s[l].malId
    {
      assert db.animes[j].id != db.animes[l].id && db.animes[j].malId != db.animes[l].malId;
    }
    SaveStep(db, r, now);
    forall j | 0 <= j < |s|
      ensures !s[j].malId.Null? && IsColumnInt(s[j].malId) && !s[j].title.Null? && IsColumnInt(s[j].episodes)
    {
      StepShape(r, db.animes[j], now);
      ColumnIntIdempotent(Get(r.fields, "episodes"));
    }
  }

  /** When every record matches a stored row, a batch succeeds and inserts nothing. */
  lemma {:induction false} SaveAllUpdatesOnly(db: Db, recs: seq<JikanRecord>, now: int)
    requires AnimesOk(db.animes)
    requires forall k :: 0 <= k < |recs| ==>
      exists i :: 0 <= i < |db.animes| && SqlEq(db.animes[i].malId, MalIdOf(recs[k]))
    ensures SaveAll(db, recs, now).result.Ok?
    ensures |SaveAll(db, recs, now).db.animes| == |db.animes|
    decreases |recs|
  {
    if recs != [] {
      var r := recs[0];
      var i :| 0 <= i < |db.animes| && SqlEq(db.animes[i].malId, MalIdOf(r));
      assert AnimeWithMalId(db.animes, MalIdOf(r)).Some?;
      var db1 := SaveOrUpdate(db, r, now).db;
      SaveOrUpdateKeepsKeys(db, r, now);
      UpdateKeepsAnimesOk(db, r, now);
      forall k | 0 <= k < |recs[1..]|
        ensures exists i :: 0 <= i < |db1.animes| && SqlEq(db1.animes[i].malId, MalIdOf(recs[1..][k]))
      {
        var i :| 0 <= i < |db.animes| && SqlEq(db.animes[i].malId, MalIdOf(recs[k + 1]));
        assert db1.animes[i].malId == db.animes[i].malId;
      }
      SaveAllUpdatesOnly(db1, recs[1..], now);
    }
  }

  /** Names the stored row matching each record, as a successful batch returns them. */
  predicate NamesMatchingRows(animes: seq<Anime>, recs: seq<JikanRecord>, ids: seq<int>) {
    |ids| == |recs| &&
    forall k :: 0 <= k < |recs| ==> NamesRow(animes, ids[k], recs[k])
  }

  /** On a table with unique `mal_id`s there is only one way to name the matching rows. */
  lemma MatchingRowsUnique(animes: seq<Anime>, recs: seq<JikanRecord>, ids1: seq<int>, ids2: seq<int>)
    requires AnimesOk(animes)
    requires NamesMatchingRows(animes, recs, ids1) && NamesMatchingRows(animes, recs, ids2)
    ensures ids1 == ids2
  {
    forall k | 0 <= k < |recs|
      ensures ids1[k] == ids2[k]
    {
      var i1 :| 0 <= i1 < |animes| && animes[i1].id == ids1[k] && SqlEq(animes[i1].malId, MalIdOf(recs[k]));
      var i2 :| 0 <= i2 < |animes| && animes[i2].id == ids2[k] && SqlEq(animes[i2].malId, MalIdOf(recs[k]));
      SqlEqSameGiven(animes[i1].malId, animes[i2].malId, MalIdOf(recs[k]));
    }
  }

  /** The table a successful batch leaves behind is a fixpoint of that batch. */
  lemma SaveAllReplayTable(db: Db, recs: seq<JikanRecord>, now: int)
    requires Valid(db)
    requires SaveAll(db, recs, now).result.Ok?
    ensures var d := SaveAll(db, recs, now).db;
      && SaveAll(d, recs, now).result.Ok?
      && SaveAll(d, recs, now).db == d
  {
    var first := SaveAll(db, recs, now);
    var d := first.db;
    SaveAllKeepsValid(db, recs, now);
    SaveAllOnePerRecord(db, recs, now);
    SaveAllRows(db, recs, now);
    forall k | 0 <= k < |recs|
      ensures exists i :: 0 <= i < |d.animes| && SqlEq(d.animes[i].malId, MalIdOf(recs[k]))
    {
      var i :| 0 <= i < |d.animes| && d.animes[i].id == first.result.value[k]
        && SqlEq(d.animes[i].malId, MalIdOf(recs[k]));
    }
    SaveAllUpdatesOnly(d, recs, now);
    SaveAllRows(d, recs, now);
    assert SaveAll(d, recs, now).db.animes == d.animes;
  }

  /**
   * Replaying a successful search batch with the same clock is idempotent: the
   * second run returns the same rows and leaves the database as the first run left it.
   */
  lemma SaveAllReplay(db: Db, recs: seq<JikanRecord>, now: int)
    requires Valid(db)
    requires SaveAll(db, recs, now).result.Ok?
    ensures var first := SaveAll(db, recs, now);
      SaveAll(first.db, recs, now) == first
  {
    var first := SaveAll(db, recs, now);
    var d := first.db;
    SaveAllReplayTable(db, recs, now);
    SaveAllKeepsValid(db, recs, now);
    var second := SaveAll(d, recs, now);
    SaveAllOnePerRecord(db, recs, now);
    SaveAllOnePerRecord(d, recs, now);
    assert NamesMatchingRows(d.animes, recs, first.result.value);
    assert NamesMatchingRows(d.animes, recs, second.result.value);
    MatchingRowsUnique(d.animes, recs, first.result.value, second.result.value);
  }
}

=== FILE: anime_service.dfy ===
/**
 * AnimeService: the upsert of catalog records fetched from the Jikan API, the
 * batch that a search performs, and the CRUD operations on the `anime` table.
 *
 * The outbound HTTP request is not modelled: a search receives the outcome of the
 * fetch as a value.
 */
module AnimeService {
  import opened Wrappers
  import opened Json
  import opened Store
  import Strings = Text

  const MsgSavePrefix: string := "Error saving anime: "
  const MsgJikanPrefix: string := "Error fetching from Jikan API: "
  const MsgMissingFields: string := "Missing required fields"
  const MsgAlreadyExists: string := "Anime already exists"
  const MsgUpdateFailed: string := "Error updating anime"

  /**
   * What `anime_data.get('images', {}).get('jpg', {}).get('image_url')` gives: a
   * value, or the exception raised when one of the levels is not a mapping.
   */
  datatype ImageUrl = Image(url: Value) | ImageError(detail: string)

  /** One element of the `data` array of a Jikan search response. */
  datatype JikanRecord = JikanRecord(fields: Data, image: ImageUrl)

  /** The outcome of the Jikan request: its `data` array, or the request's failure. */
  datatype JikanReply = Listing(records: seq<JikanRecord>) | FetchFailed(reason: string)

  function MalIdOf(rec: JikanRecord): Value {
    Get(rec.fields, "mal_id")
  }

  /** `Anime.query.filter_by(mal_id=malId).first()`. */
  function AnimeWithMalId(animes: seq<Anime>, malId: Value): Option<nat> {
    Find(animes, (a: Anime) => SqlEq(a.malId, malId))
  }

  /** The row a new record inserts; title defaults to the empty string. */
  function NewRow(animes: seq<Anime>, f: Data, image: Value, now: int): Anime {
    Anime(NextAnimeId(animes), ColumnInt(Get(f, "mal_id")), GetOr(f, "title", Str("")),
      Get(f, "synopsis"), ColumnReal(Get(f, "score")), ColumnInt(Get(f, "episodes")),
      image, Get(f, "status"), now, now)
  }

  /**
   * The three catalog columns a record refreshes on an existing row. A missing key
   * assigns the loaded value back, and a value Python finds equal to the loaded one
   * leaves the attribute unchanged at flush; only the others are written.
   */
  function Refresh(a: Anime, f: Data): Anime {
    a.(score := if Dirty(f, "score", a.score) then ColumnReal(f["score"]) else a.score,
       episodes := if Dirty(f, "episodes", a.episodes) then ColumnInt(f["episodes"]) else a.episodes,
       status := if Dirty(f, "status", a.status) then f["status"] else a.status)
  }

  /** Whether refreshing from a record emits an UPDATE. */
  predicate RefreshDirty(a: Anime, f: Data) {
    Dirty(f, "score", a.score) || Dirty(f, "episodes", a.episodes) || Dirty(f, "status", a.status)
  }

  /** `onupdate` stamps `updated_at` only on a row the flush actually updates. */
  function Touch(after: Anime, dirty: bool, now: int): Anime {
    if dirty then after.(updatedAt := now) else after
  }

  /**
   * `_save_or_update_anime(anime_data)`: the primary key of the row for the
   * record's `mal_id`, after refreshing it or inserting it. Every failure is
   * rolled back and re-raised as a `ValueError` prefixed "Error saving anime: ".
   */
  function SaveOrUpdate(db: Db, rec: JikanRecord, now: int): (t: Txn<int>)
    ensures t.result.Err? ==> t.db == db && t.result.error.ValueError?
    ensures t.db.users == db.users && t.db.entries == db.entries
    ensures t.result.Ok? ==> NamesRow(t.db.animes, t.result.value, rec)
  {
    var f := rec.fields;
    match AnimeWithMalId(db.animes, MalIdOf(rec))
    case Some(i) =>
      var row := Touch(Refresh(db.animes[i], f), RefreshDirty(db.animes[i], f), now);
      assert db.animes[i := row][i].malId == db.animes[i].malId;
      Txn(Ok(row.id), db.(animes := db.animes[i := row]))
    case None =>
      match rec.image
      case ImageError(detail) => Txn(Err(ValueError(MsgSavePrefix + detail)), db)
      case Image(url) =>
        var row := NewRow(db.animes, f, url, now);
        if row.malId.Null? then Txn(Err(ValueError(MsgSavePrefix + NotNullDetail("anime.mal_id"))), db)
        else if row.title.Null? then Txn(Err(ValueError(MsgSavePrefix + NotNullDetail("anime.title"))), db)
        else
          ColumnIntSqlEq(row.malId, MalIdOf(rec));
          assert (db.animes + [row])[|db.animes|] == row;
          Txn(Ok(row.id), db.(animes := db.animes + [row]))
  }

  /**
   * A record whose `mal_id` is new inserts exactly one row built from it: `title`
   * defaults to the empty string, the other columns to null, and a null `mal_id`
   * or `title` fails the NOT NULL constraints, `mal_id` being checked first.
   */
  lemma SaveNewInserts(db: Db, rec: JikanRecord, now: int)
    requires forall i :: 0 <= i < |db.animes| ==> !SqlEq(db.animes[i].malId, MalIdOf(rec))
    ensures var t := SaveOrUpdate(db, rec, now);
      var f := rec.fields;
      && (rec.image.ImageError? ==> t.result == Err(ValueError(MsgSavePrefix + rec.image.detail)))
      && (rec.image.Image? && MalIdOf(rec).Null?
          ==> t.result == Err(ValueError(MsgSavePrefix + NotNullDetail("anime.mal_id"))))
      && (rec.image.Image? && !MalIdOf(rec).Null? && GetOr(f, "title", Str("")).Null?
          ==> t.result == Err(ValueError(MsgSavePrefix + NotNullDetail("anime.title"))))
      && (t.result.Ok? ==>
            && |t.db.animes| == |db.animes| + 1
            && t.db.animes[..|db.animes|] == db.animes
            && var a := t.db.animes[|db.animes|];
            && a.id == t.result.value
            && a.id !in (set x | x in db.animes :: x.id)
            && SqlEq(a.malId, MalIdOf(rec))
            && ("title" !in f ==> a.title == Str(""))
            && ("title" in f ==> a.title == f["title"])
            && a.synopsis == Get(f, "synopsis") && a.status == Get(f, "status")
            && a.imageUrl == rec.image.url
            && a.createdAt == now && a.updatedAt == now)
  {
    var t := SaveOrUpdate(db, rec, now);
    if t.result.Ok? {
      assert t.db.animes == db.animes + [t.db.animes[|db.animes|]];
    }
  }

  /**
   * A record whose `mal_id` is stored refreshes that row only: score, episodes and
   * status end reading as the record's values when its keys are present, a column
   * is written exactly when Python finds the record's value different, and
   * `updated_at` moves exactly when one is; title, synopsis, image and the keys stay
   * as they were, and so does every other row.
   */
  lemma SaveExistingRefreshes(db: Db, rec: JikanRecord, now: int, i: nat)
    requires i < |db.animes| && SqlEq(db.animes[i].malId, MalIdOf(rec))
    requires forall j :: 0 <= j < i ==> !SqlEq(db.animes[j].malId, MalIdOf(rec))
    ensures var t := SaveOrUpdate(db, rec, now);
      var f := rec.fields;
      var a := db.animes[i];
      var b := t.db.animes[i];
      && t.result == Ok(a.id)
      && |t.db.animes| == |db.animes|
      && (forall j :: 0 <= j < |db.animes| && j != i ==> t.db.animes[j] == db.animes[j])
      && b.id == a.id && b.malId == a.malId && b.title == a.title && b.synopsis == a.synopsis
      && b.imageUrl == a.imageUrl && b.createdAt == a.createdAt
      && ("score" in f ==> SqlEq(b.score, f["score"]))
      && (Dirty(f, "score", a.score) ==> b.score == ColumnReal(f["score"]))
      && (!Dirty(f, "score", a.score) ==> b.score == a.score)
      && ("episodes" in f ==> SqlEq(b.episodes, f["episodes"]))
      && ("episodes" in f && IsColumnInt(a.episodes) ==> b.episodes == ColumnInt(f["episodes"]))
      && (!Dirty(f, "episodes", a.episodes) ==> b.episodes == a.episodes)
      && ("status" in f ==> SameValue(b.status, f["status"]))
      && (Dirty(f, "status", a.status) ==> b.status == f["status"])
      && (!Dirty(f, "status", a.status) ==> b.status == a.status)
      && (RefreshDirty(a, f) ==> b.updatedAt == now)
      && (!RefreshDirty(a, f) ==> b == a)
  {
    assert AnimeWithMalId(db.animes, MalIdOf(rec)) == Some(i);
    var f := rec.fields;
    var a := db.animes[i];
    if "score" in f {
      ReadsAsGiven(a.score, f["score"]);
    }
    if "episodes" in f {
      ReadsAsGiven(a.episodes, f["episodes"]);
      if IsColumnInt(a.episodes) && !Dirty(f, "episodes", a.episodes) {
        ColumnIntOfEqual(a.episodes, f["episodes"]);
      }
    }
    if "status" in f {
      SameValueRefl(f["status"]);
    }
  }

  /** Upserting keeps `mal_id` unique and non-null and `title` non-null. */
  lemma SaveOrUpdateKeepsValid(db: Db, rec: JikanRecord, now: int)
    requires Valid(db)
    ensures Valid(SaveOrUpdate(db, rec, now).db)
  {
    if AnimeWithMalId(db.animes, MalIdOf(rec)).Some? {
      RefreshKeepsValid(db, rec, now);
    } else {
      InsertKeepsValid(db, rec, now);
    }
  }

  lemma RefreshKeepsValid(db: Db, rec: JikanRecord, now: int)
    requires Valid(db) && AnimeWithMalId(db.animes, MalIdOf(rec)).Some?
    ensures Valid(SaveOrUpdate(db, rec, now).db)
  {
    var t := SaveOrUpdate(db, rec, now);
    var i := AnimeWithMalId(db.animes, MalIdOf(rec)).value;
    var s := t.db.animes;
    assert s == db.animes[i := s[i]];
    forall j, l | 0 <= j < l < |s|
      ensures s[j].id != s[l].id && s[j].malId != s[l].malId
    {
      assert db.animes[j].id != db.animes[l].id && db.animes[j].malId != db.animes[l].malId;
    }
    EntriesOkAnimesKept(db.entries, db.animes, s);
  }

  lemma InsertKeepsValid(db: Db, rec: JikanRecord, now: int)
    requires Valid(db) && AnimeWithMalId(db.animes, MalIdOf(rec)).None?
    ensures Valid(SaveOrUpdate(db, rec, now).db)
  {
    var t := SaveOrUpdate(db, rec, now);
    if t.result.Ok? {
      var row := t.db.animes[|db.animes|];
      assert t.db.animes == db.animes + [row];
      forall j | 0 <= j < |db.animes|
        ensures db.animes[j].malId != row.malId
      {
        ColumnIntSqlEq(db.animes[j].malId, MalIdOf(rec));
        SqlEqRefl(row.malId);
      }
      NewRowKeepsAnimesOk(db.animes, row);
      EntriesOkAnimesKept(db.entries, db.animes, t.db.animes);
    }
  }

  /** Appending a row with a fresh primary key and a fresh, non-null `mal_id` keeps the table valid. */
  lemma NewRowKeepsAnimesOk(animes: seq<Anime>, row: Anime)
    requires AnimesOk(animes)
    requires !row.malId.Null? && IsColumnInt(row.malId) && !row.title.Null? && IsColumnInt(row.episodes)
    requires forall j :: 0 <= j < |animes| ==> animes[j].id < row.id && animes[j].malId != row.malId
    ensures AnimesOk(animes + [row])
    ensures forall id :: AnimeIndex(animes, id).Some? ==> AnimeIndex(animes + [row], id).Some?
  {
    var s := animes + [row];
    forall id | AnimeIndex(animes, id).Some?
      ensures AnimeIndex(s, id).Some?
    {
      var k := AnimeIndex(animes, id).value;
      assert s[k].id == id;
    }
  }

  /**
   * The loop of `search_animes`: one upsert per record, in order, each committed
   * on its own. The first failure propagates, and the records committed before it
   * stay committed.
   */
  function SaveAll(db: Db, recs: seq<JikanRecord>, now: int): (t: Txn<seq<int>>)
    ensures t.result.Ok? ==> |t.result.value| == |recs|
    ensures t.db.users == db.users && t.db.entries == db.entries
    decreases |recs|
  {
    if recs == [] then Txn(Ok([]), db)
    else
      var first := SaveOrUpdate(db, recs[0], now);
      match first.result
      case Err(x) => Txn(Err(x), first.db)
      case Ok(id) =>
        var rest := SaveAll(first.db, recs[1..], now);
        match rest.result
        case Err(x) => Txn(Err(x), rest.db)
        case Ok(ids) => Txn(Ok([id] + ids), rest.db)
  }

  /** `id` is the primary key of a stored row whose `mal_id` is the record's. */
  predicate NamesRow(animes: seq<Anime>, id: int, rec: JikanRecord) {
    exists i :: 0 <= i < |animes| && animes[i].id == id && SqlEq(animes[i].malId, MalIdOf(rec))
  }

  /** Every row keeps its position, primary key and `mal_id`. */
  predicate KeepsKeys(before: seq<Anime>, after: seq<Anime>) {
    |before| <= |after| &&
    forall i :: 0 <= i < |before| ==> after[i].id == before[i].id && after[i].malId == before[i].malId
  }

  lemma SaveOrUpdateKeepsKeys(db: Db, rec: JikanRecord, now: int)
    ensures KeepsKeys(db.animes, SaveOrUpdate(db, rec, now).db.animes)
  {
  }

  lemma {:induction false} SaveAllKeepsKeys(db: Db, recs: seq<JikanRecord>, now: int)
    ensures KeepsKeys(db.animes, SaveAll(db, recs, now).db.animes)
    decreases |recs|
  {
    if recs != [] {
      var first := SaveOrUpdate(db, recs[0], now);
      SaveOrUpdateKeepsKeys(db, recs[0], now);
      if first.result.Ok? {
        SaveAllKeepsKeys(first.db, recs[1..], now);
      }
    }
  }

  /**
   * A successful batch gives one primary key per record, in order, and each names a
   * row of the final table whose `mal_id` is that record's.
   */
  lemma {:induction false} SaveAllOnePerRecord(db: Db, recs: seq<JikanRecord>, now: int)
    requires SaveAll(db, recs, now).result.Ok?
    ensures var t := SaveAll(db, recs, now);
      forall k :: 0 <= k < |recs| ==> NamesRow(t.db.animes, t.result.value[k], recs[k])
    decreases |recs|
  {
    if recs != [] {
      var t := SaveAll(db, recs, now);
      var first := SaveOrUpdate(db, recs[0], now);
      var rest := SaveAll(first.db, recs[1..], now);
      SaveAllStep(db, recs, now);
      SaveAllOnePerRecord(first.db, recs[1..], now);
      SaveAllKeepsKeys(first.db, recs[1..], now);
      NamesRowKept(first.db.animes, rest.db.animes, first.result.value, recs[0]);
      NamesEveryRecord(rest.db.animes, first.result.value, rest.result.value, recs);
    }
  }

  /** A successful batch saves its first record, then the rest on the table that left. */
  lemma SaveAllStep(db: Db, recs: seq<JikanRecord>, now: int)
    requires recs != [] && SaveAll(db, recs, now).result.Ok?
    ensures var first := SaveOrUpdate(db, recs[0], now);
      var rest := SaveAll(first.db, recs[1..], now);
      && first.result.Ok? && rest.result.Ok?
      && SaveAll(db, recs, now).db == rest.db
      && SaveAll(db, recs, now).result.value == [first.result.value] + rest.result.value
  {
  }

  /** Keys naming the first record and, in order, the rest name every record in order. */
  lemma NamesEveryRecord(animes: seq<Anime>, id: int, ids: seq<int>, recs: seq<JikanRecord>)
    requires recs != [] && |ids| == |recs| - 1
    requires NamesRow(animes, id, recs[0])
    requires forall k :: 0 <= k < |ids| ==> NamesRow(animes, ids[k], recs[1..][k])
    ensures forall k :: 0 <= k < |recs| ==> NamesRow(animes, ([id] + ids)[k], recs[k])
  {
    forall k | 1 <= k < |recs|
      ensures NamesRow(animes, ([id] + ids)[k], recs[k])
    {
      assert recs[k] == recs[1..][k - 1] && ([id] + ids)[k] == ids[k - 1];
    }
  }

  /** A row a key names is still named once later saves have kept every key in place. */
  lemma NamesRowKept(before: seq<Anime>, after: seq<Anime>, id: int, rec: JikanRecord)
    requires KeepsKeys(before, after) && NamesRow(before, id, rec)
    ensures NamesRow(after, id, rec)
  {
    var i :| 0 <= i < |before| && before[i].id == id && SqlEq(before[i].malId, MalIdOf(rec));
    assert after[i].id == id && after[i].malId == before[i].malId;
  }

  /** A batch keeps `mal_id` unique: each catalog id occurs at most once afterwards. */
  lemma {:induction false} SaveAllKeepsValid(db: Db, recs: seq<JikanRecord>, now: int)
    requires Valid(db)
    ensures Valid(SaveAll(db, recs, now).db)
    decreases |recs|
  {
    if recs != [] {
      var first := SaveOrUpdate(db, recs[0], now);
      SaveOrUpdateKeepsValid(db, recs[0], now);
      if first.result.Ok? {
        SaveAllKeepsValid(first.db, recs[1..], now);
      }
    }
  }

  /**
   * `search_animes(query, limit)` without the HTTP request: a failed request is a
   * `ValueError` prefixed "Error fetching from Jikan API: ", a response without a
   * `data` member an empty listing.
   */
  function SearchAnimes(db: Db, reply: JikanReply, now: int): (t: Txn<seq<int>>)
    ensures reply.FetchFailed? ==> t == Txn(Err(ValueError(MsgJikanPrefix + reply.reason)), db)
    ensures reply.Listing? ==> t == SaveAll(db, reply.records, now)
  {
    match reply
    case FetchFailed(reason) => Txn(Err(ValueError(MsgJikanPrefix + reason)), db)
    case Listing(recs) => SaveAll(db, recs, now)
  }

  /** `get_anime(anime_id)`: the row with that primary key. */
  function GetAnime(db: Db, id: int): (r: Option<Anime>)
    ensures r.Some? ==> r.value in db.animes && r.value.id == id
    ensures r.None? <==> forall i :: 0 <= i < |db.animes| ==> db.animes[i].id != id
  {
    match AnimeIndex(db.animes, id)
    case Some(i) => Some(db.animes[i])
    case None => None
  }

  /** The lookup by catalog id that the anime controller expects of the service. */
  function GetAnimeByMalId(db: Db, malId: int): (r: Option<Anime>)
    ensures r.Some? ==> r.value in db.animes && SqlEq(r.value.malId, Int(malId))
    ensures r.None? <==> forall i :: 0 <= i < |db.animes| ==> !SqlEq(db.animes[i].malId, Int(malId))
  {
    match AnimeWithMalId(db.animes, Int(malId))
    case Some(i) => Some(db.animes[i])
    case None => None
  }

  /**
   * `create_anime(data)`: a falsy `mal_id` or `title` is rejected, then a `mal_id`
   * already stored; otherwise one row is inserted from the request.
   */
  function CreateAnime(db: Db, data: Data, now: int): (t: Txn<Anime>)
    ensures t.result.Err? ==> t.db == db && t.result.error.ValueError?
    ensures !PyTruthy(Get(data, "mal_id")) || !PyTruthy(Get(data, "title"))
      ==> t.result == Err(ValueError(MsgMissingFields))
    ensures t.result.Ok? ==>
      && t.db == db.(animes := db.animes + [t.result.value])
      && SqlEq(t.result.value.malId, data["mal_id"])
      && t.result.value.title == data["title"]
      && (forall a :: a in db.animes ==> !SqlEq(a.malId, data["mal_id"]))
  {
    CreateRow(db, Get(data, "mal_id"), Get(data, "title"), Get(data, "synopsis"), Get(data, "score"),
      Get(data, "episodes"), Get(data, "image_url"), Get(data, "status"), now)
  }

  /** The checks and the insert of `create_anime`, on the request members it reads. */
  function CreateRow(db: Db, mal: Value, title: Value, synopsis: Value, score: Value,
                     episodes: Value, image: Value, status: Value, now: int): (t: Txn<Anime>)
    ensures t.result.Ok? ==>
      && SqlEq(t.result.value.malId, mal)
      && (forall a :: a in db.animes ==> !SqlEq(a.malId, mal))
  {
    if !PyTruthy(mal) || !PyTruthy(title) then Txn(Err(ValueError(MsgMissingFields)), db)
    else if AnimeWithMalId(db.animes, mal).Some? then Txn(Err(ValueError(MsgAlreadyExists)), db)
    else
      var row := Anime(NextAnimeId(db.animes), ColumnInt(mal), title, synopsis,
        ColumnReal(score), ColumnInt(episodes), image, status, now, now);
      ColumnIntSqlEq(row.malId, mal);
      SqlEqRefl(row.malId);
      assert forall a :: a in db.animes ==> !SqlEq(a.malId, mal) by {
        forall a | a in db.animes
          ensures !SqlEq(a.malId, mal)
        {
          var k :| 0 <= k < |db.animes| && db.animes[k] == a;
        }
      }
      Txn(Ok(row), db.(animes := db.animes + [row]))
  }

  /**
   * The INTEGER column `mal_id` reads numeric text as SQLite's affinity does: a
   * non-zero `mal_id` given as decimal text gets the same answer as the integer,
   * so it is refused when that catalog id is already stored.
   */
  lemma CreateAnimeReadsNumericText(db: Db, data: Data, now: int, n: int)
    requires n != 0
    ensures CreateAnime(db, data["mal_id" := Str(Strings.IntToString(n))], now)
      == CreateAnime(db, data["mal_id" := Int(n)], now)
  {
    IntegerTextReadsAlike(n);
    CreateAnimeSameMalId(db, data, Str(Strings.IntToString(n)), Int(n), now);
  }

  /** So a `mal_id` sent as text is refused when its number is stored already. */
  lemma CreateAnimeRefusesStoredText(db: Db, data: Data, now: int, n: int)
    requires n != 0 && PyTruthy(Get(data, "title"))
    requires exists k :: 0 <= k < |db.animes| && db.animes[k].malId == Int(n)
    ensures CreateAnime(db, data["mal_id" := Str(Strings.IntToString(n))], now).result == Err(ValueError(MsgAlreadyExists))
  {
    CreateAnimeReadsNumericText(db, data, now, n);
    CreateAnimeRefusesStored(db, data, n, now);
  }

  /** Two `mal_id` values that SQLite reads alike, and Python finds equally truthy, get the same answer. */
  lemma CreateAnimeSameMalId(db: Db, data: Data, m1: Value, m2: Value, now: int)
    requires NumericAffinity(m1) == NumericAffinity(m2) && PyTruthy(m1) == PyTruthy(m2)
    ensures CreateAnime(db, data["mal_id" := m1], now) == CreateAnime(db, data["mal_id" := m2], now)
  {
    var title, synopsis, score := Get(data, "title"), Get(data, "synopsis"), Get(data, "score");
    var episodes, image, status := Get(data, "episodes"), Get(data, "image_url"), Get(data, "status");
    var d1, d2 := data["mal_id" := m1], data["mal_id" := m2];
    assert Get(d1, "title") == Get(d2, "title") == title;
    assert Get(d1, "synopsis") == Get(d2, "synopsis") == synopsis;
    assert Get(d1, "score") == Get(d2, "score") == score;
    assert Get(d1, "episodes") == Get(d2, "episodes") == episodes;
    assert Get(d1, "image_url") == Get(d2, "image_url") == image;
    assert Get(d1, "status") == Get(d2, "status") == status;
    SameAffinityMalId(db, m1, m2, title, synopsis, score, episodes, image, status, now);
  }

  /** A truthy integer `mal_id` that is stored already is refused. */
  lemma CreateAnimeRefusesStored(db: Db, data: Data, n: int, now: int)
    requires n != 0 && PyTruthy(Get(data, "title"))
    requires exists k :: 0 <= k < |db.animes| && db.animes[k].malId == Int(n)
    ensures CreateAnime(db, data["mal_id" := Int(n)], now).result == Err(ValueError(MsgAlreadyExists))
  {
    var k :| 0 <= k < |db.animes| && db.animes[k].malId == Int(n);
    SqlEqRefl(Int(n));
    assert AnimeWithMalId(db.animes, Int(n)).Some?;
    assert Get(data["mal_id" := Int(n)], "title") == Get(data, "title");
  }

  lemma SameAffinityMalId(db: Db, m1: Value, m2: Value, title: Value, synopsis: Value, score: Value,
                          episodes: Value, image: Value, status: Value, now: int)
    requires NumericAffinity(m1) == NumericAffinity(m2) && PyTruthy(m1) == PyTruthy(m2)
    ensures CreateRow(db, m1, title, synopsis, score, episodes, image, status, now)
      == CreateRow(db, m2, title, synopsis, score, episodes, image, status, now)
  {
    FindAgrees(db.animes, (a: Anime) => SqlEq(a.malId, m1), (a: Anime) => SqlEq(a.malId, m2));
    assert ColumnInt(m1) == ColumnInt(m2);
    SameMalIdFacts(db, m1, m2, title, synopsis, score, episodes, image, status, now);
  }

  lemma SameMalIdFacts(db: Db, m1: Value, m2: Value, title: Value, synopsis: Value, score: Value,
                       episodes: Value, image: Value, status: Value, now: int)
    requires AnimeWithMalId(db.animes, m1) == AnimeWithMalId(db.animes, m2)
    requires ColumnInt(m1) == ColumnInt(m2) && PyTruthy(m1) == PyTruthy(m2)
    ensures CreateRow(db, m1, title, synopsis, score, episodes, image, status, now)
      == CreateRow(db, m2, title, synopsis, score, episodes, image, status, now)
  {
  }

  /** Creating an anime keeps `mal_id` unique. */
  lemma CreateAnimeKeepsValid(db: Db, data: Data, now: int)
    requires Valid(db)
    ensures Valid(CreateAnime(db, data, now).db)
  {
    var t := CreateAnime(db, data, now);
    if t.result.Ok? {
      var row := t.result.value;
      forall j | 0 <= j < |db.animes|
        ensures db.animes[j].id < row.id && db.animes[j].malId != row.malId
      {
        assert db.animes[j] in db.animes;
        ColumnIntSqlEq(db.animes[j].malId, data["mal_id"]);
        SqlEqRefl(row.malId);
      }
      NewRowKeepsAnimesOk(db.animes, row);
      EntriesOkAnimesKept(db.entries, db.animes, t.db.animes);
    }
  }

  /**
   * The columns `update_anime` writes: a key of the request whose value differs,
   * under Python `==`, from the loaded attribute.
   */
  function ApplyUpdate(a: Anime, d: Data): Anime {
    a.(title := if Dirty(d, "title", a.title) then d["title"] else a.title,
       synopsis := if Dirty(d, "synopsis", a.synopsis) then d["synopsis"] else a.synopsis,
       score := if Dirty(d, "score", a.score) then ColumnReal(d["score"]) else a.score,
       episodes := if Dirty(d, "episodes", a.episodes) then ColumnInt(d["episodes"]) else a.episodes,
       imageUrl := if Dirty(d, "image_url", a.imageUrl) then d["image_url"] else a.imageUrl,
       status := if Dirty(d, "status", a.status) then d["status"] else a.status)
  }

  /** Whether the flush emits an UPDATE for the anime: some column the request names is dirty. */
  predicate UpdateDirty(a: Anime, d: Data) {
    || Dirty(d, "title", a.title) || Dirty(d, "synopsis", a.synopsis)
    || Dirty(d, "score", a.score) || Dirty(d, "episodes", a.episodes)
    || Dirty(d, "image_url", a.imageUrl) || Dirty(d, "status", a.status)
  }

  /**
   * `update_anime(anime_id, data)`: `None` for an absent anime; otherwise the keys
   * present are applied. A missing body, or a null title written over the stored
   * one (NOT NULL), is rolled back and reported as "Error updating anime".
   */
  function UpdateAnime(db: Db, id: int, data: Option<Data>, now: int): (t: Txn<Option<Anime>>)
    ensures t.result.Err? ==> t.db == db && t.result == Err(ValueError(MsgUpdateFailed))
    ensures t.result == Ok(None) <==> GetAnime(db, id).None?
    ensures t.result == Ok(None) ==> t.db == db
  {
    match AnimeIndex(db.animes, id)
    case None => Txn(Ok(None), db)
    case Some(k) =>
      if data.None? then Txn(Err(ValueError(MsgUpdateFailed)), db)
      else
        var a := db.animes[k];
        var updated := Touch(ApplyUpdate(a, data.value), UpdateDirty(a, data.value), now);
        if Dirty(data.value, "title", a.title) && data.value["title"].Null? then Txn(Err(ValueError(MsgUpdateFailed)), db)
        else Txn(Ok(Some(updated)), db.(animes := db.animes[k := updated]))
  }

  /**
   * A successful update changes only the columns whose keys the request holds with
   * a value Python finds different, and then `updated_at`; each named column ends
   * reading as the request's value, and the primary key and `mal_id` never change.
   */
  lemma UpdateAnimeChangesOnlyGivenKeys(db: Db, id: int, d: Data, now: int)
    requires GetAnime(db, id).Some?
    requires UpdateAnime(db, id, Some(d), now).result.Ok?
    ensures var t := UpdateAnime(db, id, Some(d), now);
      var a := GetAnime(db, id).value;
      var b := t.result.value.value;
      && t.result.value.Some?
      && b.id == a.id && b.malId == a.malId && b.createdAt == a.createdAt
      && ("title" in d ==> SameValue(b.title, d["title"]))
      && (Dirty(d, "title", a.title) ==> b.title == d["title"])
      && (!Dirty(d, "title", a.title) ==> b.title == a.title)
      && ("synopsis" in d ==> SameValue(b.synopsis, d["synopsis"]))
      && (Dirty(d, "synopsis", a.synopsis) ==> b.synopsis == d["synopsis"])
      && (!Dirty(d, "synopsis", a.synopsis) ==> b.synopsis == a.synopsis)
      && ("score" in d ==> SqlEq(b.score, d["score"]))
      && (Dirty(d, "score", a.score) ==> b.score == ColumnReal(d["score"]))
      && (!Dirty(d, "score", a.score) ==> b.score == a.score)
      && ("episodes" in d ==> SqlEq(b.episodes, d["episodes"]))
      && ("episodes" in d && IsColumnInt(a.episodes) ==> b.episodes == ColumnInt(d["episodes"]))
      && (!Dirty(d, "episodes", a.episodes) ==> b.episodes == a.episodes)
      && ("image_url" in d ==> SameValue(b.imageUrl, d["image_url"]))
      && (Dirty(d, "image_url", a.imageUrl) ==> b.imageUrl == d["image_url"])
      && (!Dirty(d, "image_url", a.imageUrl) ==> b.imageUrl == a.imageUrl)
      && ("status" in d ==> SameValue(b.status, d["status"]))
      && (Dirty(d, "status", a.status) ==> b.status == d["status"])
      && (!Dirty(d, "status", a.status) ==> b.status == a.status)
      && (UpdateDirty(a, d) ==> b.updatedAt == now)
      && (!UpdateDirty(a, d) ==> b == a)
      && (d == map[] ==> b == a)
      && t.db.users == db.users && t.db.entries == db.entries
  {
    var a := GetAnime(db, id).value;
    forall key | key in d
      ensures SameValue(d[key], d[key])
    {
      SameValueRefl(d[key]);
    }
    if "score" in d {
      ReadsAsGiven(a.score, d["score"]);
    }
    if "episodes" in d {
      ReadsAsGiven(a.episodes, d["episodes"]);
      if IsColumnInt(a.episodes) && !Dirty(d, "episodes", a.episodes) {
        ColumnIntOfEqual(a.episodes, d["episodes"]);
      }
    }
  }

  /** Updating keeps the anime table valid. */
  lemma UpdateAnimeKeepsValid(db: Db, id: int, data: Option<Data>, now: int)
    requires Valid(db)
    ensures Valid(UpdateAnime(db, id, data, now).db)
  {
    var t := UpdateAnime(db, id, data, now);
    if t.result.Ok? && t.result.value.Some? {
      var k := AnimeIndex(db.animes, id).value;
      var s := t.db.animes;
      forall j, l | 0 <= j < l < |s|
        ensures s[j].id != s[l].id && s[j].malId != s[l].malId
      {
        assert db.animes[j].id != db.animes[l].id && db.animes[j].malId != db.animes[l].malId;
      }
      EntriesOkAnimesKept(db.entries, db.animes, s);
    }
  }

  /**
   * `delete_anime(anime_id)`: `False` for an absent anime, and also for one that a
   * diary entry references: the relationship nulls the entry's `anime_id`, the NOT
   * NULL constraint fails and the deletion is rolled back.
   */
  function DeleteAnime(db: Db, id: int): (t: Txn<bool>)
    ensures t.result.Ok?
    ensures t.result.value <==>
      GetAnime(db, id).Some? && forall e :: e in db.entries ==> e.animeId != id
    ensures !t.result.value ==> t.db == db
    ensures t.result.value ==>
      && t.db.users == db.users && t.db.entries == db.entries
      && |t.db.animes| == |db.animes| - 1
      && forall a :: a in t.db.animes ==> a in db.animes
  {
    match AnimeIndex(db.animes, id)
    case None => Txn(Ok(false), db)
    case Some(k) =>
      if exists e :: e in db.entries && e.animeId == id then Txn(Ok(false), db)
      else
        assert forall a :: a in RemoveAt(db.animes, k) ==> a in db.animes by {
          forall a | a in RemoveAt(db.animes, k)
            ensures a in db.animes
          {
            var i :| 0 <= i < |RemoveAt(db.animes, k)| && RemoveAt(db.animes, k)[i] == a;
            if i >= k {
              assert db.animes[i + 1] == a;
            }
          }
        }
        Txn(Ok(true), db.(animes := RemoveAt(db.animes, k)))
  }

  /** A deletion keeps the database valid and leaves no row with that primary key. */
  lemma DeleteAnimeKeepsValid(db: Db, id: int)
    requires Valid(db)
    ensures Valid(DeleteAnime(db, id).db)
    ensures DeleteAnime(db, id).result.value ==> GetAnime(DeleteAnime(db, id).db, id).None?
  {
    var t := DeleteAnime(db, id);
    if t.result.value {
      var k := AnimeIndex(db.animes, id).value;
      AnimesOkRemoveAt(db.animes, k);
      EntriesOkWithoutAnime(db.entries, db.animes, k);
    }
  }

  /** Deleting one anime row keeps the table's constraints, and its key is gone. */
  lemma AnimesOkRemoveAt(animes: seq<Anime>, k: nat)
    requires AnimesOk(animes) && k < |animes|
    ensures AnimesOk(RemoveAt(animes, k))
    ensures forall i :: 0 <= i < |animes| - 1 ==> RemoveAt(animes, k)[i].id != animes[k].id
  {
    var s := RemoveAt(animes, k);
    forall j, l | 0 <= j < l < |s|
      ensures s[j].id != s[l].id && s[j].malId != s[l].malId
    {
      var j', l' := if j < k then j else j + 1, if l < k then l else l + 1;
      assert s[j] == animes[j'] && s[l] == animes[l'];
    }
    forall i | 0 <= i < |s|
      ensures s[i].id != animes[k].id
    {
      if i < k {
        assert animes[i].id != animes[k].id;
      } else {
        assert animes[k].id != animes[i + 1].id;
      }
    }
  }

  /** Diary rows that do not refer to the deleted anime still refer to existing ones. */
  lemma EntriesOkWithoutAnime(entries: seq<DiaryEntry>, animes: seq<Anime>, k: nat)
    requires EntriesOk(entries, animes) && k < |animes|
    requires forall e :: e in entries ==> e.animeId != animes[k].id
    ensures EntriesOk(entries, RemoveAt(animes, k))
  {
    var s := RemoveAt(animes, k);
    forall i | 0 <= i < |entries|
      ensures AnimeIndex(s, entries[i].animeId).Some?
    {
      var x := entries[i].animeId;
      assert entries[i] in entries;
      var j := AnimeIndex(animes, x).value;
      if j < k {
        assert s[j].id == x;
      } else {
        assert s[j - 1].id == x;
      }
    }
  }
}

=== FILE: api_client.dfy ===
/**
 * The browser's API client: what each exported function of the client sends,
 * and what it returns or throws for each reply. `fetch` is the parameter
 * `server`, a function from request to reply; a request names its endpoint and
 * carries its JSON body as the object that reaches the backend (URL building,
 * query encoding and headers are not modelled).
 */
module ApiClient {
  import opened Wrappers
  import opened Js
  import opened Strings = Text
  import Json
  import Store
  import Http
  import DiaryController
  import DiaryService
  import AnimeController
  import UserController
  import AnimeService
  import Ordering

  datatype Request =
    | SearchReq(q: string, limit: int)                         // GET  /animes/search?q=…&limit=…
    | AnimeReq(id: JsVal)                                      // GET  /animes/<id>
    | RegisterReq(body: map<string, JsVal>)                    // POST /users/register
    | UserReq(userId: JsVal)                                   // GET  /users/<id>
    | AddReq(body: map<string, JsVal>)                         // POST /diary
    | DiaryReq(userId: JsVal)                                  // GET  /diary/user/<id>
    | EntryReq(entryId: JsVal)                                 // GET  /diary/<id>
    | UpdateReq(entryId: JsVal, body: map<string, JsVal>)      // PUT  /diary/<id>
    | RemoveReq(entryId: JsVal)                                // DELETE /diary/<id>
    | StatsReq(userId: JsVal)                                  // GET  /diary/stats/user/<id>

  /**
   * What `fetch` settles with: a response (`ok` for a 2xx status; `body` is `None`
   * when it is not JSON), or a rejection when no response arrives.
   */
  datatype Reply = Reply(ok: bool, statusText: string, body: Option<JsVal>) | Unreachable

  /** A finished client call: its result or the error it throws, and the requests it sent, in order. */
  datatype Call<T> = Call(outcome: Result<T, JsError>, sent: seq<Request>)

  /** How a function turns a non-ok response into the error it throws. */
  datatype OnError =
    | Fixed(message: string)              // `new Error("…")`
    | WithStatus(prefix: string)          // `new Error(\`…: ${response.statusText}\`)`
    | FromBody(fallback: string)          // `new Error(error.error || "…")` on the decoded body

  /** How a function reads its result from an ok response. */
  datatype Read =
    | Member(key: string)                 // `data.key`
    | ListOr(key: string)                 // `data.key || []`
    | Done                                // `true`, without reading the body

  /** The error `FromBody` throws: reading the body can itself throw first. */
  function BodyError(body: Option<JsVal>, fallback: string): (e: JsError)
    ensures body.None? ==> e == SyntaxError
    ensures body.Some? && (body.value.Undefined? || body.value.JsNull?) ==> e == TypeError
    ensures body.Some? && body.value.JsObj? ==>
      var f := body.value.fields;
      e == Error(if "error" in f && Truthy(f["error"]) then f["error"] else JsStr(fallback))
  {
    match body
    case None => SyntaxError
    case Some(error) =>
      match Prop(error, "error")
      case Err(x) => x
      case Ok(m) => Error(Or(m, JsStr(fallback)))
  }

  function Failure(on: OnError, reply: Reply): JsError
    requires reply.Reply?
  {
    match on
    case Fixed(message) => Error(JsStr(message))
    case WithStatus(prefix) => Error(JsStr(prefix + reply.statusText))
    case FromBody(fallback) => BodyError(reply.body, fallback)
  }

  function ReadResult(read: Read, body: Option<JsVal>): Result<JsVal, JsError> {
    match read
    case Done => Ok(JsBool(true))
    case _ =>
      match body
      case None => Err(SyntaxError)
      case Some(data) =>
        match Prop(data, read.key)
        case Err(x) => Err(x)
        case Ok(v) => Ok(if read.ListOr? then Or(v, JsArr([])) else v)
  }

  /** One request through `fetch`, then the function's own `ok` test, error and result. */
  function Send(server: Request -> Reply, req: Request, on: OnError, read: Read): (c: Call<JsVal>)
    ensures c.sent == [req]
    ensures server(req).Unreachable? ==> c.outcome == Err(NetworkError)
    ensures server(req).Reply? && !server(req).ok ==> c.outcome == Err(Failure(on, server(req)))
    ensures server(req).Reply? && server(req).ok ==> c.outcome == ReadResult(read, server(req).body)
  {
    var reply := server(req);
    var outcome :=
      match reply
      case Unreachable => Err(NetworkError)
      case Reply(ok, _, body) => if !ok then Err(Failure(on, reply)) else ReadResult(read, body);
    Call(outcome, [req])
  }

  /** The page size the client asks for. */
  const SearchLimit: int := 12

  /**
   * `searchAnimes(query)`: a query that trims to nothing returns `[]` and sends
   * nothing; any other query is sent as typed (the backend trims it) and the
   * result is the `animes` of the body, or `[]` when that is missing or falsy.
   */
  function SearchAnimes(query: string, server: Request -> Reply): (c: Call<JsVal>)
    ensures c.sent == [] <==> AllIn(query, JsSpace)
    ensures AllIn(query, JsSpace) ==> c.outcome == Ok(JsArr([]))
    ensures !AllIn(query, JsSpace) ==> c.sent == [SearchReq(query, SearchLimit)]
    ensures !AllIn(query, JsSpace) && server(SearchReq(query, SearchLimit)) == Reply(true, "", Some(JsObj(map[]))) ==>
      c.outcome == Ok(JsArr([]))
    ensures c.outcome.Ok? && !AllIn(query, JsSpace) ==> server(SearchReq(query, SearchLimit)).Reply?
  {
    StripEmptyIffAllSpace(query, JsSpace);
    if Strip(query, JsSpace) == [] then Call(Ok(JsArr([])), [])
    else Send(server, SearchReq(query, SearchLimit), WithStatus("Erro ao buscar animes: "), ListOr("animes"))
  }

  /** `getAnimeDetail(id)`: the `anime` of the body. */
  function GetAnimeDetail(id: JsVal, server: Request -> Reply): (c: Call<JsVal>)
    ensures c.sent == [AnimeReq(id)]
    ensures c.outcome.Ok? ==> server(AnimeReq(id)).Reply? && server(AnimeReq(id)).ok
  {
    Send(server, AnimeReq(id), Fixed("Anime não encontrado"), Member("anime"))
  }

  /** `registerUser(username, email, password)`: the `user` of the body. */
  function RegisterUser(username: JsVal, email: JsVal, password: JsVal, server: Request -> Reply)
    : (c: Call<JsVal>)
    ensures c.sent == [RegisterReq(Stringified(map["username" := username, "email" := email, "password" := password]))]
    ensures c.outcome.Ok? ==> server(c.sent[0]).Reply? && server(c.sent[0]).ok
    ensures server(c.sent[0]).Reply? && !server(c.sent[0]).ok ==>
      c.outcome == Err(BodyError(server(c.sent[0]).body, "Erro ao registrar usuário"))
    ensures server(c.sent[0]).Reply? && server(c.sent[0]).ok ==>
      c.outcome == ReadResult(Member("user"), server(c.sent[0]).body)
    ensures server(c.sent[0]).Unreachable? ==> c.outcome == Err(NetworkError)
  {
    var body := Stringified(map["username" := username, "email" := email, "password" := password]);
    Send(server, RegisterReq(body), FromBody("Erro ao registrar usuário"), Member("user"))
  }

  /** `getUser(userId)`: the `user` of the body. */
  function GetUser(userId: JsVal, server: Request -> Reply): (c: Call<JsVal>)
    ensures c.sent == [UserReq(userId)]
    ensures c.outcome.Ok? ==> server(UserReq(userId)).Reply? && server(UserReq(userId)).ok
  {
    Send(server, UserReq(userId), Fixed("Usuário não encontrado"), Member("user"))
  }

  /** `DEFAULT_USER_ID`: the configured value when it is truthy, else 1. */
  function DefaultUserId(configured: JsVal): (id: JsVal)
    ensures Truthy(configured) ==> id == configured
    ensures !Truthy(configured) ==> id == JsNum(1.0)
  {
    Or(configured, JsNum(1.0))
  }

  const DefaultUsername: string := "default_user"
  const DefaultEmail: string := "default@animediary.local"
  const DefaultPassword: string := "default_password_123"

  /** The registration `getOrCreateDefaultUser` falls back to. */
  function DefaultRegistration(server: Request -> Reply): Call<JsVal> {
    RegisterUser(JsStr(DefaultUsername), JsStr(DefaultEmail), JsStr(DefaultPassword), server)
  }

  /** `user.id` of a call's result, inside the same `try`. */
  function IdOf(c: Call<JsVal>): Result<JsVal, JsError> {
    match c.outcome
    case Err(x) => Err(x)
    case Ok(user) => Prop(user, "id")
  }

  /**
   * `getOrCreateDefaultUser()`: the default user's id when fetching it (and
   * reading its `id`) succeeds; otherwise the id of a newly registered default
   * user; when that fails too, `DEFAULT_USER_ID` itself. It never throws.
   */
  function GetOrCreateDefaultUser(configured: JsVal, server: Request -> Reply): (c: Call<JsVal>)
    ensures c.outcome.Ok?
    ensures IdOf(GetUser(DefaultUserId(configured), server)).Ok? ==>
      c == Call(IdOf(GetUser(DefaultUserId(configured), server)), [UserReq(DefaultUserId(configured))])
    ensures IdOf(GetUser(DefaultUserId(configured), server)).Err? ==>
      && c.sent == [UserReq(DefaultUserId(configured))] + DefaultRegistration(server).sent
      && c.outcome.value == (if IdOf(DefaultRegistration(server)).Ok? then IdOf(DefaultRegistration(server)).value
                             else DefaultUserId(configured))
  {
    var id := DefaultUserId(configured);
    var first := GetUser(id, server);
    match IdOf(first)
    case Ok(userId) => Call(Ok(userId), first.sent)
    case Err(_) =>
      var second := DefaultRegistration(server);
      match IdOf(second)
      case Ok(newId) => Call(Ok(newId), first.sent + second.sent)
      case Err(_) => Call(Ok(id), first.sent + second.sent)
  }

  /** With the backend down, the default user is the configured id (or 1), after two attempts. */
  lemma DefaultUserWhenOffline(configured: JsVal, server: Request -> Reply)
    requires forall req :: server(req) == Unreachable
    ensures GetOrCreateDefaultUser(configured, server).outcome == Ok(DefaultUserId(configured))
    ensures |GetOrCreateDefaultUser(configured, server).sent| == 2
  {
    assert server(UserReq(DefaultUserId(configured))) == Unreachable;
    assert server(DefaultRegistration(server).sent[0]) == Unreachable;
  }

  /**
   * When the backend serves the default user (a 200 with `{"user": …}`), the
   * client takes that user's id and registers nobody.
   */
  lemma DefaultUserFromBackend(configured: JsVal, server: Request -> Reply, u: Store.User)
    requires server(UserReq(DefaultUserId(configured))) == Reply(true, "OK", Some(DocToJs(Json.Object(map["user" := Store.UserDict(u)]))))
    ensures GetOrCreateDefaultUser(configured, server) ==
      Call(Ok(JsNum(u.id as real)), [UserReq(DefaultUserId(configured))])
  {
    var user := DocToJs(Store.UserDict(u));
    DocToJsMember(Json.Object(map["user" := Store.UserDict(u)]), "user");
    DocToJsMember(Store.UserDict(u), "id");
    assert IdOf(GetUser(DefaultUserId(configured), server)) == Ok(JsNum(u.id as real));
  }

  /** The request body `addToDiary` sends. */
  function AddBody(userId: JsVal, animeId: JsVal, userScore: JsVal, status: JsVal, episodesWatched: JsVal,
                   notes: JsVal): (body: map<string, JsVal>)
    ensures "status" in body && "episodes_watched" in body && "notes" in body
    ensures status.Undefined? ==> body["status"] == JsStr("watching")
    ensures episodesWatched.Undefined? ==> body["episodes_watched"] == JsNum(0.0)
    ensures notes.Undefined? ==> body["notes"] == JsStr("")
    ensures ("user_id" in body <==> !userId.Undefined?) && ("anime_id" in body <==> !animeId.Undefined?)
    ensures "user_score" in body <==> !userScore.Undefined?
  {
    Stringified(map[
      "user_id" := userId,
      "anime_id" := animeId,
      "user_score" := userScore,
      "status" := Default(status, JsStr("watching")),
      "episodes_watched" := Default(episodesWatched, JsNum(0.0)),
      "notes" := Default(notes, JsStr(""))])
  }

  /** `addToDiary(userId, animeId, userScore, status = "watching", episodesWatched = 0, notes = "")`. */
  function AddToDiary(userId: JsVal, animeId: JsVal, userScore: JsVal, status: JsVal, episodesWatched: JsVal,
                      notes: JsVal, server: Request -> Reply): (c: Call<JsVal>)
    ensures c.sent == [AddReq(AddBody(userId, animeId, userScore, status, episodesWatched, notes))]
    ensures c.outcome.Ok? ==> server(c.sent[0]).Reply? && server(c.sent[0]).ok
    ensures server(c.sent[0]).Reply? && !server(c.sent[0]).ok ==>
      c.outcome == Err(BodyError(server(c.sent[0]).body, "Erro ao adicionar ao diário"))
    ensures server(c.sent[0]).Reply? && server(c.sent[0]).ok ==>
      c.outcome == ReadResult(Member("entry"), server(c.sent[0]).body)
    ensures server(c.sent[0]).Unreachable? ==> c.outcome == Err(NetworkError)
  {
    var body := AddBody(userId, animeId, userScore, status, episodesWatched, notes);
    Send(server, AddReq(body), FromBody("Erro ao adicionar ao diário"), Member("entry"))
  }

  /**
   * Given the three required arguments, the body always holds every key the
   * backend's required-field check asks for.
   */
  lemma AddBodyHasRequiredKeys(userId: JsVal, animeId: JsVal, userScore: JsVal, status: JsVal,
                               episodesWatched: JsVal, notes: JsVal)
    requires !userId.Undefined? && !animeId.Undefined? && !userScore.Undefined?
    ensures forall k :: k in DiaryController.AddKeys ==> k in AddBody(userId, animeId, userScore, status, episodesWatched, notes)
  {
  }

  /** `getDiary(userId)`: the `entries` of the body, or `[]`. */
  function GetDiary(userId: JsVal, server: Request -> Reply): (c: Call<JsVal>)
    ensures c.sent == [DiaryReq(userId)]
    ensures c.outcome.Ok? ==> server(DiaryReq(userId)).Reply? && server(DiaryReq(userId)).ok
    ensures server(DiaryReq(userId)) == Reply(true, "OK", Some(JsObj(map[]))) ==> c.outcome == Ok(JsArr([]))
  {
    Send(server, DiaryReq(userId), Fixed("Erro ao buscar diário"), ListOr("entries"))
  }

  /** `getDiaryEntry(entryId)`: the `entry` of the body. */
  function GetDiaryEntry(entryId: JsVal, server: Request -> Reply): (c: Call<JsVal>)
    ensures c.sent == [EntryReq(entryId)]
    ensures c.outcome.Ok? ==> server(EntryReq(entryId)).Reply? && server(EntryReq(entryId)).ok
  {
    Send(server, EntryReq(entryId), Fixed("Entrada não encontrada"), Member("entry"))
  }

  /**
   * The request body `updateDiaryEntry` sends: `episodes_watched` and `notes`
   * always (defaulting to 0 and ""); `user_score` and `status` only when given,
   * since `JSON.stringify` drops members that are `undefined`.
   */
  function UpdateBody(userScore: JsVal, status: JsVal, episodesWatched: JsVal, notes: JsVal)
    : (body: map<string, JsVal>)
    ensures "episodes_watched" in body && "notes" in body
    ensures episodesWatched.Undefined? ==> body["episodes_watched"] == JsNum(0.0)
    ensures notes.Undefined? ==> body["notes"] == JsStr("")
    ensures "user_score" in body <==> !userScore.Undefined?
    ensures "status" in body <==> !status.Undefined?
    ensures forall k :: k in body ==> k in {"user_score", "status", "episodes_watched", "notes"}
  {
    Stringified(map[
      "user_score" := userScore,
      "status" := status,
      "episodes_watched" := Default(episodesWatched, JsNum(0.0)),
      "notes" := Default(notes, JsStr(""))])
  }

  /** `updateDiaryEntry(entryId, userScore, status, episodesWatched = 0, notes = "")`. */
  function UpdateDiaryEntry(entryId: JsVal, userScore: JsVal, status: JsVal, episodesWatched: JsVal, notes: JsVal,
                            server: Request -> Reply): (c: Call<JsVal>)
    ensures c.sent == [UpdateReq(entryId, UpdateBody(userScore, status, episodesWatched, notes))]
    ensures c.outcome.Ok? ==> server(c.sent[0]).Reply? && server(c.sent[0]).ok
    ensures server(c.sent[0]).Reply? && !server(c.sent[0]).ok ==>
      c.outcome == Err(BodyError(server(c.sent[0]).body, "Erro ao atualizar entrada"))
    ensures server(c.sent[0]).Reply? && server(c.sent[0]).ok ==>
      c.outcome == ReadResult(Member("entry"), server(c.sent[0]).body)
    ensures server(c.sent[0]).Unreachable? ==> c.outcome == Err(NetworkError)
  {
    var body := UpdateBody(userScore, status, episodesWatched, notes);
    Send(server, UpdateReq(entryId, body), FromBody("Erro ao atualizar entrada"), Member("entry"))
  }

  /** `removeDiaryEntry(entryId)`: `true` on any ok response, whatever its body. */
  function RemoveDiaryEntry(entryId: JsVal, server: Request -> Reply): (c: Call<JsVal>)
    ensures c.sent == [RemoveReq(entryId)]
    ensures c.outcome.Ok? <==> server(RemoveReq(entryId)).Reply? && server(RemoveReq(entryId)).ok
    ensures c.outcome.Ok? ==> c.outcome.value == JsBool(true)
    ensures server(RemoveReq(entryId)).Reply? && !server(RemoveReq(entryId)).ok ==>
      c.outcome == Err(BodyError(server(RemoveReq(entryId)).body, "Erro ao remover entrada"))
  {
    Send(server, RemoveReq(entryId), FromBody("Erro ao remover entrada"), Done)
  }

  /** `getDiaryStats(userId)`: the `stats` of the body. */
  function GetDiaryStats(userId: JsVal, server: Request -> Reply): (c: Call<JsVal>)
    ensures c.sent == [StatsReq(userId)]
    ensures c.outcome.Ok? ==> server(StatsReq(userId)).Reply? && server(StatsReq(userId)).ok
  {
    Send(server, StatsReq(userId), Fixed("Erro ao buscar estatísticas"), Member("stats"))
  }

  /**
   * An error the backend reports through `handle_errors` reaches the caller as
   * that error's message: a validation message as it was raised (the fallback
   * only for an empty one), anything else as "Internal server error".
   */
  lemma ClientReadsHandledError(x: Store.Exc, fallback: string)
    ensures var body := Some(DocToJs(Http.HandleErrors(Err(x)).body));
      BodyError(body, fallback) == Error(JsStr(
        match x
        case ValueError(m) => if m != "" then m else fallback
        case Internal(_) => Http.MsgInternal))
  {
    match x
    case ValueError(m) =>
      DocToJsMember(Http.ErrorReply(400, m).body, "error");
    case Internal(d) =>
      DocToJsMember(Http.HandleErrors(Err(x)).body, "error");
  }

  // ---------------------------------------------------------------------------
  // The client against the backend: the reply is the route's response, decoded

  /** The reply `fetch` settles with when the backend answers `r` (JSON bodies decode). */
  function Delivered(r: Http.Response, statusText: string): Reply {
    Reply(200 <= r.status < 300, statusText, Some(DocToJs(r.body)))
  }

  /** A body member the route guarantees reaches the client as that member, decoded. */
  lemma ReadsServedMember(r: Http.Response, key: string, st: string, listOr: bool)
    requires Http.Member(r, key).Some? && (listOr ==> Http.Member(r, key).value.List?)
    ensures ReadResult(if listOr then ListOr(key) else Member(key), Delivered(r, st).body)
      == Ok(DocToJs(Http.Member(r, key).value))
  {
    DocToJsMember(r.body, key);
  }

  /**
   * An error response that reports a message in `error` makes a `FromBody` function
   * throw that message (the fallback only for an empty one).
   */
  lemma ReadsErrorMessage(r: Http.Response, st: string, fallback: string)
    requires Http.ErrorMessage(r).Some?
    ensures var m := Http.ErrorMessage(r).value;
      BodyError(Delivered(r, st).body, fallback) == Error(JsStr(if m != "" then m else fallback))
  {
    DocToJsMember(r.body, "error");
  }

  /**
   * `registerUser(username, email, password)` against the registration route, for
   * whatever body the route decodes: the new user on a 201; otherwise the route's
   * error message, which for an incomplete body is "Missing required fields".
   */
  lemma RegisterFromBackend(db: Store.Db, data: Option<Json.Data>, hash: string -> string,
                            username: JsVal, email: JsVal, password: JsVal, st: string, server: Request -> Reply)
    requires server(RegisterReq(Stringified(map["username" := username, "email" := email, "password" := password])))
      == Delivered(UserController.Register(db, data, hash).response, st)
    ensures var r := UserController.Register(db, data, hash).response;
      var c := RegisterUser(username, email, password, server);
      && (r.status == 201 ==> c.outcome == Ok(DocToJs(Http.Member(r, "user").value)))
      && (r.status != 201 ==> Http.ErrorMessage(r).Some? && c.outcome == Err(Error(JsStr(
            var m := Http.ErrorMessage(r).value; if m != "" then m else "Erro ao registrar usuário"))))
      && (Http.Lacks(data, UserController.RegisterKeys) ==>
            c.outcome == Err(Error(JsStr(UserController.MsgMissingFields))))
  {
    var r := UserController.Register(db, data, hash).response;
    if r.status == 201 {
      ReadsServedMember(r, "user", st, false);
    } else {
      assert Http.ErrorMessage(r).Some?;
      ReadsErrorMessage(r, st, "Erro ao registrar usuário");
    }
  }

  /**
   * `addToDiary(…)` against the add route, for whatever body the route decodes: the
   * new entry on a 201; otherwise the route's error message, which for an
   * incomplete body is "Missing required fields".
   */
  lemma AddFromBackend(db: Store.Db, data: Option<Json.Data>, now: int,
                       userId: JsVal, animeId: JsVal, userScore: JsVal, status: JsVal, episodesWatched: JsVal,
                       notes: JsVal, st: string, server: Request -> Reply)
    requires server(AddReq(AddBody(userId, animeId, userScore, status, episodesWatched, notes)))
      == Delivered(DiaryController.AddToDiary(db, data, now).response, st)
    ensures var r := DiaryController.AddToDiary(db, data, now).response;
      var c := AddToDiary(userId, animeId, userScore, status, episodesWatched, notes, server);
      && (r.status == 201 ==> c.outcome == Ok(DocToJs(Http.Member(r, "entry").value)))
      && (r.status != 201 ==> Http.ErrorMessage(r).Some? && c.outcome == Err(Error(JsStr(
            var m := Http.ErrorMessage(r).value; if m != "" then m else "Erro ao adicionar ao diário"))))
      && (Http.Lacks(data, DiaryController.AddKeys) ==>
            c.outcome == Err(Error(JsStr(DiaryService.MsgMissingFields))))
  {
    var r := DiaryController.AddToDiary(db, data, now).response;
    if r.status == 201 {
      ReadsServedMember(r, "entry", st, false);
    } else {
      assert Http.ErrorMessage(r).Some?;
      ReadsErrorMessage(r, st, "Erro ao adicionar ao diário");
    }
  }

  /**
   * `updateDiaryEntry(id, …)` against the update route, for whatever body the route
   * decodes: the updated entry on a 200; "Diary entry not found" on the 404;
   * otherwise the route's error message.
   */
  lemma UpdateFromBackend(db: Store.Db, entryId: nat, data: Option<Json.Data>, now: int,
                          userScore: JsVal, status: JsVal, episodesWatched: JsVal, notes: JsVal,
                          st: string, server: Request -> Reply)
    requires server(UpdateReq(JsNum(entryId as real), UpdateBody(userScore, status, episodesWatched, notes)))
      == Delivered(DiaryController.UpdateDiaryEntry(db, entryId, data, now).response, st)
    ensures var r := DiaryController.UpdateDiaryEntry(db, entryId, data, now).response;
      var c := UpdateDiaryEntry(JsNum(entryId as real), userScore, status, episodesWatched, notes, server);
      && (r.status == 200 ==> c.outcome == Ok(DocToJs(Http.Member(r, "entry").value)))
      && (r.status == 404 ==> c.outcome == Err(Error(JsStr(DiaryController.MsgEntryNotFound))))
      && (r.status != 200 ==> Http.ErrorMessage(r).Some? && c.outcome == Err(Error(JsStr(
            var m := Http.ErrorMessage(r).value; if m != "" then m else "Erro ao atualizar entrada"))))
  {
    var r := DiaryController.UpdateDiaryEntry(db, entryId, data, now).response;
    if r.status == 200 {
      ReadsServedMember(r, "entry", st, false);
    } else {
      assert Http.ErrorMessage(r).Some?;
      ReadsErrorMessage(r, st, "Erro ao atualizar entrada");
    }
  }

  /**
   * `getAnimeDetail(id)` against the corrected lookup route: the stored anime the
   * route answers with, or "Anime não encontrado" on its 404.
   */
  lemma DetailFromBackend(db: Store.Db, id: nat, st: string, server: Request -> Reply)
    requires server(AnimeReq(JsNum(id as real))) == Delivered(AnimeController.GetAnime(db, id), st)
    ensures var r := AnimeController.GetAnime(db, id);
      var c := GetAnimeDetail(JsNum(id as real), server);
      && (r.status == 200 ==> c.outcome == Ok(DocToJs(Http.Member(r, "anime").value)))
      && (r.status == 404 ==> c.outcome == Err(Error(JsStr("Anime não encontrado"))))
  {
    var r := AnimeController.GetAnime(db, id);
    if r.status == 200 {
      ReadsServedMember(r, "anime", st, false);
    }
  }

  /** Against the lookup route as written, the detail page can never load an anime. */
  lemma DetailFromRouteAsWritten(db: Store.Db, id: nat, st: string, server: Request -> Reply)
    requires server(AnimeReq(JsNum(id as real))) == Delivered(AnimeController.GetAnimeAsWritten(db, id), st)
    ensures GetAnimeDetail(JsNum(id as real), server).outcome == Err(Error(JsStr("Anime não encontrado")))
  {
    Http.HandleErrorsReportsException(Store.Internal(AnimeController.MsgNoMalIdLookup));
  }

  /**
   * `searchAnimes(query)` against the search route, for a query the client does
   * not find blank: the listed animes on a 200; on a 400 the error carries the
   * status text.
   */
  lemma SearchFromBackend(db: Store.Db, query: string, jikan: (string, int) -> AnimeService.JikanReply, now: int,
                          st: string, server: Request -> Reply)
    requires !AllIn(query, JsSpace)
    requires server(SearchReq(query, SearchLimit))
      == Delivered(AnimeController.SearchAnimes(db, Some(query), Some(IntToString(SearchLimit)), jikan, now).response, st)
    ensures var r := AnimeController.SearchAnimes(db, Some(query), Some(IntToString(SearchLimit)), jikan, now).response;
      var c := SearchAnimes(query, server);
      && (r.status == 200 ==> c.outcome == Ok(DocToJs(Http.Member(r, "animes").value)))
      && (r.status == 400 ==> c.outcome == Err(Error(JsStr("Erro ao buscar animes: " + st))))
  {
    var r := AnimeController.SearchAnimes(db, Some(query), Some(IntToString(SearchLimit)), jikan, now).response;
    SearchFromReply(query, r, st, server);
  }

  lemma SearchFromReply(query: string, r: Http.Response, st: string, server: Request -> Reply)
    requires !AllIn(query, JsSpace)
    requires server(SearchReq(query, SearchLimit)) == Delivered(r, st)
    requires r.status == 200 ==> Http.Member(r, "animes").Some? && Http.Member(r, "animes").value.List?
    ensures r.status == 200 ==> SearchAnimes(query, server).outcome == Ok(DocToJs(Http.Member(r, "animes").value))
    ensures r.status == 400 ==> SearchAnimes(query, server).outcome == Err(Error(JsStr("Erro ao buscar animes: " + st)))
  {
    if r.status == 200 {
      ReadsServedMember(r, "animes", st, true);
    }
  }

  /**
   * The two sides disagree on what is blank: U+001C is whitespace to Python but not
   * to JavaScript, so the client sends that query and the route refuses it.
   */
  lemma SearchBlankOnlyToBackend(db: Store.Db, jikan: (string, int) -> AnimeService.JikanReply, now: int,
                                 st: string, server: Request -> Reply)
    requires server(SearchReq("\U{001C}", SearchLimit))
      == Delivered(AnimeController.SearchAnimes(db, Some("\U{001C}"), Some(IntToString(SearchLimit)), jikan, now).response, st)
    ensures SearchAnimes("\U{001C}", server).sent == [SearchReq("\U{001C}", SearchLimit)]
    ensures SearchAnimes("\U{001C}", server).outcome == Err(Error(JsStr("Erro ao buscar animes: " + st)))
  {
    var r := BlankSearchRefused(db, jikan, now);
    SearchFromReply("\U{001C}", r, st, server);
  }

  /** U+001C is not JavaScript whitespace, and the route refuses it as a blank query. */
  lemma BlankSearchRefused(db: Store.Db, jikan: (string, int) -> AnimeService.JikanReply, now: int)
    returns (r: Http.Response)
    ensures !AllIn("\U{001C}", JsSpace)
    ensures r == AnimeController.SearchAnimes(db, Some("\U{001C}"), Some(IntToString(SearchLimit)), jikan, now).response
    ensures r.status == 400
  {
    assert "\U{001C}"[0] !in JsSpace;
    assert AllIn(Http.ArgOr(Some("\U{001C}"), ""), PySpace);
    r := AnimeController.SearchAnimes(db, Some("\U{001C}"), Some(IntToString(SearchLimit)), jikan, now).response;
  }

  /** `getUser(id)` against the user route: the user on a 200, "Usuário não encontrado" on a 404. */
  lemma UserFromBackend(db: Store.Db, id: nat, st: string, server: Request -> Reply)
    requires server(UserReq(JsNum(id as real))) == Delivered(UserController.GetUser(db, id), st)
    ensures var r := UserController.GetUser(db, id);
      var c := GetUser(JsNum(id as real), server);
      && (r.status == 200 ==> c.outcome == Ok(DocToJs(Http.Member(r, "user").value)))
      && (r.status == 404 ==> c.outcome == Err(Error(JsStr("Usuário não encontrado"))))
  {
    var r := UserController.GetUser(db, id);
    if r.status == 200 {
      ReadsServedMember(r, "user", st, false);
    }
  }

  /**
   * `getDiary(userId)` against the diary route, which it calls without query
   * parameters: the route always answers 200 and the client gets its entries.
   */
  lemma DiaryFromBackend(db: Store.Db, userId: nat, st: string, server: Request -> Reply)
    requires server(DiaryReq(JsNum(userId as real)))
      == Delivered(DiaryController.GetDiary(db, userId, None, None, None), st)
    ensures var r := DiaryController.GetDiary(db, userId, None, None, None);
      && r.status == 200
      && GetDiary(JsNum(userId as real), server).outcome == Ok(DocToJs(Http.Member(r, "entries").value))
  {
    var r := DiaryController.GetDiary(db, userId, None, None, None);
    assert "created_at" !in Ordering.NonColumnAttributes;
    ReadsServedMember(r, "entries", st, true);
  }

  /** `getDiaryEntry(id)` against the entry route: the entry on a 200, "Entrada não encontrada" on a 404. */
  lemma EntryFromBackend(db: Store.Db, entryId: nat, st: string, server: Request -> Reply)
    requires server(EntryReq(JsNum(entryId as real))) == Delivered(DiaryController.GetDiaryEntry(db, entryId), st)
    ensures var r := DiaryController.GetDiaryEntry(db, entryId);
      var c := GetDiaryEntry(JsNum(entryId as real), server);
      && (r.status == 200 ==> c.outcome == Ok(DocToJs(Http.Member(r, "entry").value)))
      && (r.status == 404 ==> c.outcome == Err(Error(JsStr("Entrada não encontrada"))))
  {
    var r := DiaryController.GetDiaryEntry(db, entryId);
    if r.status == 200 {
      ReadsServedMember(r, "entry", st, false);
    }
  }

  /**
   * `removeDiaryEntry(id)` against the delete route: `true` exactly when the route
   * deleted the entry, else the route's "Diary entry not found".
   */
  lemma RemoveFromBackend(db: Store.Db, entryId: nat, st: string, server: Request -> Reply)
    requires server(RemoveReq(JsNum(entryId as real)))
      == Delivered(DiaryController.RemoveFromDiary(db, entryId).response, st)
    ensures var r := DiaryController.RemoveFromDiary(db, entryId).response;
      var c := RemoveDiaryEntry(JsNum(entryId as real), server);
      && (r.status == 200 <==> c.outcome == Ok(JsBool(true)))
      && (r.status == 404 ==> c.outcome == Err(Error(JsStr(DiaryController.MsgEntryNotFound))))
  {
    var r := DiaryController.RemoveFromDiary(db, entryId).response;
    if r.status == 404 {
      DocToJsMember(r.body, "error");
    }
  }

  /**
   * `getDiaryStats(userId)` against the statistics route: the statistics on a
   * 200; the route's 500 (a text among the episode counts) becomes the client's
   * fixed message.
   */
  lemma StatsFromBackend(db: Store.Db, userId: nat, st: string, server: Request -> Reply)
    requires server(StatsReq(JsNum(userId as real))) == Delivered(DiaryController.GetDiaryStats(db, userId), st)
    ensures var r := DiaryController.GetDiaryStats(db, userId);
      var c := GetDiaryStats(JsNum(userId as real), server);
      && (r.status == 200 ==> c.outcome == Ok(DocToJs(Http.Member(r, "stats").value)))
      && (r.status != 200 ==> c.outcome == Err(Error(JsStr("Erro ao buscar estatísticas"))))
  {
    var r := DiaryController.GetDiaryStats(db, userId);
    if r.status == 200 {
      ReadsServedMember(r, "stats", st, false);
    }
  }
}

=== FILE: diary_controller.dfy ===
/**
 * The `/api/diary` routes: each reads the request, calls the diary service and
 * renders the result under `handle_errors`.
 */
module DiaryController {
  import opened Wrappers
  import opened Json
  import opened Store
  import opened Http
  import Ordering
  import Service = DiaryService

  const MsgEntryNotFound: string := "Diary entry not found"
  const MsgAdded: string := "Anime added to diary"
  const MsgUpdated: string := "Diary entry updated"
  const MsgRemoved: string := "Anime removed from diary"

  /** `[e.to_dict() for e in entries]`. */
  function EntryList(db: Db, entries: seq<DiaryEntry>): (d: Doc)
    ensures d.List? && |d.items| == |entries|
    ensures forall i :: 0 <= i < |entries| ==> d.items[i] == EntryDict(db, entries[i])
  {
    List(seq(|entries|, i requires 0 <= i < |entries| => EntryDict(db, entries[i])))
  }

  /** Serialising a listing that holds exactly the listed entries serialises only listed entries. */
  lemma ListedDicts(db: Db, userId: int, status: Option<string>, entries: seq<DiaryEntry>)
    requires multiset(entries) == multiset(ListedEntries(db, userId, status))
    requires forall e :: e in entries <==> e in db.entries && Service.Listed(e, userId, status)
    ensures |EntryList(db, entries).items| == |ListedEntries(db, userId, status)|
    ensures forall d :: d in EntryList(db, entries).items ==>
      exists e :: e in db.entries && Service.Listed(e, userId, status) && d == EntryDict(db, e)
  {
    var body := EntryList(db, entries);
    assert |entries| == |multiset(entries)| == |multiset(ListedEntries(db, userId, status))|;
    forall d | d in body.items
      ensures exists e :: e in db.entries && Service.Listed(e, userId, status) && d == EntryDict(db, e)
    {
      var i :| 0 <= i < |body.items| && body.items[i] == d;
      assert entries[i] in entries;
    }
  }

  /** The entries of `user_id`'s diary that a listing with this status filter shows. */
  function ListedEntries(db: Db, userId: int, status: Option<string>): seq<DiaryEntry> {
    Filter(db.entries, (e: DiaryEntry) => Service.Listed(e, userId, status))
  }

  /**
   * `GET /api/diary/user/<user_id>`: 200 with one serialised entry per entry of the
   * user that passes the status filter, unless `sort_by` names an attribute that is
   * not a column, which escapes as a 500.
   */
  function GetDiary(db: Db, userId: nat, status: Option<string>, sortBy: Option<string>, order: Option<string>)
    : (r: Response)
    ensures r.status == 200 <==> ArgOr(sortBy, "created_at") !in Ordering.NonColumnAttributes
    ensures r.status != 200 ==> r.status == 500
    ensures r.status == 200 ==>
      && Member(r, "entries").Some? && Member(r, "entries").value.List?
      && |Member(r, "entries").value.items| == |ListedEntries(db, userId, status)|
      && forall d :: d in Member(r, "entries").value.items ==>
           exists e :: e in db.entries && Service.Listed(e, userId, status) && d == EntryDict(db, e)
  {
    var res := Service.GetUserDiary(db, userId, status, ArgOr(sortBy, "created_at"), ArgOr(order, "desc"));
    match res
    case Err(x) => HandleErrors(Err(x))
    case Ok(entries) =>
      var body := EntryList(db, entries);
      ListedDicts(db, userId, status, entries);
      Response(200, Object(map["entries" := body]))
  }

  /** `GET /api/diary/<entry_id>`: 404 exactly when no entry has that id. */
  function GetDiaryEntry(db: Db, entryId: nat): (r: Response)
    ensures r.status == 404 <==> forall e :: e in db.entries ==> e.id != entryId
    ensures r.status != 404 ==>
      && r.status == 200
      && exists e :: e in db.entries && e.id == entryId && Member(r, "entry") == Some(EntryDict(db, e))
  {
    match EntryIndex(db.entries, entryId)
    case None => ErrorReply(404, MsgEntryNotFound)
    case Some(k) =>
      assert db.entries[k] in db.entries;
      Response(200, Object(map["entry" := EntryDict(db, db.entries[k])]))
  }

  /** The keys `POST /api/diary` requires in its body. */
  const AddKeys: seq<string> := ["user_id", "anime_id", "user_score"]

  /**
   * `POST /api/diary`: a body that is missing or lacks `user_id`, `anime_id` or
   * `user_score` gets 400 "Missing required fields"; otherwise the service adds the
   * entry for the body's `user_id`. Every failure is a 400 that changes nothing;
   * a 201 carries an entry that was not stored before and now is.
   */
  function AddToDiary(db: Db, data: Option<Data>, now: int): (s: Served)
    ensures Lacks(data, AddKeys) ==> s == Served(ErrorReply(400, Service.MsgMissingFields), db)
    ensures s.response.status == 201 <==>
      !Lacks(data, AddKeys) && Service.AddToDiary(db, data.value["user_id"], data.value, now).result.Ok?
    ensures s.response.status != 201 ==> s.response.status == 400 && s.db == db
    ensures s.response.status == 201 ==>
      exists e :: e in s.db.entries && e !in db.entries && Member(s.response, "entry") == Some(EntryDict(s.db, e))
  {
    if Lacks(data, AddKeys) then Served(ErrorReply(400, Service.MsgMissingFields), db)
    else
      var d := data.value;
      var t := Service.AddToDiary(db, d["user_id"], d, now);
      if t.result.Ok? then
        Service.AddToDiaryAppendsOne(db, d["user_id"], d, now);
        var e := t.result.value;
        assert e in t.db.entries;
        assert e !in db.entries;
        Served(Response(201, Object(map["message" := Text(MsgAdded), "entry" := EntryDict(t.db, e)])), t.db)
      else
        Handle(t, (e: DiaryEntry) => Response(201, Object(map["message" := Text(MsgAdded), "entry" := EntryDict(t.db, e)])))
  }

  lemma AddToDiaryKeepsValid(db: Db, data: Option<Data>, now: int)
    requires Valid(db)
    ensures Valid(AddToDiary(db, data, now).db)
  {
    if !Lacks(data, AddKeys) {
      Service.AddToDiaryKeepsValid(db, data.value["user_id"], data.value, now);
    }
  }

  /**
   * `PUT /api/diary/<entry_id>`: 404 exactly when no entry has that id; otherwise the
   * update runs on behalf of the entry's own user, so the service always finds the
   * entry and the handler's `None` branch (a 500) cannot be reached.
   */
  function UpdateDiaryEntry(db: Db, entryId: nat, data: Option<Data>, now: int): (s: Served)
    ensures s.response.status == 404 <==> forall e :: e in db.entries ==> e.id != entryId
    ensures s.response.status == 200 || s.response.status == 400 || s.response.status == 404
    ensures s.response.status != 200 ==> s.db == db
    ensures s.response.status == 200 ==>
      exists e :: e in s.db.entries && e.id == entryId && Member(s.response, "entry") == Some(EntryDict(s.db, e))
  {
    match EntryIndex(db.entries, entryId)
    case None => Served(ErrorReply(404, MsgEntryNotFound), db)
    case Some(k) =>
      var owner := db.entries[k].userId;
      SqlEqRefl(owner);
      assert Service.GetEntry(db, entryId, owner).Some? by {
        assert !(forall e :: e in db.entries ==> !(e.id == entryId && SqlEq(e.userId, owner)));
      }
      var t := Service.UpdateEntry(db, entryId, owner, data, now);
      if t.result.Ok? then
        Service.UpdateEntryChangesOnlyGivenKeys(db, entryId, owner, data.value, now);
        var e := t.result.value.value;
        var j :| 0 <= j < |db.entries| && t.db.entries == db.entries[j := e];
        assert e == t.db.entries[j];
        Served(Response(200, Object(map["message" := Text(MsgUpdated), "entry" := EntryDict(t.db, e)])), t.db)
      else
        Handle(t, (r: Option<DiaryEntry>) => Response(200, Leaf(Null)))
  }

  lemma UpdateDiaryEntryKeepsValid(db: Db, entryId: nat, data: Option<Data>, now: int)
    requires Valid(db)
    ensures Valid(UpdateDiaryEntry(db, entryId, data, now).db)
  {
    match EntryIndex(db.entries, entryId)
    case None =>
    case Some(k) =>
      Service.UpdateEntryKeepsValid(db, entryId, db.entries[k].userId, data, now);
  }

  /**
   * `DELETE /api/diary/<entry_id>`: 404 exactly when no entry has that id; otherwise
   * the entry is deleted on behalf of its own user and the response is 200.
   */
  function RemoveFromDiary(db: Db, entryId: nat): (s: Served)
    ensures s.response.status == 404 <==> forall e :: e in db.entries ==> e.id != entryId
    ensures s.response.status != 404 ==> s.response.status == 200
    ensures s.response.status == 404 ==> s.db == db
    ensures s.response.status == 200 ==> |s.db.entries| == |db.entries| - 1
  {
    match EntryIndex(db.entries, entryId)
    case None => Served(ErrorReply(404, MsgEntryNotFound), db)
    case Some(k) =>
      var owner := db.entries[k].userId;
      SqlEqRefl(owner);
      assert Service.GetEntry(db, entryId, owner).Some? by {
        assert !(forall e :: e in db.entries ==> !(e.id == entryId && SqlEq(e.userId, owner)));
      }
      var t := Service.RemoveFromDiary(db, entryId, owner);
      if t.result.value then Served(Response(200, Object(map["message" := Text(MsgRemoved)])), t.db)
      else Served(ErrorReply(404, MsgEntryNotFound), t.db)
  }

  /** After a 200 from the removal route no entry of a valid diary has that id, and the diary stays valid. */
  lemma RemoveFromDiaryLeavesNoEntry(db: Db, entryId: nat)
    requires Valid(db)
    requires RemoveFromDiary(db, entryId).response.status == 200
    ensures Valid(RemoveFromDiary(db, entryId).db)
    ensures GetDiaryEntry(RemoveFromDiary(db, entryId).db, entryId).status == 404
  {
    RemovalByOwner(db, entryId);
    var owner := db.entries[EntryIndex(db.entries, entryId).value].userId;
    Service.RemoveFromDiaryKeepsValid(db, entryId, owner);
    Service.RemoveFromDiaryRemovesExactlyThatEntry(db, entryId, owner);
    var d := Service.RemoveFromDiary(db, entryId, owner).db;
    assert GetDiaryEntry(d, entryId) == ErrorReply(404, MsgEntryNotFound);
  }

  /** The route removes the entry on behalf of the entry's own owner. */
  lemma RemovalByOwner(db: Db, entryId: nat)
    requires RemoveFromDiary(db, entryId).response.status == 200
    ensures EntryIndex(db.entries, entryId).Some?
    ensures var owner := db.entries[EntryIndex(db.entries, entryId).value].userId;
      && Service.RemoveFromDiary(db, entryId, owner).result.value
      && RemoveFromDiary(db, entryId).db == Service.RemoveFromDiary(db, entryId, owner).db
  {
  }

  /** A Python number as JSON. */
  function NumDoc(n: Service.Num): Doc {
    match n
    case IntNum(i) => Number(i)
    case FloatNum(r) => Leaf(Real(r))
  }

  /**
   * The dictionary `get_stats` returns. `average_score` is the exact mean; the
   * rounding to two decimals is not modelled.
   */
  function StatsDoc(st: Service.Stats): Doc {
    Object(map[
      "total_animes" := Number(st.totalAnimes),
      "average_score" := (if st.totalAnimes == 0 then Number(0)
                          else Leaf(Real(st.scoreSum as real / st.totalAnimes as real))),
      "completed" := Number(st.completed),
      "watching" := Number(st.watching),
      "planned" := Number(st.planned),
      "dropped" := Number(st.dropped),
      "total_episodes" := NumDoc(st.totalEpisodes)
    ])
  }

  /**
   * `GET /api/diary/stats/user/<user_id>`: 200 with the statistics, whose
   * `total_animes` counts the user's entries; a string among the episode counts
   * makes the sum raise and the route answer 500.
   */
  function GetDiaryStats(db: Db, userId: nat): (r: Response)
    ensures r.status == 200 <==> Service.GetStats(db, userId).Ok?
    ensures r.status != 200 ==> r.status == 500
    ensures r.status == 200 ==>
      && Member(r, "stats").Some? && Member(r, "stats").value.Object?
      && Member(r, "stats") == Some(StatsDoc(Service.GetStats(db, userId).value))
      && "total_animes" in Member(r, "stats").value.fields
      && Member(r, "stats").value.fields["total_animes"]
        == Number(|Filter(db.entries, (e: DiaryEntry) => SqlEq(e.userId, Int(userId)))|)
  {
    match Service.GetStats(db, userId)
    case Err(x) =>
      assert x.Internal? by {
        GetStatsFailsInternally(db, userId);
      }
      HandleErrors(Err(x))
    case Ok(st) => Response(200, Object(map["stats" := StatsDoc(st)]))
  }

  lemma GetStatsFailsInternally(db: Db, userId: int)
    ensures Service.GetStats(db, userId).Err? ==> Service.GetStats(db, userId).error.Internal?
  {
    var entries := Filter(db.entries, (e: DiaryEntry) => SqlEq(e.userId, Int(userId)));
    if entries != [] {
      SumEpisodesFailsInternally(Service.IntNum(0), entries);
    }
  }

  lemma {:induction false} SumEpisodesFailsInternally(acc: Service.Num, entries: seq<DiaryEntry>)
    ensures Service.SumEpisodes(acc, entries).Err? ==> Service.SumEpisodes(acc, entries).error.Internal?
    decreases |entries|
  {
    if entries != [] {
      match Service.AddEpisodes(acc, entries[0].episodesWatched)
      case Err(_) =>
      case Ok(next) => SumEpisodesFailsInternally(next, entries[1..]);
    }
  }

  /**
   * In a valid database the rendered statistics partition the user's entries: the
   * four status counts add up to `total_animes`.
   */
  lemma StatsPartitionEntries(db: Db, userId: int)
    requires Valid(db)
    requires Service.GetStats(db, userId).Ok?
    ensures var st := StatsDoc(Service.GetStats(db, userId).value).fields;
      && st["completed"].v.i + st["watching"].v.i + st["planned"].v.i + st["dropped"].v.i
         == st["total_animes"].v.i
  {
    Service.StatsCountsSumToTotal(db, userId);
    StatsDocCounts(Service.GetStats(db, userId).value);
  }

  lemma StatsDocCounts(st: Service.Stats)
    ensures var f := StatsDoc(st).fields;
      && f["total_animes"] == Number(st.totalAnimes) && f["completed"] == Number(st.completed)
      && f["watching"] == Number(st.watching) && f["planned"] == Number(st.planned)
      && f["dropped"] == Number(st.dropped)
  {
  }
}

=== FILE: diary_service.dfy ===
/**
 * DiaryService: listing, reading, adding, updating and removing a user's diary
 * entries, and the per-user statistics.
 */
module DiaryService {
  import opened Wrappers
  import opened Json
  import opened Store
  import opened Ordering
  import Text

  const MsgMissingFields: string := "Missing required fields"
  const MsgScoreRange: string := "user_score must be between 1 and 10"
  const MsgInvalidStatus: string :=
    "Invalid status. Must be one of: watching, completed, planned, dropped"
  const MsgAnimeNotFound: string := "Anime not found"
  const MsgAlreadyInDiary: string := "Anime already in diary"
  const MsgAddFailed: string := "Error adding anime to diary"
  const MsgUpdatePrefix: string := "Error updating entry: "
  const MsgNoneNotIterable: string := "argument of type 'NoneType' is not iterable"

  /** A request's `user_score` when it is an `int` (a `bool` counts) in 1..10. */
  function ScoreOf(v: Value): (r: Option<int>)
    ensures r.Some? ==> 1 <= r.value <= 10
    ensures r.Some? <==> PyInt(v).Some? && 1 <= PyInt(v).value <= 10
  {
    match PyInt(v)
    case Some(n) => if 1 <= n <= 10 then Some(n) else None
    case None => None
  }

  /** `value in DiaryEntry.VALID_STATUSES`. */
  predicate IsStatus(v: Value) {
    v.Str? && v.s in Statuses
  }

  /** The status query parameter filters only when it is non-empty and a valid status. */
  predicate FiltersBy(status: Option<string>) {
    status.Some? && status.value != "" && status.value in Statuses
  }

  /** Whether entry `e` is listed for `userId` under the status parameter. */
  predicate Listed(e: DiaryEntry, userId: int, status: Option<string>) {
    SqlEq(e.userId, Int(userId)) && (FiltersBy(status) ==> e.status == status.value)
  }

  /**
   * `get_user_diary`: the user's entries, narrowed to one status when the parameter
   * names a valid one, ordered by the `sort_by` column, ascending iff
   * `order.lower() == 'asc'`.
   */
  function GetUserDiary(db: Db, userId: int, status: Option<string>, sortBy: string, order: string)
    : (r: Result<seq<DiaryEntry>, Exc>)
    ensures r.Err? <==> SortColumn(sortBy).Err?
    ensures r.Ok? ==> SortedBy(r.value, SortColumn(sortBy).value, Text.IsAscending(order))
    ensures r.Ok? ==> forall e :: e in r.value <==> e in db.entries && Listed(e, userId, status)
    ensures r.Ok? ==> multiset(r.value) == multiset(Filter(db.entries, e => Listed(e, userId, status)))
  {
    match SortColumn(sortBy)
    case Err(x) => Err(x)
    case Ok(c) =>
      var rows := Filter(db.entries, e => Listed(e, userId, status));
      var sorted := Sort(rows, c, Text.IsAscending(order));
      assert forall e :: e in sorted <==> e in rows by {
        forall e
          ensures e in sorted <==> e in rows
        {
          assert e in sorted <==> e in multiset(sorted);
        }
      }
      assert forall e :: e in rows <==> e in db.entries && Listed(e, userId, status) by {
        forall e
          ensures e in rows <==> e in db.entries && Listed(e, userId, status)
        {
          FilterMembers(db.entries, e => Listed(e, userId, status), e);
        }
      }
      Ok(sorted)
  }

  /** An invalid or absent status parameter lists every entry of the user. */
  lemma UnfilteredStatusListsAll(db: Db, userId: int, status: Option<string>, sortBy: string, order: string)
    requires !FiltersBy(status) && SortColumn(sortBy).Ok?
    ensures var r := GetUserDiary(db, userId, status, sortBy, order);
      r.Ok? && forall e :: e in r.value <==> e in db.entries && SqlEq(e.userId, Int(userId))
  {
  }

  /** `get_entry`: the entry with this id, if it belongs to this user. */
  function GetEntry(db: Db, entryId: int, userId: Value): (r: Option<DiaryEntry>)
    ensures r.Some? ==> r.value in db.entries && r.value.id == entryId && SqlEq(r.value.userId, userId)
    ensures r.None? <==> forall e :: e in db.entries ==> !(e.id == entryId && SqlEq(e.userId, userId))
  {
    match Find(db.entries, (e: DiaryEntry) => e.id == entryId && SqlEq(e.userId, userId))
    case Some(k) => Some(db.entries[k])
    case None => None
  }

  /** The duplicate check of `add_to_diary`: `filter_by(user_id=..., anime_id=...)`. */
  predicate SameUserAnime(e: DiaryEntry, userId: Value, animeId: Value) {
    SqlEq(e.userId, userId) && SqlEq(Int(e.animeId), animeId)
  }

  /** `Anime.query.get(anime_id)`: the anime whose primary key matches. */
  function AnimeById(animes: seq<Anime>, animeId: Value): Option<nat> {
    Find(animes, (a: Anime) => SqlEq(Int(a.id), animeId))
  }

  /** The user's existing entry for that anime, if any. */
  function ExistingEntry(entries: seq<DiaryEntry>, userId: Value, animeId: Value): Option<nat> {
    Find(entries, (e: DiaryEntry) => SameUserAnime(e, userId, animeId))
  }

  function Fail<T>(db: Db, msg: string): Txn<T> {
    Txn(Err(ValueError(msg)), db)
  }

  /**
   * `add_to_diary(user_id, data)`. The checks run in this order, each raising a
   * `ValueError` and leaving the tables as they were: missing or falsy `anime_id`
   * or `user_score`; a score that is not an `int` in 1..10; an invalid `status`
   * (default `watching`); no anime with that primary key; the user already has an
   * entry for it. A null `user_id` then fails the NOT NULL constraint at commit.
   */
  function AddToDiary(db: Db, userId: Value, data: Data, now: int): (t: Txn<DiaryEntry>)
    ensures t.result.Err? ==> t.db == db && t.result.error.ValueError?
    ensures !PyTruthy(Get(data, "anime_id")) || !PyTruthy(Get(data, "user_score"))
      ==> t.result.Err? && t.result.error.msg == MsgMissingFields
    ensures t.result.Ok? ==>
      && PyTruthy(Get(data, "anime_id")) && ScoreOf(data["user_score"]).Some?
      && IsStatus(GetOr(data, "status", Str(DefaultStatus)))
      && !userId.Null?
  {
    AddMembers(db, userId, Get(data, "anime_id"), Get(data, "user_score"),
      GetOr(data, "status", Str(DefaultStatus)), GetOr(data, "episodes_watched", Int(0)),
      Get(data, "notes"), now)
  }

  /** The checks and the insert of `add_to_diary`, on the request members it reads. */
  function AddMembers(db: Db, userId: Value, rawAnime: Value, rawScore: Value, status: Value,
                      episodes: Value, notes: Value, now: int): Txn<DiaryEntry>
  {
    if !PyTruthy(rawAnime) || !PyTruthy(rawScore) then Fail(db, MsgMissingFields)
    else if ScoreOf(rawScore).None? then Fail(db, MsgScoreRange)
    else if !IsStatus(status) then Fail(db, MsgInvalidStatus)
    else
      match AnimeById(db.animes, rawAnime)
      case None => Fail(db, MsgAnimeNotFound)
      case Some(i) =>
        if ExistingEntry(db.entries, userId, rawAnime).Some? then Fail(db, MsgAlreadyInDiary)
        else if userId.Null? then Fail(db, MsgAddFailed)
        else
          var entry := DiaryEntry(
            NextEntryId(db.entries), ColumnInt(userId), db.animes[i].id, ScoreOf(rawScore).value,
            status.s, ColumnInt(episodes), notes, now, now);
          Txn(Ok(entry), db.(entries := db.entries + [entry]))
  }

  /**
   * The error a request gets from `add_to_diary` depends only on the first check it
   * fails, in the order missing fields, score, status, anime, duplicate, and then
   * the NOT NULL `user_id` at commit; a request passing every check succeeds.
   */
  lemma AddToDiaryErrorOrder(db: Db, userId: Value, data: Data, now: int)
    ensures var t := AddToDiary(db, userId, data, now);
      var anime := Get(data, "anime_id");
      var missing := !PyTruthy(anime) || !PyTruthy(Get(data, "user_score"));
      var badScore := !missing && ScoreOf(data["user_score"]).None?;
      var badStatus := !missing && !badScore && !IsStatus(GetOr(data, "status", Str(DefaultStatus)));
      var found := exists k :: 0 <= k < |db.animes| && SqlEq(Int(db.animes[k].id), anime);
      var noAnime := !missing && !badScore && !badStatus && !found;
      var inDiary := exists k :: 0 <= k < |db.entries| && SameUserAnime(db.entries[k], userId, anime);
      var duplicate := !missing && !badScore && !badStatus && found && inDiary;
      var nullUser := !missing && !badScore && !badStatus && found && !inDiary && userId.Null?;
      && (missing ==> t.result == Err(ValueError(MsgMissingFields)))
      && (badScore ==> t.result == Err(ValueError(MsgScoreRange)))
      && (badStatus ==> t.result == Err(ValueError(MsgInvalidStatus)))
      && (noAnime ==> t.result == Err(ValueError(MsgAnimeNotFound)))
      && (duplicate ==> t.result == Err(ValueError(MsgAlreadyInDiary)))
      && (nullUser ==> t.result == Err(ValueError(MsgAddFailed)))
      && (t.result.Ok? <==> !missing && !badScore && !badStatus && found && !inDiary && !userId.Null?)
  {
    var anime := Get(data, "anime_id");
    assert AnimeById(db.animes, anime).Some? <==>
      exists k :: 0 <= k < |db.animes| && SqlEq(Int(db.animes[k].id), anime);
    assert ExistingEntry(db.entries, userId, anime).Some? <==>
      exists k :: 0 <= k < |db.entries| && SameUserAnime(db.entries[k], userId, anime);
  }

  /**
   * A successful `add_to_diary` appends exactly one entry built from the request:
   * the found anime's primary key, the score, the status (default `watching`),
   * `episodes_watched` (default 0) and `notes`; users and animes are untouched.
   */
  lemma AddToDiaryAppendsOne(db: Db, userId: Value, data: Data, now: int)
    requires AddToDiary(db, userId, data, now).result.Ok?
    ensures var t := AddToDiary(db, userId, data, now);
      var e := t.result.value;
      && t.db == db.(entries := db.entries + [e])
      && e.id !in (set x | x in db.entries :: x.id)
      && SqlEq(Int(e.animeId), data["anime_id"])
      && AnimeIndex(db.animes, e.animeId).Some?
      && Some(e.userScore) == ScoreOf(data["user_score"])
      && (("status" !in data) ==> e.status == "watching")
      && (("episodes_watched" !in data) ==> e.episodesWatched == Int(0))
      && e.notes == Get(data, "notes")
      && SqlEq(e.userId, userId)
  {
    var t := AddToDiary(db, userId, data, now);
    var e := t.result.value;
    var i := AnimeById(db.animes, data["anime_id"]).value;
    assert e.animeId == db.animes[i].id;
    assert AnimeIndex(db.animes, e.animeId).Some?;
    ColumnIntSqlEq(e.userId, userId);
  }

  /**
   * The INTEGER columns read numeric text as SQLite's affinity does: a request
   * giving the user, the anime or the episode count as decimal text gets the same
   * answer, and stores the same row, as one giving the integer. (A zero `anime_id`
   * differs only because `'0'` is truthy and `0` is not.)
   */
  lemma AddToDiaryReadsUserText(db: Db, data: Data, now: int, n: int)
    ensures AddToDiary(db, Str(Text.IntToString(n)), data, now) == AddToDiary(db, Int(n), data, now)
  {
    NumericAffinityOfInteger(n);
    AddToDiarySameUser(db, Str(Text.IntToString(n)), Int(n), data, now);
  }

  lemma AddToDiaryReadsAnimeText(db: Db, userId: Value, data: Data, now: int, n: int)
    ensures n != 0 ==>
      AddToDiary(db, userId, data["anime_id" := Str(Text.IntToString(n))], now)
      == AddToDiary(db, userId, data["anime_id" := Int(n)], now)
  {
    if n != 0 {
      IntegerTextReadsAlike(n);
      AddToDiarySameAnime(db, userId, data, Str(Text.IntToString(n)), Int(n), now);
    }
  }

  lemma AddToDiaryReadsEpisodesText(db: Db, userId: Value, data: Data, now: int, n: int)
    ensures AddToDiary(db, userId, data["episodes_watched" := Str(Text.IntToString(n))], now)
      == AddToDiary(db, userId, data["episodes_watched" := Int(n)], now)
  {
    NumericAffinityOfInteger(n);
    AddToDiarySameEpisodes(db, userId, data, Str(Text.IntToString(n)), Int(n), now);
  }

  /** Two `user_id` values that SQLite reads alike get the same answer. */
  lemma AddToDiarySameUser(db: Db, u1: Value, u2: Value, data: Data, now: int)
    requires NumericAffinity(u1) == NumericAffinity(u2)
    ensures AddToDiary(db, u1, data, now) == AddToDiary(db, u2, data, now)
  {
    var score, status, notes := Get(data, "user_score"), GetOr(data, "status", Str(DefaultStatus)), Get(data, "notes");
    var anime, episodes := Get(data, "anime_id"), GetOr(data, "episodes_watched", Int(0));
    SameAffinityUser(db, u1, u2, anime, score, status, episodes, notes, now);
  }

  /** Two `anime_id` values that SQLite reads alike, and Python finds equally truthy, get the same answer. */
  lemma AddToDiarySameAnime(db: Db, userId: Value, data: Data, a1: Value, a2: Value, now: int)
    requires NumericAffinity(a1) == NumericAffinity(a2) && PyTruthy(a1) == PyTruthy(a2)
    ensures AddToDiary(db, userId, data["anime_id" := a1], now) == AddToDiary(db, userId, data["anime_id" := a2], now)
  {
    var score, status, notes := Get(data, "user_score"), GetOr(data, "status", Str(DefaultStatus)), Get(data, "notes");
    var episodes := GetOr(data, "episodes_watched", Int(0));
    AddToDiaryWithAnime(db, userId, data, a1, now);
    AddToDiaryWithAnime(db, userId, data, a2, now);
    SameAffinityAnime(db, userId, a1, a2, score, status, episodes, notes, now);
  }

  /** Setting `anime_id` changes only the anime the checks and the insert read. */
  lemma AddToDiaryWithAnime(db: Db, userId: Value, data: Data, a: Value, now: int)
    ensures AddToDiary(db, userId, data["anime_id" := a], now)
      == AddMembers(db, userId, a, Get(data, "user_score"), GetOr(data, "status", Str(DefaultStatus)),
                    GetOr(data, "episodes_watched", Int(0)), Get(data, "notes"), now)
  {
    var d := data["anime_id" := a];
    assert Get(d, "anime_id") == a;
    assert Get(d, "user_score") == Get(data, "user_score");
    assert Get(d, "notes") == Get(data, "notes");
    assert GetOr(d, "status", Str(DefaultStatus)) == GetOr(data, "status", Str(DefaultStatus));
    assert GetOr(d, "episodes_watched", Int(0)) == GetOr(data, "episodes_watched", Int(0));
  }

  /** Two `episodes_watched` values that SQLite reads alike get the same answer. */
  lemma AddToDiarySameEpisodes(db: Db, userId: Value, data: Data, c1: Value, c2: Value, now: int)
    requires NumericAffinity(c1) == NumericAffinity(c2)
    ensures AddToDiary(db, userId, data["episodes_watched" := c1], now)
      == AddToDiary(db, userId, data["episodes_watched" := c2], now)
  {
    var score, status, notes := Get(data, "user_score"), GetOr(data, "status", Str(DefaultStatus)), Get(data, "notes");
    var anime := Get(data, "anime_id");
    var e1, e2 := data["episodes_watched" := c1], data["episodes_watched" := c2];
    assert Get(e1, "user_score") == Get(e2, "user_score") == score;
    assert Get(e1, "notes") == Get(e2, "notes") == notes;
    assert Get(e1, "anime_id") == Get(e2, "anime_id") == anime;
    assert GetOr(e1, "status", Str(DefaultStatus)) == GetOr(e2, "status", Str(DefaultStatus)) == status;
    SameAffinityEpisodes(db, userId, anime, score, status, c1, c2, notes, now);
  }

  lemma SameAffinityUser(db: Db, u1: Value, u2: Value, anime: Value, score: Value, status: Value,
                         episodes: Value, notes: Value, now: int)
    requires NumericAffinity(u1) == NumericAffinity(u2)
    ensures AddMembers(db, u1, anime, score, status, episodes, notes, now)
      == AddMembers(db, u2, anime, score, status, episodes, notes, now)
  {
    FindAgrees(db.entries, (e: DiaryEntry) => SameUserAnime(e, u1, anime),
      (e: DiaryEntry) => SameUserAnime(e, u2, anime));
    ColumnIntOfAffinity(u1, u2);
    SameUserFacts(db, u1, u2, anime, score, status, episodes, notes, now);
  }

  lemma SameUserFacts(db: Db, u1: Value, u2: Value, anime: Value, score: Value, status: Value,
                      episodes: Value, notes: Value, now: int)
    requires ExistingEntry(db.entries, u1, anime) == ExistingEntry(db.entries, u2, anime)
    requires ColumnInt(u1) == ColumnInt(u2) && u1.Null? == u2.Null?
    ensures AddMembers(db, u1, anime, score, status, episodes, notes, now)
      == AddMembers(db, u2, anime, score, status, episodes, notes, now)
  {
  }

  lemma ColumnIntOfAffinity(u1: Value, u2: Value)
    requires NumericAffinity(u1) == NumericAffinity(u2)
    ensures ColumnInt(u1) == ColumnInt(u2) && u1.Null? == u2.Null?
  {
  }

  lemma SameAffinityAnime(db: Db, userId: Value, a1: Value, a2: Value, score: Value, status: Value,
                          episodes: Value, notes: Value, now: int)
    requires NumericAffinity(a1) == NumericAffinity(a2) && PyTruthy(a1) == PyTruthy(a2)
    ensures AddMembers(db, userId, a1, score, status, episodes, notes, now)
      == AddMembers(db, userId, a2, score, status, episodes, notes, now)
  {
    FindAgrees(db.animes, (a: Anime) => SqlEq(Int(a.id), a1), (a: Anime) => SqlEq(Int(a.id), a2));
    FindAgrees(db.entries, (e: DiaryEntry) => SameUserAnime(e, userId, a1),
      (e: DiaryEntry) => SameUserAnime(e, userId, a2));
    SameAnimeFacts(db, userId, a1, a2, score, status, episodes, notes, now);
  }

  lemma SameAnimeFacts(db: Db, userId: Value, a1: Value, a2: Value, score: Value, status: Value,
                       episodes: Value, notes: Value, now: int)
    requires AnimeById(db.animes, a1) == AnimeById(db.animes, a2) && PyTruthy(a1) == PyTruthy(a2)
    requires ExistingEntry(db.entries, userId, a1) == ExistingEntry(db.entries, userId, a2)
    ensures AddMembers(db, userId, a1, score, status, episodes, notes, now)
      == AddMembers(db, userId, a2, score, status, episodes, notes, now)
  {
  }

  lemma SameAffinityEpisodes(db: Db, userId: Value, anime: Value, score: Value, status: Value,
                             c1: Value, c2: Value, notes: Value, now: int)
    requires NumericAffinity(c1) == NumericAffinity(c2)
    ensures AddMembers(db, userId, anime, score, status, c1, notes, now)
      == AddMembers(db, userId, anime, score, status, c2, notes, now)
  {
    ColumnIntOfAffinity(c1, c2);
    SameEpisodeFacts(db, userId, anime, score, status, c1, c2, notes, now);
  }

  lemma SameEpisodeFacts(db: Db, userId: Value, anime: Value, score: Value, status: Value,
                         c1: Value, c2: Value, notes: Value, now: int)
    requires ColumnInt(c1) == ColumnInt(c2)
    ensures AddMembers(db, userId, anime, score, status, c1, notes, now)
      == AddMembers(db, userId, anime, score, status, c2, notes, now)
  {
  }

  /** Adding to a valid diary keeps it valid: in particular `(user_id, anime_id)` stays unique. */
  lemma AddToDiaryKeepsValid(db: Db, userId: Value, data: Data, now: int)
    requires Valid(db)
    ensures Valid(AddToDiary(db, userId, data, now).db)
  {
    var t := AddToDiary(db, userId, data, now);
    if t.result.Ok? {
      var e := t.result.value;
      var raw := data["anime_id"];
      AddToDiaryAppendsOne(db, userId, data, now);
      var p := (x: DiaryEntry) => SameUserAnime(x, userId, raw);
      assert ExistingEntry(db.entries, userId, raw).None?;
      ColumnIntSqlEq(e.userId, userId);
      forall k | 0 <= k < |db.entries|
        ensures db.entries[k].id != e.id
        ensures (db.entries[k].userId, db.entries[k].animeId) != (e.userId, e.animeId)
      {
        assert !p(db.entries[k]);
      }
      EntriesOkAppend(db.entries, db.animes, e);
    }
  }

  /**
   * The columns `update_entry` writes: a key of the request whose value differs,
   * under Python `==`, from the loaded attribute. An assignment of an equal value
   * leaves the attribute unchanged at flush.
   */
  function ApplyUpdate(e: DiaryEntry, d: Data): DiaryEntry
    requires "user_score" in d ==> ScoreOf(d["user_score"]).Some?
    requires "status" in d ==> IsStatus(d["status"])
  {
    e.(
      userScore := if Dirty(d, "user_score", Int(e.userScore)) then ScoreOf(d["user_score"]).value else e.userScore,
      status := if Dirty(d, "status", Str(e.status)) then d["status"].s else e.status,
      episodesWatched := if Dirty(d, "episodes_watched", e.episodesWatched) then ColumnInt(d["episodes_watched"]) else e.episodesWatched,
      notes := if Dirty(d, "notes", e.notes) then d["notes"] else e.notes)
  }

  /** Whether the flush emits an UPDATE for the entry: some column the request names is dirty. */
  predicate UpdateDirty(e: DiaryEntry, d: Data) {
    || Dirty(d, "user_score", Int(e.userScore))
    || Dirty(d, "status", Str(e.status))
    || Dirty(d, "episodes_watched", e.episodesWatched)
    || Dirty(d, "notes", e.notes)
  }

  /** `onupdate` stamps `updated_at` only on a row the flush actually updates. */
  function Touch(after: DiaryEntry, dirty: bool, now: int): DiaryEntry {
    if dirty then after.(updatedAt := now) else after
  }

  /**
   * `update_entry(entry_id, user_id, data)`: `None` when this user has no entry with
   * this id; otherwise the keys present in `data` are validated (score, then status)
   * and applied. Any raise rolls back and is re-raised as a `ValueError` whose
   * message is prefixed with "Error updating entry: ".
   */
  function UpdateEntry(db: Db, entryId: int, userId: Value, data: Option<Data>, now: int)
    : (t: Txn<Option<DiaryEntry>>)
    ensures t.result.Err? ==> t.db == db && t.result.error.ValueError?
    ensures t.result == Ok(None) <==> GetEntry(db, entryId, userId).None?
    ensures t.result == Ok(None) ==> t.db == db
  {
    match Find(db.entries, (e: DiaryEntry) => e.id == entryId && SqlEq(e.userId, userId))
    case None => Txn(Ok(None), db)
    case Some(k) =>
      if data.None? then Fail(db, MsgUpdatePrefix + MsgNoneNotIterable)
      else
        var d := data.value;
        if "user_score" in d && ScoreOf(d["user_score"]).None? then
          Fail(db, MsgUpdatePrefix + MsgScoreRange)
        else if "status" in d && !IsStatus(d["status"]) then
          Fail(db, MsgUpdatePrefix + MsgInvalidStatus)
        else
          var e := db.entries[k];
          var updated := Touch(ApplyUpdate(e, d), UpdateDirty(e, d), now);
          Txn(Ok(Some(updated)), db.(entries := db.entries[k := updated]))
  }

  /**
   * Entry `e` is entry `prev` after a request `d` that passed validation: only the
   * columns whose keys `d` holds with a value Python finds different are written,
   * and then `updated_at`; each named column ends reading as the request's value,
   * and an `episodes_watched` column that holds a column value ends holding the
   * stored form of the request's value whichever way the comparison goes.
   */
  predicate UpdatedAsRequested(prev: DiaryEntry, e: DiaryEntry, d: Data, now: int) {
    && e.id == prev.id && e.userId == prev.userId && e.animeId == prev.animeId
    && e.createdAt == prev.createdAt
    && ("user_score" !in d ==> e.userScore == prev.userScore)
    && ("user_score" in d ==> Some(e.userScore) == ScoreOf(d["user_score"]))
    && ("status" !in d ==> e.status == prev.status)
    && ("status" in d ==> Str(e.status) == d["status"])
    && (!Dirty(d, "episodes_watched", prev.episodesWatched) ==> e.episodesWatched == prev.episodesWatched)
    && (Dirty(d, "episodes_watched", prev.episodesWatched) ==> e.episodesWatched == ColumnInt(d["episodes_watched"]))
    && ("episodes_watched" in d ==> SqlEq(e.episodesWatched, d["episodes_watched"]))
    && ("episodes_watched" in d && IsColumnInt(prev.episodesWatched) ==> e.episodesWatched == ColumnInt(d["episodes_watched"]))
    && (!Dirty(d, "notes", prev.notes) ==> e.notes == prev.notes)
    && ("notes" in d ==> SameValue(e.notes, d["notes"]))
    && (Dirty(d, "notes", prev.notes) ==> e.notes == d["notes"])
    && (UpdateDirty(prev, d) ==> e.updatedAt == now)
    && (!UpdateDirty(prev, d) ==> e == prev)
  }

  /** Applying a validated request and stamping the row gives the entry the request asks for. */
  lemma ApplyUpdateAsRequested(prev: DiaryEntry, d: Data, now: int)
    requires "user_score" in d ==> ScoreOf(d["user_score"]).Some?
    requires "status" in d ==> IsStatus(d["status"])
    ensures UpdatedAsRequested(prev, Touch(ApplyUpdate(prev, d), UpdateDirty(prev, d), now), d, now)
  {
    if "episodes_watched" in d {
      ReadsAsGiven(prev.episodesWatched, d["episodes_watched"]);
      if IsColumnInt(prev.episodesWatched) && !Dirty(d, "episodes_watched", prev.episodesWatched) {
        ColumnIntOfEqual(prev.episodesWatched, d["episodes_watched"]);
      }
    }
    if "notes" in d {
      SameValueRefl(d["notes"]);
    }
  }

  /**
   * A successful update replaces the matched entry in place with the entry the
   * request asks for; every other entry, user and anime stays as it was.
   */
  lemma UpdateEntryChangesOnlyGivenKeys(db: Db, entryId: int, userId: Value, d: Data, now: int)
    requires UpdateEntry(db, entryId, userId, Some(d), now).result.Ok?
    requires GetEntry(db, entryId, userId).Some?
    ensures var t := UpdateEntry(db, entryId, userId, Some(d), now);
      var prev := GetEntry(db, entryId, userId).value;
      var e := t.result.value.value;
      && t.result.value.Some?
      && |t.db.entries| == |db.entries| && t.db.users == db.users && t.db.animes == db.animes
      && (exists k :: 0 <= k < |db.entries| && db.entries[k] == prev && t.db.entries == db.entries[k := e])
      && UpdatedAsRequested(prev, e, d, now)
  {
    var k := Find(db.entries, (e: DiaryEntry) => e.id == entryId && SqlEq(e.userId, userId)).value;
    var prev := db.entries[k];
    assert prev == GetEntry(db, entryId, userId).value;
    ApplyUpdateAsRequested(prev, d, now);
  }

  /**
   * Sending the decimal text of the stored episode count stores the same count and
   * still stamps `updated_at`: Python finds `"3" != 3`, so the flush updates the row
   * and SQLite converts the text back to the number.
   */
  lemma UpdateEntryStampsEqualText(db: Db, entryId: int, userId: Value, n: int, now: int)
    requires GetEntry(db, entryId, userId).Some?
    requires GetEntry(db, entryId, userId).value.episodesWatched == Int(n)
    ensures var t := UpdateEntry(db, entryId, userId, Some(map["episodes_watched" := Str(Text.IntToString(n))]), now);
      && t.result.Ok? && t.result.value.Some?
      && t.result.value.value.episodesWatched == Int(n)
      && t.result.value.value.updatedAt == now
  {
    var d := map["episodes_watched" := Str(Text.IntToString(n))];
    UpdateEntryAcceptsValid(db, entryId, userId, d, now);
    UpdateEntryChangesOnlyGivenKeys(db, entryId, userId, d, now);
    var t := UpdateEntry(db, entryId, userId, Some(d), now);
    EqualTextEntry(GetEntry(db, entryId, userId).value, t.result.value.value, n, now);
  }

  /** The entry-level step of `UpdateEntryStampsEqualText`. */
  lemma EqualTextEntry(prev: DiaryEntry, e: DiaryEntry, n: int, now: int)
    requires prev.episodesWatched == Int(n)
    requires UpdatedAsRequested(prev, e, map["episodes_watched" := Str(Text.IntToString(n))], now)
    ensures e.episodesWatched == Int(n) && e.updatedAt == now
  {
    var v := Str(Text.IntToString(n));
    var d := map["episodes_watched" := v];
    assert ColumnInt(v) == Int(n) by {
      NumericAffinityOfInteger(n);
    }
    assert Dirty(d, "episodes_watched", prev.episodesWatched) by {
      assert d["episodes_watched"] == v && !SameValue(Int(n), v);
    }
    assert UpdateDirty(prev, d);
  }

  /**
   * On an entry of this user, a request whose score and status pass validation is
   * always applied: nothing else in the `try` block raises.
   */
  lemma UpdateEntryAcceptsValid(db: Db, entryId: int, userId: Value, d: Data, now: int)
    requires GetEntry(db, entryId, userId).Some?
    requires "user_score" in d ==> ScoreOf(d["user_score"]).Some?
    requires "status" in d ==> IsStatus(d["status"])
    ensures UpdateEntry(db, entryId, userId, Some(d), now).result.Ok?
    ensures UpdateEntry(db, entryId, userId, Some(d), now).result.value.Some?
  {
  }

  /** Updating keeps the database valid. */
  lemma UpdateEntryKeepsValid(db: Db, entryId: int, userId: Value, data: Option<Data>, now: int)
    requires Valid(db)
    ensures Valid(UpdateEntry(db, entryId, userId, data, now).db)
  {
    var t := UpdateEntry(db, entryId, userId, data, now);
    if t.result.Ok? && t.result.value.Some? {
      var k := Find(db.entries, (e: DiaryEntry) => e.id == entryId && SqlEq(e.userId, userId)).value;
      assert EntryRowOk(db.entries[k]);
      UpdatedRowOk(db.entries[k], data.value, now);
      EntriesOkReplace(db.entries, db.animes, k, t.result.value.value);
    }
  }

  /** A validated update keeps a well-formed entry well formed, under the same keys. */
  lemma UpdatedRowOk(prev: DiaryEntry, d: Data, now: int)
    requires EntryRowOk(prev)
    requires "user_score" in d ==> ScoreOf(d["user_score"]).Some?
    requires "status" in d ==> IsStatus(d["status"])
    ensures var e := Touch(ApplyUpdate(prev, d), UpdateDirty(prev, d), now);
      && EntryRowOk(e)
      && e.id == prev.id && e.userId == prev.userId && e.animeId == prev.animeId
  {
    if "episodes_watched" in d {
      ColumnIntFixpoints(d["episodes_watched"]);
    }
  }

  /** `remove_from_diary`: `False` when this user has no such entry, else the entry is deleted. */
  function RemoveFromDiary(db: Db, entryId: int, userId: Value): (t: Txn<bool>)
    ensures t.result.Ok?
    ensures t.result.value <==> GetEntry(db, entryId, userId).Some?
    ensures !t.result.value ==> t.db == db
    ensures t.result.value ==>
      && t.db.users == db.users && t.db.animes == db.animes
      && |t.db.entries| == |db.entries| - 1
      && forall e :: e in t.db.entries ==> e in db.entries
  {
    match Find(db.entries, (e: DiaryEntry) => e.id == entryId && SqlEq(e.userId, userId))
    case None => Txn(Ok(false), db)
    case Some(k) => Txn(Ok(true), db.(entries := RemoveAt(db.entries, k)))
  }

  /** After a successful removal from a valid diary no entry has that id any more. */
  lemma RemoveFromDiaryRemovesExactlyThatEntry(db: Db, entryId: int, userId: Value)
    requires Valid(db)
    requires RemoveFromDiary(db, entryId, userId).result.value
    ensures var t := RemoveFromDiary(db, entryId, userId);
      && EntryIndex(t.db.entries, entryId).None?
      && forall e :: e in db.entries && e.id != entryId ==> e in t.db.entries
  {
    var k := Find(db.entries, (e: DiaryEntry) => e.id == entryId && SqlEq(e.userId, userId)).value;
    var s := RemoveAt(db.entries, k);
    forall i | 0 <= i < |s|
      ensures s[i].id != entryId
    {
      if i < k {
        assert db.entries[i].id != db.entries[k].id;
      } else {
        assert db.entries[k].id != db.entries[i + 1].id;
      }
    }
    forall j | 0 <= j < |db.entries| && db.entries[j].id != entryId
      ensures db.entries[j] in s
    {
      if j < k {
        assert s[j] == db.entries[j];
      } else {
        assert s[j - 1] == db.entries[j];
      }
    }
  }

  /** Removal keeps the database valid. */
  lemma RemoveFromDiaryKeepsValid(db: Db, entryId: int, userId: Value)
    requires Valid(db)
    ensures Valid(RemoveFromDiary(db, entryId, userId).db)
  {
    var t := RemoveFromDiary(db, entryId, userId);
    if t.result.value {
      var k := Find(db.entries, (e: DiaryEntry) => e.id == entryId && SqlEq(e.userId, userId)).value;
      EntriesOkRemoveAt(db.entries, db.animes, k);
    }
  }

  // ---------------------------------------------------------------------------
  // Statistics

  /** A Python number: `int` or `float`. */
  datatype Num = IntNum(i: int) | FloatNum(r: real)

  function AddInt(acc: Num, n: int): Num {
    match acc
    case IntNum(i) => IntNum(i + n)
    case FloatNum(q) => FloatNum(q + n as real)
  }

  /**
   * `acc + (v or 0)`: an `int` sum stays an `int` until a `float` joins it, and a
   * non-empty `str` raises `TypeError`.
   */
  function AddEpisodes(acc: Num, v: Value): Result<Num, Exc> {
    if !PyTruthy(v) then Ok(acc)
    else
      match v
      case Str(_) => Err(Internal("unsupported operand type(s) for +: '" + NumTypeName(acc) + "' and 'str'"))
      case Real(r) => Ok(FloatNum(match acc case IntNum(i) => i as real + r case FloatNum(q) => q + r))
      case Bool(_) => Ok(AddInt(acc, 1))
      case Int(i) => Ok(AddInt(acc, i))
      case Null => Ok(acc)
  }

  /** Python's name for the running sum's type. */
  function NumTypeName(n: Num): string {
    match n
    case IntNum(_) => "int"
    case FloatNum(_) => "float"
  }

  /** `sum(e.episodes_watched or 0 for e in entries)`, from the left. */
  function SumEpisodes(acc: Num, entries: seq<DiaryEntry>): Result<Num, Exc>
    decreases |entries|
  {
    if entries == [] then Ok(acc)
    else
      match AddEpisodes(acc, entries[0].episodesWatched)
      case Err(x) => Err(x)
      case Ok(next) => SumEpisodes(next, entries[1..])
  }

  /** `len([e for e in entries if e.status == status])`. */
  function CountStatus(entries: seq<DiaryEntry>, status: string): nat {
    if entries == [] then 0
    else (if entries[0].status == status then 1 else 0) + CountStatus(entries[1..], status)
  }

  function SumScores(entries: seq<DiaryEntry>): int {
    if entries == [] then 0 else entries[0].userScore + SumScores(entries[1..])
  }

  /**
   * The integer members of `get_stats`; `scoreSum` is the numerator of
   * `average_score`, which the model does not compute.
   */
  datatype Stats = Stats(
    totalAnimes: nat, scoreSum: int,
    completed: nat, watching: nat, planned: nat, dropped: nat,
    totalEpisodes: Num)

  /** `get_stats(user_id)`. */
  function GetStats(db: Db, userId: int): (r: Result<Stats, Exc>)
    ensures (forall e :: e in db.entries ==> !SqlEq(e.userId, Int(userId)))
      ==> r == Ok(Stats(0, 0, 0, 0, 0, 0, IntNum(0)))
    ensures r.Ok? ==> r.value.totalAnimes == |Filter(db.entries, (e: DiaryEntry) => SqlEq(e.userId, Int(userId)))|
  {
    var entries := Filter(db.entries, (e: DiaryEntry) => SqlEq(e.userId, Int(userId)));
    if entries == [] then Ok(Stats(0, 0, 0, 0, 0, 0, IntNum(0)))
    else
      match SumEpisodes(IntNum(0), entries)
      case Err(x) => Err(x)
      case Ok(episodes) =>
        Ok(Stats(|entries|, SumScores(entries),
          CountStatus(entries, "completed"), CountStatus(entries, "watching"),
          CountStatus(entries, "planned"), CountStatus(entries, "dropped"),
          episodes))
  }

  /** The four status counts of a list whose statuses are all valid add up to its length. */
  lemma {:induction false} StatusCountsPartition(entries: seq<DiaryEntry>)
    requires forall e :: e in entries ==> e.status in Statuses
    ensures CountStatus(entries, "completed") + CountStatus(entries, "watching")
      + CountStatus(entries, "planned") + CountStatus(entries, "dropped") == |entries|
  {
    if entries != [] {
      assert entries == [entries[0]] + entries[1..];
      StatusCountsPartition(entries[1..]);
    }
  }

  /** In a valid database the status counts of `get_stats` add up to `total_animes`. */
  lemma StatsCountsSumToTotal(db: Db, userId: int)
    requires Valid(db)
    requires GetStats(db, userId).Ok?
    ensures var s := GetStats(db, userId).value;
      s.completed + s.watching + s.planned + s.dropped == s.totalAnimes
  {
    var entries := Filter(db.entries, (e: DiaryEntry) => SqlEq(e.userId, Int(userId)));
    forall e | e in entries
      ensures e.status in Statuses
    {
      FilterMembers(db.entries, (e: DiaryEntry) => SqlEq(e.userId, Int(userId)), e);
      StoredEntryRowOk(db.entries, db.animes, e);
    }
    StatusCountsPartition(entries);
  }

  /** Episodes counted as integers: `None` (and every other falsy value) as 0. */
  function IntEpisodes(entries: seq<DiaryEntry>): int
    requires forall e :: e in entries ==> e.episodesWatched.Int? || e.episodesWatched.Null?
  {
    if entries == [] then 0
    else
      assert entries[0] in entries;
      (if entries[0].episodesWatched.Int? then entries[0].episodesWatched.i else 0)
      + IntEpisodes(entries[1..])
  }

  /** When every `episodes_watched` is an integer or null the total is their integer sum. */
  lemma {:induction false} SumEpisodesOfIntegers(acc: int, entries: seq<DiaryEntry>)
    requires forall e :: e in entries ==> e.episodesWatched.Int? || e.episodesWatched.Null?
    ensures SumEpisodes(IntNum(acc), entries) == Ok(IntNum(acc + IntEpisodes(entries)))
    decreases |entries|
  {
    if entries != [] {
      assert entries[0] in entries;
      assert forall e :: e in entries[1..] ==> e in entries;
      SumEpisodesOfIntegers(acc + (if entries[0].episodesWatched.Int? then entries[0].episodesWatched.i else 0), entries[1..]);
    }
  }
}

=== FILE: http.dfy ===
/**
 * What the Flask controllers put on the wire: a status code and a JSON body, and
 * the `handle_errors` decorator that turns an escaped exception into one. The three
 * controllers declare the same decorator, so it is defined once here.
 */
module Http {
  import opened Wrappers
  import opened Json
  import opened Store

  datatype Response = Response(status: int, body: Doc)

  /** A handled request: the response and the tables it leaves behind. */
  datatype Served = Served(response: Response, db: Db)

  const MsgInternal: string := "Internal server error"

  /** A body `{"error": msg}` with the given status. */
  function ErrorReply(status: int, msg: string): Response {
    Response(status, Object(map["error" := Text(msg)]))
  }

  /** The member `key` of a response body, when the body is an object that has it. */
  function Member(r: Response, key: string): Option<Doc> {
    if r.body.Object? && key in r.body.fields then Some(r.body.fields[key]) else None
  }

  /** The message of an error response, as a client reads it from `error`. */
  function ErrorMessage(r: Response): Option<string> {
    match Member(r, "error")
    case Some(Leaf(Str(m))) => Some(m)
    case _ => None
  }

  /**
   * `handle_errors`: the handler's own response when nothing escaped; a
   * `ValueError` becomes 400 `{"error": message}`; any other exception becomes
   * 500 `{"error": "Internal server error", "details": message}`.
   */
  function HandleErrors(r: Result<Response, Exc>): (resp: Response)
    ensures r.Ok? ==> resp == r.value
    ensures r.Err? ==> resp.status == (if r.error.ValueError? then 400 else 500)
    ensures r.Err? ==> ErrorMessage(resp).Some?
  {
    match r
    case Ok(resp) => resp
    case Err(ValueError(msg)) => ErrorReply(400, msg)
    case Err(Internal(detail)) =>
      Response(500, Object(map["error" := Text(MsgInternal), "details" := Text(detail)]))
  }

  /** Reads back the exception an error response reports. */
  function ReportedException(r: Response): Option<Exc> {
    if r.status == 400 then
      match ErrorMessage(r)
      case Some(m) => Some(ValueError(m))
      case None => None
    else if r.status == 500 then
      match Member(r, "details")
      case Some(Leaf(Str(d))) => Some(Internal(d))
      case _ => None
    else None
  }

  /** No information is lost: the exception can be read back from the error response. */
  lemma HandleErrorsReportsException(x: Exc)
    ensures ReportedException(HandleErrors(Err(x))) == Some(x)
  {
  }

  /** Runs a service call under `handle_errors`: `ok` builds the response from its result. */
  function Handle<T>(t: Txn<T>, ok: T -> Response): (s: Served)
    ensures s.db == t.db
    ensures t.result.Ok? ==> s.response == ok(t.result.value)
    ensures t.result.Err? ==> s.response == HandleErrors(Err(t.result.error))
    ensures t.result.Err? ==> ReportedException(s.response) == Some(t.result.error)
  {
    match t.result
    case Ok(v) => Served(ok(v), t.db)
    case Err(x) =>
      HandleErrorsReportsException(x);
      Served(HandleErrors(Err(x)), t.db)
  }

  /** `request.args.get(name, default)` for a query parameter that may be absent. */
  function ArgOr(arg: Option<string>, default: string): string {
    if arg.Some? then arg.value else default
  }

  /** Python's `not data` for a decoded request body: no body, or an empty object. */
  predicate Falsy(data: Option<Data>) {
    data.None? || data.value == map[]
  }

  /** The request body lacks one of `keys` (or is falsy). */
  predicate Lacks(data: Option<Data>, keys: seq<string>) {
    Falsy(data) || exists k :: k in keys && k !in data.value
  }
}

=== FILE: js.dfy ===
/**
 * JavaScript values as the browser code handles them: decoded JSON bodies,
 * `localStorage` contents and function arguments. Numbers are kept as exact
 * reals (no NaN, infinities or rounding).
 */
module Js {
  import opened Wrappers
  import opened Json

  datatype JsVal =
    | Undefined
    | JsNull
    | JsBool(b: bool)
    | JsNum(n: real)
    | JsStr(s: string)
    | JsArr(items: seq<JsVal>)
    | JsObj(fields: map<string, JsVal>)

  /** What a failed `fetch`, `response.json()` or property read throws. */
  datatype JsError =
    | Error(message: JsVal)     // `new Error(message)`
    | TypeError                 // a property read on `undefined` or `null`
    | SyntaxError               // `response.json()` on a body that is not JSON
    | NetworkError              // `fetch` itself rejects

  /** JavaScript truthiness (`undefined`, `null`, `false`, `0` and `""` are falsy). */
  predicate Truthy(v: JsVal) {
    match v
    case Undefined => false
    case JsNull => false
    case JsBool(b) => b
    case JsNum(n) => n != 0.0
    case JsStr(s) => s != ""
    case _ => true
  }

  /** `a || b`: the left operand when it is truthy, the right one otherwise. */
  function Or(a: JsVal, b: JsVal): (r: JsVal)
    ensures Truthy(a) ==> r == a
    ensures !Truthy(a) ==> r == b
  {
    if Truthy(a) then a else b
  }

  /**
   * `v.key`: a read on `undefined` or `null` throws `TypeError`; a missing member
   * (or any member of a non-object, which the model does not track) is `undefined`.
   */
  function Prop(v: JsVal, key: string): (r: Result<JsVal, JsError>)
    ensures r.Err? <==> v.Undefined? || v.JsNull?
    ensures r.Err? ==> r.error == TypeError
    ensures v.JsObj? && key in v.fields ==> r == Ok(v.fields[key])
    ensures v.JsObj? && key !in v.fields ==> r == Ok(Undefined)
  {
    match v
    case Undefined => Err(TypeError)
    case JsNull => Err(TypeError)
    case JsObj(fields) => Ok(if key in fields then fields[key] else Undefined)
    case _ => Ok(Undefined)
  }

  /** A chain of property reads, `v.k0.k1…`, stopping at the first that throws. */
  function Path(v: JsVal, keys: seq<string>): (r: Result<JsVal, JsError>)
    decreases |keys|
  {
    if keys == [] then Ok(v)
    else
      match Prop(v, keys[0])
      case Err(e) => Err(e)
      case Ok(w) => Path(w, keys[1..])
  }

  /** `param = d` in a parameter list: the default replaces only `undefined`. */
  function Default(v: JsVal, d: JsVal): (r: JsVal)
    ensures v.Undefined? ==> r == d
    ensures !v.Undefined? ==> r == v
  {
    if v.Undefined? then d else v
  }

  /** `JSON.stringify` of an object literal then `JSON.parse`: members that are `undefined` are dropped. */
  function Stringified(fields: map<string, JsVal>): (r: map<string, JsVal>)
    ensures forall k :: k in r <==> k in fields && !fields[k].Undefined?
    ensures forall k :: k in r ==> r[k] == fields[k]
  {
    map k | k in fields && !fields[k].Undefined? :: fields[k]
  }

  /** A scalar JSON value as `JSON.parse` gives it to the browser. */
  function ValueToJs(v: Value): JsVal {
    match v
    case Null => JsNull
    case Bool(b) => JsBool(b)
    case Int(i) => JsNum(i as real)
    case Real(r) => JsNum(r)
    case Str(s) => JsStr(s)
  }

  /** A response body as `response.json()` gives it to the browser. */
  function DocToJs(d: Doc): JsVal {
    match d
    case Leaf(v) => ValueToJs(v)
    case List(items) => JsArr(seq(|items|, i requires 0 <= i < |items| => DocToJs(items[i])))
    case Object(fields) => JsObj(map k | k in fields :: DocToJs(fields[k]))
  }

  /** Reading a member of a decoded body is reading the member of the body. */
  lemma DocToJsMember(d: Doc, key: string)
    requires d.Object?
    ensures key in d.fields ==> Prop(DocToJs(d), key) == Ok(DocToJs(d.fields[key]))
    ensures key !in d.fields ==> Prop(DocToJs(d), key) == Ok(Undefined)
  {
  }

  /** Python truthiness and JavaScript truthiness agree on every scalar JSON value. */
  lemma TruthyAgrees(v: Value)
    ensures Truthy(ValueToJs(v)) <==> PyTruthy(v)
  {
  }
}

=== FILE: json.dfy ===
/**
 * JSON values as the backend sees them in request bodies and table columns, and
 * documents as the frontend sees them in response bodies.
 *
 * A JSON number written without a fraction or exponent parses to a Python `int`,
 * any other number to a `float`; the model keeps the float as an exact `real`
 * (IEEE rounding is not modelled).
 */
module Json {
  import opened Wrappers
  import Strings = Text

  /** A scalar JSON value: what a request field or a table cell holds. */
  datatype Value = Null | Bool(b: bool) | Int(i: int) | Real(r: real) | Str(s: string)

  /** A JSON document: a response body or a nested part of one. */
  datatype Doc = Leaf(v: Value) | List(items: seq<Doc>) | Object(fields: map<string, Doc>)

  /** A decoded JSON object whose members are scalars: a request body. */
  type Data = map<string, Value>

  /** Python's `data.get(key)`. */
  function Get(data: Data, key: string): (v: Value)
    ensures key !in data ==> v == Null
    ensures key in data ==> v == data[key]
  {
    if key in data then data[key] else Null
  }

  /** Python's `data.get(key, default)`. */
  function GetOr(data: Data, key: string, default: Value): (v: Value)
    ensures key !in data ==> v == default
    ensures key in data ==> v == data[key]
  {
    if key in data then data[key] else default
  }

  /** Python truth value of a scalar (`None`, `False`, `0`, `0.0` and `''` are false). */
  predicate PyTruthy(v: Value) {
    match v
    case Null => false
    case Bool(b) => b
    case Int(i) => i != 0
    case Real(r) => r != 0.0
    case Str(s) => s != ""
  }

  /** `isinstance(v, int)`: Python's `bool` is a subclass of `int`, so `True` is the integer 1. */
  function PyInt(v: Value): (r: Option<int>)
    ensures r.Some? <==> v.Int? || v.Bool?
    ensures v.Int? ==> r == Some(v.i)
    ensures v == Bool(true) ==> r == Some(1)
    ensures v == Bool(false) ==> r == Some(0)
  {
    match v
    case Int(i) => Some(i)
    case Bool(b) => Some(if b then 1 else 0)
    case _ => None
  }

  /** Values SQL compares numerically. */
  predicate IsNumber(v: Value) {
    v.Bool? || v.Int? || v.Real?
  }

  function NumVal(v: Value): real
    requires IsNumber(v)
  {
    match v
    case Bool(b) => if b then 1.0 else 0.0
    case Int(i) => i as real
    case Real(r) => r
  }

  /**
   * SQLite's NUMERIC affinity on a bound value: text that spells a number (see
   * `Strings.SqlNumeral`) becomes that number, anything else is left as it is.
   */
  function NumericAffinity(v: Value): (a: Value)
    ensures !v.Str? || Strings.SqlNumeral(v.s).None? ==> a == v
    ensures v.Str? && Strings.SqlNumeral(v.s).Some? ==> IsNumber(a)
  {
    if v.Str? then
      match Strings.SqlNumeral(v.s)
      case Some(Integer(n)) => Int(n)
      case Some(Decimal(x)) => Real(x)
      case None => v
    else v
  }

  /** The decimal text of an integer converts to that integer. */
  lemma NumericAffinityOfInteger(n: int)
    ensures NumericAffinity(Str(Strings.IntToString(n))) == Int(n)
  {
    Strings.SqlNumeralOfInteger(n);
    AffinityOfNumeral(Strings.IntToString(n), Strings.Integer(n));
  }

  /** Text spelling a number converts to it. */
  lemma AffinityOfNumeral(t: string, x: Strings.Numeral)
    requires Strings.SqlNumeral(t) == Some(x)
    ensures NumericAffinity(Str(t)) == (if x.Integer? then Int(x.i) else Real(x.r))
  {
  }

  /**
   * A non-zero integer and its decimal text are read alike by an INTEGER column
   * and by Python's truth test, so either may stand for the other.
   */
  lemma IntegerTextReadsAlike(n: int)
    requires n != 0
    ensures NumericAffinity(Str(Strings.IntToString(n))) == NumericAffinity(Int(n))
    ensures PyTruthy(Str(Strings.IntToString(n))) == PyTruthy(Int(n))
  {
    NumericAffinityOfInteger(n);
    assert |Strings.IntToString(n)| > 0 by {
      if n < 0 {
        assert Strings.IntToString(n) == "-" + Strings.NatToString(-n);
      } else {
        assert Strings.IntToString(n) == Strings.NatToString(n);
        assert |Strings.NatToString(n)| > 0;
      }
    }
  }

  /** Text holding a lower-case letter is not a number and stays text. */
  lemma NumericAffinityKeepsWords(s: string, i: nat)
    requires i < |s| && 'a' <= s[i] <= 'z'
    ensures NumericAffinity(Str(s)) == Str(s)
  {
    Strings.SqlNumeralRejectsLetter(s, i);
  }

  /**
   * What an INTEGER column holds after a write: numeric text is converted by the
   * column's affinity, Python's sqlite3 binds a `bool` as 0 or 1, and a float
   * without a fractional part is stored as an integer.
   */
  function ColumnInt(v: Value): (c: Value)
    ensures c.Null? <==> v.Null?
    ensures IsNumber(NumericAffinity(v)) <==> IsNumber(c)
    ensures IsNumber(c) ==> NumVal(c) == NumVal(NumericAffinity(v))
    ensures !IsNumber(c) ==> c == v
    ensures c.Real? ==> c.r.Floor as real != c.r
    ensures !c.Bool?
  {
    match NumericAffinity(v)
    case Bool(b) => Int(if b then 1 else 0)
    case Real(r) => if r.Floor as real == r then Int(r.Floor) else Real(r)
    case a => a
  }

  /**
   * What a FLOAT column holds after a write: numeric text is converted by the
   * column's REAL affinity, and an integer (or a `bool`, bound as 0 or 1) becomes
   * a floating-point value.
   */
  function ColumnReal(v: Value): (c: Value)
    ensures c.Null? <==> v.Null?
    ensures IsNumber(NumericAffinity(v)) ==> c.Real? && c.r == NumVal(NumericAffinity(v))
    ensures !IsNumber(NumericAffinity(v)) ==> c == v
  {
    var a := NumericAffinity(v);
    if IsNumber(a) then Real(NumVal(a)) else v
  }

  /** Storing a value in a FLOAT column twice stores the same thing as storing it once. */
  lemma ColumnRealIdempotent(v: Value)
    ensures ColumnReal(ColumnReal(v)) == ColumnReal(v)
  {
  }

  /** Python's `type(v).__name__`, as it appears in `TypeError` messages. */
  function TypeName(v: Value): string {
    match v
    case Null => "NoneType"
    case Bool(_) => "bool"
    case Int(_) => "int"
    case Real(_) => "float"
    case Str(_) => "str"
  }

  /**
   * A value an INTEGER column can hold: null, an integer, a float with a fractional
   * part, or text that spells no number.
   */
  predicate IsColumnInt(v: Value) {
    match v
    case Bool(_) => false
    case Real(r) => r.Floor as real != r
    case Str(s) => Strings.SqlNumeral(s).None?
    case _ => true
  }

  /** The values an INTEGER column can hold are exactly those a write leaves unchanged. */
  lemma ColumnIntFixpoints(v: Value)
    ensures IsColumnInt(v) <==> ColumnInt(v) == v
    ensures IsColumnInt(ColumnInt(v))
  {
  }

  /**
   * SQL `=` once both sides have their storage class: `None` becomes `IS NULL`,
   * numbers compare by value, text by equality, and a number never equals text.
   */
  predicate SameValue(stored: Value, given: Value) {
    if given.Null? then stored.Null?
    else if IsNumber(given) then IsNumber(stored) && NumVal(stored) == NumVal(given)
    else stored == given
  }

  /**
   * SQLAlchemy's `filter_by(column=given)` (and `Query.get`) on an INTEGER column:
   * SQLite applies the column's NUMERIC affinity to the bound value before comparing.
   * The stored cell is read with that affinity as well, which changes nothing for a
   * value the column actually holds (see `ColumnValueFixed`).
   */
  predicate SqlEq(stored: Value, given: Value) {
    SameValue(NumericAffinity(stored), NumericAffinity(given))
  }

  /** Below this magnitude SQLite renders an integral REAL as its digits and ".0" (`%!.15g`). */
  const PlainRealBound: real := 1000000000000000.0

  /** SQLite's text for the integral REAL `x`: its digits and ".0", with a minus sign when negative. */
  function PointZeroText(x: int): string {
    if x < 0 then "-" + Strings.NatToString(-x) + ".0" else Strings.NatToString(x) + ".0"
  }

  /**
   * TEXT affinity, which SQLite applies to a value stored in or compared with a TEXT
   * column: an integer becomes its decimal digits, a `bool` the 1 or 0 that Python's
   * `sqlite3` binds it as, an integral REAL below `PlainRealBound` its digits and
   * ".0"; NULL and text stay as they are.
   */
  function TextAffinity(v: Value): (r: Value)
    ensures r.Null? <==> v.Null?
    ensures v.Str? ==> r == v
    ensures v.Int? ==> r.Str? && Strings.ParseInt(r.s) == Some(v.i)
    ensures v.Bool? ==> r.Str? && Strings.ParseInt(r.s) == Some(if v.b then 1 else 0)
    ensures v.Real? ==> (r.Str? <==> v.r.Floor as real == v.r && -PlainRealBound < v.r < PlainRealBound)
    ensures v.Real? && !r.Str? ==> r == v
  {
    match v
    case Int(i) =>
      Strings.IntToStringRoundTrip(i);
      Str(Strings.IntToString(i))
    case Bool(b) =>
      Strings.IntToStringRoundTrip(if b then 1 else 0);
      Str(Strings.IntToString(if b then 1 else 0))
    case Real(x) =>
      if x.Floor as real == x && -PlainRealBound < x < PlainRealBound then Str(PointZeroText(x.Floor)) else v
    case _ => v
  }

  /**
   * TEXT affinity keeps the number it renders: NUMERIC affinity reads the text back
   * as a number Python finds equal to the original.
   */
  lemma TextAffinityReadsBack(v: Value)
    requires IsNumber(v) && TextAffinity(v).Str?
    ensures IsNumber(NumericAffinity(TextAffinity(v)))
    ensures SameValue(NumericAffinity(TextAffinity(v)), v)
  {
    match v
    case Int(i) =>
      NumericAffinityOfInteger(i);
    case Bool(b) =>
      NumericAffinityOfInteger(if b then 1 else 0);
    case Real(x) =>
      assert TextAffinity(v) == Str(PointZeroText(x.Floor));
      PointZeroReadsBack(x.Floor);
  }

  /** NUMERIC affinity reads an integral REAL's text back as a number of that value. */
  lemma PointZeroReadsBack(n: int)
    ensures IsNumber(NumericAffinity(Str(PointZeroText(n))))
    ensures NumVal(NumericAffinity(Str(PointZeroText(n)))) == n as real
  {
    if n < 0 {
      var m: nat := -n;
      var t := "-" + Strings.NatToString(m) + ".0";
      assert PointZeroText(n) == t;
      Strings.NegativePointZero(m);
      AffinityOfNumeral(t, Strings.Decimal(-(m as real)));
    } else {
      Strings.SqlNumeralOfPointZero(n);
      AffinityOfNumeral(PointZeroText(n), Strings.Decimal(n as real));
    }
  }

  /**
   * SQL `=` on a TEXT column (`filter_by(username=…)`, `filter_by(email=…)`): the cell
   * holds the text its write was given under TEXT affinity, and SQLite applies the
   * same affinity to the bound value, so 5 finds the text "5".
   */
  predicate TextEq(stored: Value, given: Value) {
    SameValue(TextAffinity(stored), TextAffinity(given))
  }

  /** Between texts, the TEXT-column comparison is plain equality. */
  lemma TextEqOnText(a: string, b: string)
    ensures TextEq(Str(a), Str(b)) <==> a == b
  {
  }

  /** The TEXT-column comparison is an equivalence. */
  lemma TextEqFacts(a: Value, b: Value, c: Value)
    ensures TextEq(a, a)
    ensures TextEq(a, b) <==> TextEq(b, a)
    ensures TextEq(a, b) && TextEq(b, c) ==> TextEq(a, c)
  {
    SameValueRefl(TextAffinity(a));
    SameValueSym(TextAffinity(a), TextAffinity(b));
    if TextEq(a, b) && TextEq(b, c) {
      SameValueTrans(TextAffinity(a), TextAffinity(b), TextAffinity(c));
    }
  }

  /**
   * A TEXT cell holding an integer's digits matches that integer, though Python's
   * `==` tells the two apart.
   */
  lemma TextEqFindsDigits(s: string, n: int)
    ensures TextEq(Str(s), Int(n)) <==> s == Strings.IntToString(n)
    ensures !SameValue(Str(s), Int(n))
  {
  }

  /** Numeric text matches an INTEGER cell holding its number: `'5'` finds 5, `' 5.0'` does too. */
  lemma SqlEqNumericText(n: int)
    ensures SqlEq(Int(n), Str(Strings.IntToString(n)))
    ensures n >= 0 ==> SqlEq(Int(n), Str(" " + Strings.NatToString(n) + ".0"))
  {
    NumericAffinityOfInteger(n);
    if n >= 0 {
      var x := " " + Strings.NatToString(n) + ".0";
      assert Strings.SqlNumeral(x) == Some(Strings.Decimal(n as real)) by {
        Strings.NatDigitsParse(n);
        Strings.SpacedPointZero(Strings.NatToString(n), n);
      }
      AffinityOfNumeral(x, Strings.Decimal(n as real));
    }
  }

  /** Two values that an INTEGER column could hold are SQL-equal exactly when they are equal. */
  lemma SqlEqOnColumns(a: Value, b: Value)
    requires IsColumnInt(a) && IsColumnInt(b)
    ensures SqlEq(a, b) <==> a == b
  {
    ColumnValueFixed(a);
    ColumnValueFixed(b);
  }

  /** A value an INTEGER column holds is left alone by NUMERIC affinity. */
  lemma ColumnValueFixed(v: Value)
    requires IsColumnInt(v)
    ensures NumericAffinity(v) == v
  {
  }

  /** Storing a value in an INTEGER column keeps it SQL-equal to what was given. */
  lemma ColumnIntSqlEq(stored: Value, given: Value)
    ensures SqlEq(stored, ColumnInt(given)) <==> SqlEq(stored, given)
    ensures SqlEq(ColumnInt(given), given)
  {
    ColumnIntIdempotent(given);
    ColumnValueFixed(ColumnInt(given));
  }

  /** Writing an INTEGER column twice stores what writing it once stores. */
  lemma ColumnIntIdempotent(v: Value)
    ensures ColumnInt(ColumnInt(v)) == ColumnInt(v)
  {
    var c := ColumnInt(v);
    if !IsNumber(c) && !c.Null? {
      assert c == v;
      assert NumericAffinity(c) == c;
    }
  }

  /** Two INTEGER cells that both match the same filter value are the same value. */
  lemma SqlEqSameGiven(a: Value, b: Value, given: Value)
    requires IsColumnInt(a) && IsColumnInt(b)
    requires SqlEq(a, given) && SqlEq(b, given)
    ensures a == b
  {
    ColumnValueFixed(a);
    ColumnValueFixed(b);
  }

  /** SQL equality is reflexive. */
  lemma SqlEqRefl(v: Value)
    ensures SqlEq(v, v)
  {
  }

  /** SQL equality is symmetric. */
  lemma SqlEqSym(a: Value, b: Value)
    ensures SqlEq(a, b) <==> SqlEq(b, a)
  {
  }

  /** Python's `==` on scalars is symmetric. */
  lemma SameValueSym(a: Value, b: Value)
    ensures SameValue(a, b) <==> SameValue(b, a)
  {
  }

  /** Python's `==` on scalars is transitive. */
  lemma SameValueTrans(a: Value, b: Value, c: Value)
    requires SameValue(a, b) && SameValue(b, c)
    ensures SameValue(a, c)
  {
  }

  /**
   * Whether SQLAlchemy writes `data[key]` over an attribute loaded as `loaded`: the
   * key is present and the value differs under Python `==`. On JSON scalars Python's
   * `==` is `SameValue`: `None` equals only `None`, numbers compare by value
   * (`True == 1`, `3 == 3.0`), and text equals only the same text.
   */
  predicate Dirty(data: Data, key: string, loaded: Value) {
    key in data && !SameValue(loaded, data[key])
  }

  /** Every value equals itself under Python `==`. */
  lemma SameValueRefl(v: Value)
    ensures SameValue(v, v)
  {
  }

  /** Writing a value Python finds equal to the column's own value stores that value again. */
  lemma ColumnIntOfEqual(stored: Value, given: Value)
    requires IsColumnInt(stored) && SameValue(stored, given)
    ensures ColumnInt(given) == stored
  {
  }

  /** Python-equal values are read alike by NUMERIC affinity. */
  lemma SameValueAffinity(a: Value, b: Value)
    requires SameValue(a, b)
    ensures SameValue(NumericAffinity(a), NumericAffinity(b))
  {
  }

  /**
   * A numeric column that was written only when Python found the given value
   * different ends reading as the given value, either way the comparison goes.
   */
  lemma ReadsAsGiven(stored: Value, given: Value)
    ensures SameValue(stored, given) ==> SqlEq(stored, given)
    ensures SqlEq(ColumnReal(given), given) && SqlEq(ColumnInt(given), given)
  {
    ColumnIntSqlEq(given, given);
  }

  function Text(s: string): Doc {
    Leaf(Str(s))
  }

  function Number(i: int): Doc {
    Leaf(Int(i))
  }
}

=== FILE: local_diary.dfy ===
/**
 * The diary the browser keeps under the `localStorage` key "anime-diary": the
 * anime detail page adds to it or re-scores an anime already in it, and the diary
 * page removes entries and changes their scores. Both pages read the stored list,
 * change it, and write the whole list back.
 *
 * The stored item is `None` when the key is absent (or holds the empty string);
 * `JSON.parse` of the item is assumed to give back the list last written.
 */
module LocalDiary {
  import opened Wrappers
  import opened Js
  import opened Strings = Text
  import Store
  import DiaryService
  import Json

  /** One saved anime. The fields copied from the loaded anime are kept as the values they were. */
  datatype Entry = Entry(
    id: string,
    malId: int,
    title: JsVal,
    imageUrl: JsVal,
    score: JsVal,
    userScore: int,
    episodes: JsVal)

  /** `saved ? JSON.parse(saved) : []`. */
  function Load(saved: Option<seq<Entry>>): (r: seq<Entry>)
    ensures saved.None? ==> r == []
    ensures saved.Some? ==> r == saved.value
  {
    if saved.Some? then saved.value else []
  }

  /** `entries.findIndex(e => e.mal_id === id)`, as an option. */
  function IndexOfAnime(entries: seq<Entry>, malId: int): Option<nat> {
    Store.Find(entries, (e: Entry) => e.malId == malId)
  }

  /** `k` is the first position of an entry for that anime. */
  predicate FirstFor(entries: seq<Entry>, malId: int, k: int) {
    0 <= k < |entries| && entries[k].malId == malId && forall j :: 0 <= j < k ==> entries[j].malId != malId
  }

  /** The anime has an entry. */
  predicate HasAnime(entries: seq<Entry>, malId: int) {
    exists k :: 0 <= k < |entries| && entries[k].malId == malId
  }

  /** No anime is saved twice. */
  predicate OnePerAnime(entries: seq<Entry>) {
    forall i, j :: 0 <= i < j < |entries| ==> entries[i].malId != entries[j].malId
  }

  /**
   * The score the detail page shows once the anime has loaded: the score of the
   * first saved entry for that anime, else the initial 0.
   */
  function SavedScore(saved: Option<seq<Entry>>, malId: int): (r: int)
    ensures !HasAnime(Load(saved), malId) ==> r == 0
    ensures forall k :: FirstFor(Load(saved), malId, k) ==> r == Load(saved)[k].userScore
  {
    var entries := Load(saved);
    match IndexOfAnime(entries, malId)
    case Some(k) =>
      assert FirstFor(entries, malId, k);
      FirstForUnique(entries, malId);
      entries[k].userScore
    case None =>
      assert forall k :: 0 <= k < |entries| ==> entries[k].malId != malId;
      0
  }

  lemma FirstForUnique(entries: seq<Entry>, malId: int)
    ensures forall i, j :: FirstFor(entries, malId, i) && FirstFor(entries, malId, j) ==> i == j
  {
  }

  /** What a click on "add to diary" does. */
  datatype AddOutcome =
    | NoOp                            // nothing loaded or no score chosen: the handler returns at once
    | Saved(entries: seq<Entry>)      // the list written back to storage
    | Threw(error: JsError)           // building the new entry threw; nothing is written

  /** `anime.images.jpg.image_url`. */
  const ImagePath: seq<string> := ["images", "jpg", "image_url"]

  /** The local id of an entry added at time `now` (milliseconds): `${id}-${Date.now()}`. */
  function LocalId(malId: int, now: int): string {
    IntToString(malId) + "-" + IntToString(now)
  }

  /**
   * The entry the handler builds before looking at the list: it reads the image
   * URL through `images.jpg`, which throws when the anime has no `images` object.
   */
  function NewEntry(anime: JsVal, malId: int, userScore: int, now: int): (r: Result<Entry, JsError>)
    requires Truthy(anime)
    ensures r.Err? <==> Path(anime, ImagePath).Err?
    ensures r.Ok? ==> r.value.id == LocalId(malId, now) && r.value.malId == malId && r.value.userScore == userScore
  {
    match Path(anime, ImagePath)
    case Err(e) => Err(e)
    case Ok(url) =>
      Ok(Entry(LocalId(malId, now), malId, Prop(anime, "title").value, url, Prop(anime, "score").value,
               userScore, Prop(anime, "episodes").value))
  }

  /**
   * `handleAddToDiary` on the anime page for `malId`: nothing happens unless an
   * anime is loaded and a score is chosen. Otherwise the first saved entry for
   * the anime gets the new score and keeps everything else, or, when there is
   * none, the new entry is appended.
   */
  function HandleAddToDiary(saved: Option<seq<Entry>>, anime: JsVal, userScore: int, malId: int, now: int)
    : (o: AddOutcome)
    ensures o.NoOp? <==> !Truthy(anime) || userScore == 0
    ensures o.Threw? <==> !o.NoOp? && Path(anime, ImagePath).Err?
    ensures o.Saved? && HasAnime(Load(saved), malId) ==>
      forall k :: FirstFor(Load(saved), malId, k) ==>
        o.entries == Load(saved)[k := Load(saved)[k].(userScore := userScore)]
    ensures o.Saved? && !HasAnime(Load(saved), malId) ==>
      && |o.entries| == |Load(saved)| + 1
      && o.entries[..|Load(saved)|] == Load(saved)
      && o.entries[|Load(saved)|] == NewEntry(anime, malId, userScore, now).value
  {
    if !Truthy(anime) || userScore == 0 then NoOp
    else
      var entries := Load(saved);
      var existing := IndexOfAnime(entries, malId);
      match NewEntry(anime, malId, userScore, now)
      case Err(e) => Threw(e)
      case Ok(entry) =>
        match existing
        case Some(k) =>
          assert FirstFor(entries, malId, k);
          assert HasAnime(entries, malId);
          FirstForUnique(entries, malId);
          Saved(entries[k := entries[k].(userScore := userScore)])
        case None =>
          assert !HasAnime(entries, malId);
          Saved(entries + [entry])
  }

  /** After saving, the anime page shows the score just saved. */
  lemma AddThenShowScore(saved: Option<seq<Entry>>, anime: JsVal, userScore: int, malId: int, now: int)
    requires HandleAddToDiary(saved, anime, userScore, malId, now).Saved?
    ensures SavedScore(Some(HandleAddToDiary(saved, anime, userScore, malId, now).entries), malId) == userScore
  {
    var entries := Load(saved);
    var r := HandleAddToDiary(saved, anime, userScore, malId, now).entries;
    if HasAnime(entries, malId) {
      var k := IndexOfAnime(entries, malId).value;
      assert FirstFor(entries, malId, k);
      assert FirstFor(r, malId, k);
    } else {
      assert FirstFor(r, malId, |entries|);
    }
  }

  /** Saving never puts a second entry for an anime into a list that had at most one per anime. */
  lemma AddKeepsOnePerAnime(saved: Option<seq<Entry>>, anime: JsVal, userScore: int, malId: int, now: int)
    requires OnePerAnime(Load(saved))
    requires HandleAddToDiary(saved, anime, userScore, malId, now).Saved?
    ensures OnePerAnime(HandleAddToDiary(saved, anime, userScore, malId, now).entries)
  {
    var entries := Load(saved);
    var r := HandleAddToDiary(saved, anime, userScore, malId, now).entries;
    if HasAnime(entries, malId) {
      var k := IndexOfAnime(entries, malId).value;
      assert FirstFor(entries, malId, k);
      forall i, j | 0 <= i < j < |r|
        ensures r[i].malId != r[j].malId
      {
        assert r[i].malId == entries[i].malId && r[j].malId == entries[j].malId;
      }
    } else {
      forall i, j | 0 <= i < j < |r|
        ensures r[i].malId != r[j].malId
      {
        if j == |entries| {
          assert r[i] == entries[i];
        } else {
          assert r[i] == entries[i] && r[j] == entries[j];
        }
      }
    }
  }

  /** Saving the same score again, at any later time, writes back the same list. */
  lemma AddTwiceSame(saved: Option<seq<Entry>>, anime: JsVal, userScore: int, malId: int, now: int, later: int)
    requires HandleAddToDiary(saved, anime, userScore, malId, now).Saved?
    ensures var r := HandleAddToDiary(saved, anime, userScore, malId, now).entries;
      HandleAddToDiary(Some(r), anime, userScore, malId, later) == Saved(r)
  {
    var entries := Load(saved);
    var r := HandleAddToDiary(saved, anime, userScore, malId, now).entries;
    AddThenShowScore(saved, anime, userScore, malId, now);
    var k := IndexOfAnime(r, malId).value;
    assert FirstFor(r, malId, k);
    assert r[k].userScore == userScore;
    assert r[k := r[k].(userScore := userScore)] == r;
  }

  /** An anime object without `images`, as the backend serialises one, makes every save throw. */
  lemma AddWithoutImagesThrows(saved: Option<seq<Entry>>, fields: map<string, JsVal>, userScore: int,
                               malId: int, now: int)
    requires "images" !in fields && userScore != 0
    ensures HandleAddToDiary(saved, JsObj(fields), userScore, malId, now) == Threw(TypeError)
  {
    assert Prop(JsObj(fields), "images") == Ok(Undefined);
  }

  /** The scores the anime page offers. */
  const ScoreOptions: seq<int> := [1, 2, 3, 4, 5, 6, 7, 8, 9, 10]

  /** The offered scores are exactly the ones the backend accepts for `user_score`. */
  lemma ScoreOptionsAreValidScores(s: int)
    ensures s in ScoreOptions <==> DiaryService.ScoreOf(Json.Int(s)) == Some(s)
  {
  }

  /** The diary page: the list it shows and what storage holds. */
  datatype Page = Page(shown: seq<Entry>, stored: Option<seq<Entry>>)

  /** Opening the diary page shows the stored list, or nothing when there is none. */
  function Open(stored: Option<seq<Entry>>): (p: Page)
    ensures p.stored == stored && p.shown == Load(stored)
  {
    Page(Load(stored), stored)
  }

  /** After a change the page shows what storage holds. */
  predicate InStorage(p: Page) {
    p.stored == Some(p.shown)
  }

  /**
   * `removeEntry(id)`: keeps the entries whose id differs, in their order, and
   * stores the result.
   */
  function RemoveEntry(p: Page, id: string): (r: Page)
    ensures InStorage(r)
    ensures forall e :: e in r.shown <==> e in p.shown && e.id != id
    ensures forall e :: multiset(r.shown)[e] == if e.id != id then multiset(p.shown)[e] else 0
    ensures (forall k :: 0 <= k < |p.shown| ==> p.shown[k].id != id) ==> r.shown == p.shown
  {
    var kept := Store.Filter(p.shown, OtherId(id));
    KeptEntries(p.shown, id);
    Page(kept, Some(kept))
  }

  /** The filter `removeEntry` applies: entries whose id differs. */
  function OtherId(id: string): Entry -> bool {
    (e: Entry) => e.id != id
  }

  /** Filtering out an id keeps exactly the other entries, and keeps a list without it whole. */
  lemma KeptEntries(shown: seq<Entry>, id: string)
    ensures forall e :: e in Store.Filter(shown, OtherId(id)) <==> e in shown && e.id != id
    ensures (forall k :: 0 <= k < |shown| ==> shown[k].id != id) ==> Store.Filter(shown, OtherId(id)) == shown
  {
    forall e
      ensures e in Store.Filter(shown, OtherId(id)) <==> e in shown && e.id != id
    {
      Store.FilterMembers(shown, OtherId(id), e);
    }
    if forall k :: 0 <= k < |shown| ==> shown[k].id != id {
      Store.FilterAll(shown, OtherId(id));
    }
  }

  /**
   * `updateScore(id, score)`: every entry with that id gets the score and nothing
   * else changes; the list keeps its length and order and is stored.
   */
  function UpdateScore(p: Page, id: string, score: int): (r: Page)
    ensures InStorage(r)
    ensures |r.shown| == |p.shown|
    ensures forall k :: 0 <= k < |p.shown| ==> r.shown[k].(userScore := p.shown[k].userScore) == p.shown[k]
    ensures forall k :: 0 <= k < |p.shown| ==>
      r.shown[k].userScore == if p.shown[k].id == id then score else p.shown[k].userScore
  {
    var updated := seq(|p.shown|, k requires 0 <= k < |p.shown| =>
      if p.shown[k].id == id then p.shown[k].(userScore := score) else p.shown[k]);
    Page(updated, Some(updated))
  }

  /** A re-scored entry shows its new score on its anime's page, when it is that anime's first entry. */
  lemma UpdateThenShowScore(p: Page, id: string, score: int, k: nat)
    requires k < |p.shown| && p.shown[k].id == id
    requires FirstFor(p.shown, p.shown[k].malId, k)
    ensures SavedScore(UpdateScore(p, id, score).stored, p.shown[k].malId) == score
  {
    var r := UpdateScore(p, id, score).shown;
    assert FirstFor(r, p.shown[k].malId, k);
  }

  /** Removing an entry after re-scoring it leaves what removing it alone leaves. */
  lemma UpdateThenRemove(p: Page, id: string, score: int)
    ensures RemoveEntry(UpdateScore(p, id, score), id) == RemoveEntry(p, id)
  {
    var u := UpdateScore(p, id, score).shown;
    RemoveUpdatedAgree(p.shown, u, id, score);
  }

  lemma {:induction false} RemoveUpdatedAgree(s: seq<Entry>, u: seq<Entry>, id: string, score: int)
    requires |u| == |s|
    requires forall k :: 0 <= k < |s| ==> u[k] == if s[k].id == id then s[k].(userScore := score) else s[k]
    ensures Store.Filter(u, (e: Entry) => e.id != id) == Store.Filter(s, (e: Entry) => e.id != id)
  {
    if s != [] {
      RemoveUpdatedAgree(s[1..], u[1..], id, score);
    }
  }

  /** Removing twice is removing once. */
  lemma RemoveTwice(p: Page, id: string)
    ensures RemoveEntry(RemoveEntry(p, id), id) == RemoveEntry(p, id)
  {
  }

  /** `{n} anime{s} registrado{s}`: both words take the plural "s" exactly when n is not 1. */
  function CountLabel(n: nat): (caption: string)
    ensures n == 1 ==> caption == "1 anime registrado"
    ensures n != 1 ==> caption == IntToString(n) + " animes registrados"
  {
    var plural := if n != 1 then "s" else "";
    IntToString(n) + " anime" + plural + " registrado" + plural
  }

  /** The label begins with the count, which reads back as the number of entries. */
  lemma CountLabelReadsBack(n: nat)
    ensures var caption := CountLabel(n);
      var digits := IntToString(n);
      caption[..|digits|] == digits && ParseInt(digits) == Some(n)
  {
    var digits := IntToString(n);
    var plural := if n != 1 then "s" else "";
    var rest := " anime" + plural + " registrado" + plural;
    assert CountLabel(n) == digits + rest;
    PrefixOfConcat(digits, rest);
    IntToStringRoundTrip(n);
  }

  lemma PrefixOfConcat(a: string, b: string)
    ensures (a + b)[..|a|] == a
  {
  }
}

=== FILE: ordering.dfy ===
/**
 * The ORDER BY a diary listing uses: which column `sort_by` names, how SQLite
 * orders the values of a column, and an insertion sort on that order.
 */
module Ordering {
  import opened Wrappers
  import opened Json
  import opened Store

  /** The columns of `diary_entry`. */
  datatype Column =
    | IdCol | UserIdCol | AnimeIdCol | UserScoreCol | StatusCol
    | EpisodesWatchedCol | NotesCol | CreatedAtCol | UpdatedAtCol

  /**
   * Attributes of the DiaryEntry class that exist but are not columns: those of
   * the class body, those SQLAlchemy's declarative mapping and Flask-SQLAlchemy's
   * model base add, and those every Python class has from `type` and `object`, as
   * current releases define them (Python 3.14, SQLAlchemy 2.0, Flask-SQLAlchemy 3.1).
   */
  const NonColumnAttributes: set<string> := ClassBodyAttributes + MappingAttributes + PythonClassAttributes

  const ClassBodyAttributes: set<string> := {
    "anime", "to_dict", "VALID_STATUSES", "__tablename__", "__table_args__", "__repr__",
    "__doc__", "__module__", "__dict__", "__init__"
  }

  const MappingAttributes: set<string> := {
    "query", "query_class", "metadata", "registry", "__table__", "__mapper__",
    "_sa_class_manager", "_sa_registry", "__fsa__", "__table_cls__", "__abstract__"
  }

  const PythonClassAttributes: set<string> := TypeAndObjectAttributes + RecentClassAttributes

  /** What `type` and `object` give every class. */
  const TypeAndObjectAttributes: set<string> := {
    "__class__", "__name__", "__qualname__", "__bases__", "__base__", "__mro__", "mro",
    "__basicsize__", "__itemsize__", "__flags__", "__weakrefoffset__", "__dictoffset__",
    "__subclasses__", "__instancecheck__", "__subclasscheck__", "__prepare__", "__call__",
    "__init_subclass__", "__subclasshook__", "__new__", "__weakref__", "__sizeof__",
    "__reduce__", "__reduce_ex__", "__format__", "__dir__", "__str__", "__hash__",
    "__eq__", "__ne__", "__lt__", "__le__", "__gt__", "__ge__",
    "__getattribute__", "__setattr__", "__delattr__", "__text_signature__"
  }

  /** What Python 3.10 and later add to every class. */
  const RecentClassAttributes: set<string> := {
    "__getstate__", "__annotations__", "__type_params__", "__or__", "__ror__",
    "__static_attributes__", "__firstlineno__", "__annotate__"
  }

  /**
   * `getattr(DiaryEntry, sort_by, DiaryEntry.created_at)` followed by `.asc()` or
   * `.desc()`: a column name picks that column, an unknown name falls back to
   * `created_at`, and an attribute that is not a column cannot be ordered and
   * raises (an `AttributeError`, not a `ValueError`).
   */
  function SortColumn(sortBy: string): (r: Result<Column, Exc>)
    ensures r.Err? <==> sortBy in NonColumnAttributes
    ensures r.Err? ==> r.error.Internal?
    ensures sortBy == "created_at" ==> r == Ok(CreatedAtCol)
  {
    CreatedAtIsColumn();
    if sortBy in NonColumnAttributes then Err(Internal("'" + sortBy + "' has no attribute 'asc'"))
    else
      match sortBy
      case "id" => Ok(IdCol)
      case "user_id" => Ok(UserIdCol)
      case "anime_id" => Ok(AnimeIdCol)
      case "user_score" => Ok(UserScoreCol)
      case "status" => Ok(StatusCol)
      case "episodes_watched" => Ok(EpisodesWatchedCol)
      case "notes" => Ok(NotesCol)
      case "created_at" => Ok(CreatedAtCol)
      case "updated_at" => Ok(UpdatedAtCol)
      case _ => Ok(CreatedAtCol)
  }

  /** The default sort key is a column, not one of the other attributes. */
  lemma CreatedAtIsColumn()
    ensures "created_at" !in NonColumnAttributes
  {
    CreatedAtNotMapped();
    CreatedAtNotInherited();
  }

  /** `created_at` is neither a class-body nor a mapping attribute. */
  lemma CreatedAtNotMapped()
    ensures "created_at" !in ClassBodyAttributes + MappingAttributes
  {
    assert "created_at" !in ClassBodyAttributes;
    assert "created_at" !in MappingAttributes;
  }

  /** `created_at` is not an attribute every Python class has. */
  lemma CreatedAtNotInherited()
    ensures "created_at" !in PythonClassAttributes
  {
    assert "created_at" !in TypeAndObjectAttributes;
    assert "created_at" !in RecentClassAttributes;
  }

  /** The value of column `c` in row `e`; timestamps order as the instants they stand for. */
  function Key(e: DiaryEntry, c: Column): Value {
    match c
    case IdCol => Int(e.id)
    case UserIdCol => e.userId
    case AnimeIdCol => Int(e.animeId)
    case UserScoreCol => Int(e.userScore)
    case StatusCol => Str(e.status)
    case EpisodesWatchedCol => e.episodesWatched
    case NotesCol => e.notes
    case CreatedAtCol => Int(e.createdAt)
    case UpdatedAtCol => Int(e.updatedAt)
  }

  /** Code-point order on text, which is what SQLite's BINARY collation gives on UTF-8. */
  predicate TextLe(a: string, b: string) {
    if a == [] then true
    else if b == [] then false
    else if a[0] != b[0] then a[0] < b[0]
    else TextLe(a[1..], b[1..])
  }

  lemma {:induction false} TextLeTotal(a: string, b: string)
    ensures TextLe(a, b) || TextLe(b, a)
  {
    if a != [] && b != [] && a[0] == b[0] {
      TextLeTotal(a[1..], b[1..]);
    }
  }

  lemma {:induction false} TextLeTrans(a: string, b: string, c: string)
    requires TextLe(a, b) && TextLe(b, c)
    ensures TextLe(a, c)
  {
    if a != [] && b != [] && c != [] && a[0] == b[0] && b[0] == c[0] {
      TextLeTrans(a[1..], b[1..], c[1..]);
    }
  }

  /** SQLite's storage-class order: NULL, then numbers, then text. */
  function Rank(v: Value): nat {
    match v
    case Null => 0
    case Str(_) => 2
    case _ => 1
  }

  /** `a` sorts no later than `b` in ascending order. */
  predicate ValueLe(a: Value, b: Value) {
    if Rank(a) != Rank(b) then Rank(a) < Rank(b)
    else if a.Null? then true
    else if a.Str? then TextLe(a.s, b.s)
    else NumVal(a) <= NumVal(b)
  }

  lemma ValueLeTotal(a: Value, b: Value)
    ensures ValueLe(a, b) || ValueLe(b, a)
  {
    if a.Str? && b.Str? {
      TextLeTotal(a.s, b.s);
    }
  }

  lemma ValueLeTrans(a: Value, b: Value, c: Value)
    requires ValueLe(a, b) && ValueLe(b, c)
    ensures ValueLe(a, c)
  {
    if a.Str? && b.Str? && c.Str? {
      TextLeTrans(a.s, b.s, c.s);
    }
  }

  /** `x` may precede `y` under `ORDER BY c ASC` (or `DESC` when `asc` is false). */
  predicate Before(x: DiaryEntry, y: DiaryEntry, c: Column, asc: bool) {
    if asc then ValueLe(Key(x, c), Key(y, c)) else ValueLe(Key(y, c), Key(x, c))
  }

  lemma BeforeTotal(x: DiaryEntry, y: DiaryEntry, c: Column, asc: bool)
    ensures Before(x, y, c, asc) || Before(y, x, c, asc)
  {
    ValueLeTotal(Key(x, c), Key(y, c));
  }

  lemma BeforeTrans(x: DiaryEntry, y: DiaryEntry, z: DiaryEntry, c: Column, asc: bool)
    requires Before(x, y, c, asc) && Before(y, z, c, asc)
    ensures Before(x, z, c, asc)
  {
    if asc {
      ValueLeTrans(Key(x, c), Key(y, c), Key(z, c));
    } else {
      ValueLeTrans(Key(z, c), Key(y, c), Key(x, c));
    }
  }

  predicate SortedBy(s: seq<DiaryEntry>, c: Column, asc: bool) {
    forall i, j :: 0 <= i < j < |s| ==> Before(s[i], s[j], c, asc)
  }

  /** Inserts `x` before the first element it may precede. */
  function Insert(x: DiaryEntry, s: seq<DiaryEntry>, c: Column, asc: bool): (r: seq<DiaryEntry>)
    requires SortedBy(s, c, asc)
    ensures SortedBy(r, c, asc)
    ensures multiset(r) == multiset(s) + multiset{x}
  {
    if s == [] then [x]
    else if Before(x, s[0], c, asc) then
      InsertFrontSorted(x, s, c, asc);
      [x] + s
    else
      BeforeTotal(x, s[0], c, asc);
      var rest := Insert(x, s[1..], c, asc);
      assert s == [s[0]] + s[1..];
      assert forall y :: y in rest ==> y in s[1..] || y == x by {
        forall y | y in rest
          ensures y in s[1..] || y == x
        {
          assert y in multiset(rest);
        }
      }
      PrependSorted(s[0], rest, c, asc, s);
      [s[0]] + rest
  }

  lemma InsertFrontSorted(x: DiaryEntry, s: seq<DiaryEntry>, c: Column, asc: bool)
    requires SortedBy(s, c, asc) && s != [] && Before(x, s[0], c, asc)
    ensures SortedBy([x] + s, c, asc)
  {
    var r := [x] + s;
    forall i, j | 0 <= i < j < |r|
      ensures Before(r[i], r[j], c, asc)
    {
      if i == 0 && j > 1 {
        BeforeTrans(x, s[0], s[j - 1], c, asc);
      }
    }
  }

  /** `h` goes in front of a sorted permutation of `s[1..] + {x}` when it precedes all of it. */
  lemma PrependSorted(h: DiaryEntry, rest: seq<DiaryEntry>, c: Column, asc: bool, s: seq<DiaryEntry>)
    requires s != [] && h == s[0] && SortedBy(s, c, asc)
    requires SortedBy(rest, c, asc)
    requires forall y :: y in rest ==> y in s[1..] || Before(h, y, c, asc)
    ensures SortedBy([h] + rest, c, asc)
  {
    var r := [h] + rest;
    forall i, j | 0 <= i < j < |r|
      ensures Before(r[i], r[j], c, asc)
    {
      if i == 0 {
        var y := rest[j - 1];
        assert y in rest;
        if y in s[1..] {
          var k :| 0 <= k < |s[1..]| && s[1..][k] == y;
          assert s[k + 1] == y;
        }
      }
    }
  }

  /** An ordering of `s` by column `c`: a sorted permutation. */
  function Sort(s: seq<DiaryEntry>, c: Column, asc: bool): (r: seq<DiaryEntry>)
    ensures SortedBy(r, c, asc)
    ensures multiset(r) == multiset(s)
  {
    if s == [] then []
    else
      assert s == [s[0]] + s[1..];
      Insert(s[0], Sort(s[1..], c, asc), c, asc)
  }
}

=== FILE: store.dfy ===
/**
 * The backend's three tables (user, anime, diary_entry) as one immutable value, the
 * exceptions the services raise, and the constraints the model classes declare.
 *
 * A table is a sequence of rows in insertion order, which is the order SQLite
 * returns them in when a query has no ORDER BY. A service call returns its result
 * or its exception together with the tables after the call: the new tables when it
 * committed, the old ones when it rolled back or never reached a commit.
 */
module Store {
  import opened Wrappers
  import opened Json

  /** `DiaryEntry.VALID_STATUSES`, in declaration order. */
  const Statuses: seq<string> := ["watching", "completed", "planned", "dropped"]

  /** The column default of `DiaryEntry.status`. */
  const DefaultStatus: string := "watching"

  /**
   * A row of `anime`. Every column but the timestamps holds what the service code
   * assigned to it; `mal_id` and `episodes` are INTEGER columns.
   */
  datatype Anime = Anime(
    id: int,
    malId: Value,
    title: Value,
    synopsis: Value,
    score: Value,
    episodes: Value,
    imageUrl: Value,
    status: Value,
    createdAt: int,
    updatedAt: int)

  /**
   * A row of `diary_entry`. `anime_id` is the primary key of an `anime` row (not its
   * `mal_id`); `user_id` and `episodes_watched` are INTEGER columns.
   */
  datatype DiaryEntry = DiaryEntry(
    id: int,
    userId: Value,
    animeId: int,
    userScore: int,
    status: string,
    episodesWatched: Value,
    notes: Value,
    createdAt: int,
    updatedAt: int)

  /** A row of `user`; `digest` stands for the stored password hash. */
  datatype User = User(id: int, username: string, email: Value, digest: string)

  datatype Db = Db(users: seq<User>, animes: seq<Anime>, entries: seq<DiaryEntry>)

  /** A raised Python exception: a `ValueError`, or any other exception class. */
  datatype Exc = ValueError(msg: string) | Internal(detail: string)

  /** What a service call leaves behind: its return value or exception, and the tables. */
  datatype Txn<T> = Txn(result: Result<T, Exc>, db: Db)

  /**
   * How SQLAlchemy's text for a NOT NULL violation starts: the driver's exception
   * class and SQLite's message, which names the first NOT NULL column (in table
   * order) that the INSERT leaves null, as `table.column`.
   */
  function NotNullDetail(column: string): string {
    "(sqlite3.IntegrityError) NOT NULL constraint failed: " + column
  }

  // ---------------------------------------------------------------------------
  // Lookups

  /** Index of the first row satisfying `p`, like a query's `.first()`. */
  function Find<T>(rows: seq<T>, p: T -> bool): (r: Option<nat>)
    ensures r.Some? ==> r.value < |rows| && p(rows[r.value])
    ensures r.Some? ==> forall k :: 0 <= k < r.value ==> !p(rows[k])
    ensures r.None? <==> forall k :: 0 <= k < |rows| ==> !p(rows[k])
  {
    if rows == [] then None
    else if p(rows[0]) then Some(0)
    else
      match Find(rows[1..], p)
      case None => None
      case Some(i) => Some(i + 1)
  }

  /** Two filters that agree on every row find the same row. */
  lemma {:induction false} FindAgrees<T>(rows: seq<T>, p: T -> bool, q: T -> bool)
    requires forall k :: 0 <= k < |rows| ==> p(rows[k]) == q(rows[k])
    ensures Find(rows, p) == Find(rows, q)
  {
    if rows != [] {
      FindAgrees(rows[1..], p, q);
    }
  }

  /** The rows satisfying `p`, in table order: a query's `.filter_by(...).all()`. */
  function Filter<T(!new)>(rows: seq<T>, p: T -> bool): (r: seq<T>)
    ensures |r| <= |rows|
    ensures forall x :: multiset(r)[x] == if p(x) then multiset(rows)[x] else 0
    ensures forall k :: 0 <= k < |r| ==> p(r[k])
  {
    if rows == [] then []
    else
      var rest := Filter(rows[1..], p);
      assert rows == [rows[0]] + rows[1..];
      if p(rows[0]) then [rows[0]] + rest else rest
  }

  lemma FilterMembers<T(!new)>(rows: seq<T>, p: T -> bool, x: T)
    ensures x in Filter(rows, p) <==> x in rows && p(x)
  {
    var r := Filter(rows, p);
    assert x in r <==> multiset(r)[x] > 0;
    assert x in rows <==> multiset(rows)[x] > 0;
  }

  /** Filtering by a predicate every row satisfies keeps the rows as they are. */
  lemma {:induction false} FilterAll<T(!new)>(rows: seq<T>, p: T -> bool)
    requires forall k :: 0 <= k < |rows| ==> p(rows[k])
    ensures Filter(rows, p) == rows
  {
    if rows != [] {
      FilterAll(rows[1..], p);
    }
  }

  /** `Anime.query.get(id)`. */
  function AnimeIndex(animes: seq<Anime>, id: int): Option<nat> {
    Find(animes, (a: Anime) => a.id == id)
  }

  /** `User.query.get(id)`. */
  function UserIndex(users: seq<User>, id: int): Option<nat> {
    Find(users, (u: User) => u.id == id)
  }

  /** `DiaryEntry.query.get(id)`. */
  function EntryIndex(entries: seq<DiaryEntry>, id: int): Option<nat> {
    Find(entries, (e: DiaryEntry) => e.id == id)
  }

  /** The anime a diary entry's `anime` relationship loads, if its row exists. */
  function AnimeOf(db: Db, e: DiaryEntry): Option<Anime> {
    match AnimeIndex(db.animes, e.animeId)
    case Some(i) => Some(db.animes[i])
    case None => None
  }

  // ---------------------------------------------------------------------------
  // Primary keys

  /**
   * The key SQLite gives a new row of an `INTEGER PRIMARY KEY` table created
   * without AUTOINCREMENT: one more than the largest key in use, or 1.
   */
  function NextId<T>(rows: seq<T>, key: T -> int): (id: int)
    ensures id >= 1
    ensures forall i :: 0 <= i < |rows| ==> key(rows[i]) < id
  {
    if rows == [] then 1
    else
      var rest := NextId(rows[..|rows| - 1], key);
      var last := key(rows[|rows| - 1]) + 1;
      if last > rest then last else rest
  }

  function NextUserId(users: seq<User>): int {
    NextId(users, (u: User) => u.id)
  }

  function NextAnimeId(animes: seq<Anime>): int {
    NextId(animes, (a: Anime) => a.id)
  }

  function NextEntryId(entries: seq<DiaryEntry>): int {
    NextId(entries, (e: DiaryEntry) => e.id)
  }

  // ---------------------------------------------------------------------------
  // Declared constraints and the invariant the services keep

  /**
   * `user`: the User model class is not part of this model; the constraints are the
   * ones its service relies on (usernames and emails unique, email not null).
   * Uniqueness is SQL's: no two emails compare equal as TEXT (`TextEq`).
   */
  predicate UsersOk(users: seq<User>) {
    && (forall i :: 0 <= i < |users| ==> !users[i].email.Null?)
    && (forall i, j :: 0 <= i < j < |users| ==>
          users[i].id != users[j].id
          && users[i].username != users[j].username
          && !TextEq(users[i].email, users[j].email))
  }

  /** `anime`: `mal_id` unique and not null, `title` not null. */
  predicate AnimesOk(animes: seq<Anime>) {
    && (forall i :: 0 <= i < |animes| ==>
          !animes[i].malId.Null? && IsColumnInt(animes[i].malId) && !animes[i].title.Null?
          && IsColumnInt(animes[i].episodes))
    && (forall i, j :: 0 <= i < j < |animes| ==>
          animes[i].id != animes[j].id && animes[i].malId != animes[j].malId)
  }

  /** One diary row on its own: the CHECK on `user_score`, NOT NULLs, a valid status. */
  predicate EntryRowOk(e: DiaryEntry) {
    && !e.userId.Null? && IsColumnInt(e.userId) && IsColumnInt(e.episodesWatched)
    && 1 <= e.userScore <= 10
    && e.status in Statuses
  }

  /**
   * `diary_entry`: the rows are individually well formed, `(user_id, anime_id)` is
   * unique, and every `anime_id` names an existing anime (ON DELETE RESTRICT).
   */
  predicate EntriesOk(entries: seq<DiaryEntry>, animes: seq<Anime>) {
    && (forall i :: 0 <= i < |entries| ==> EntryRowOk(entries[i]))
    && (forall i :: 0 <= i < |entries| ==> AnimeIndex(animes, entries[i].animeId).Some?)
    && (forall i, j :: 0 <= i < j < |entries| ==>
          entries[i].id != entries[j].id
          && (entries[i].userId, entries[i].animeId) != (entries[j].userId, entries[j].animeId))
  }

  /** The invariant every service operation preserves. */
  predicate Valid(db: Db) {
    UsersOk(db.users) && AnimesOk(db.animes) && EntriesOk(db.entries, db.animes)
  }

  /** The empty database satisfies the invariant. */
  lemma EmptyValid()
    ensures Valid(Db([], [], []))
  {
  }

  /** Removing any rows keeps the pairwise facts of a table. */
  lemma EntriesOkSub(entries: seq<DiaryEntry>, sub: seq<DiaryEntry>, animes: seq<Anime>, f: nat -> nat)
    requires EntriesOk(entries, animes)
    requires forall k :: 0 <= k < |sub| ==> f(k) < |entries| && sub[k] == entries[f(k)]
    requires forall k, l :: 0 <= k < l < |sub| ==> f(k) < f(l)
    ensures EntriesOk(sub, animes)
  {
    forall k, l | 0 <= k < l < |sub|
      ensures sub[k].id != sub[l].id
      ensures (sub[k].userId, sub[k].animeId) != (sub[l].userId, sub[l].animeId)
    {
      assert sub[k] == entries[f(k)] && sub[l] == entries[f(l)];
    }
  }

  /** `rows` without the row at index `k`: what deleting one row leaves. */
  function RemoveAt<T>(rows: seq<T>, k: nat): (r: seq<T>)
    requires k < |rows|
    ensures |r| == |rows| - 1
    ensures forall i :: 0 <= i < k ==> r[i] == rows[i]
    ensures forall i :: k <= i < |r| ==> r[i] == rows[i + 1]
  {
    rows[..k] + rows[k + 1..]
  }

  /** Deleting one diary row keeps the table's constraints. */
  lemma EntriesOkRemoveAt(entries: seq<DiaryEntry>, animes: seq<Anime>, k: nat)
    requires EntriesOk(entries, animes) && k < |entries|
    ensures EntriesOk(RemoveAt(entries, k), animes)
  {
    EntriesOkSub(entries, RemoveAt(entries, k), animes, (i: nat) => if i < k then i else i + 1);
  }

  /** Appending a well-formed row with a fresh id and a fresh `(user_id, anime_id)` keeps the constraints. */
  lemma EntriesOkAppend(entries: seq<DiaryEntry>, animes: seq<Anime>, e: DiaryEntry)
    requires EntriesOk(entries, animes)
    requires EntryRowOk(e) && AnimeIndex(animes, e.animeId).Some?
    requires forall k :: 0 <= k < |entries| ==>
      entries[k].id != e.id && (entries[k].userId, entries[k].animeId) != (e.userId, e.animeId)
    ensures EntriesOk(entries + [e], animes)
  {
    var s := entries + [e];
    forall i, j | 0 <= i < j < |s|
      ensures s[i].id != s[j].id && (s[i].userId, s[i].animeId) != (s[j].userId, s[j].animeId)
    {
      if j < |entries| {
        assert s[i] == entries[i] && s[j] == entries[j];
      }
    }
  }

  /** Rewriting the non-key columns of one diary row keeps the table's constraints. */
  lemma EntriesOkReplace(entries: seq<DiaryEntry>, animes: seq<Anime>, k: nat, u: DiaryEntry)
    requires EntriesOk(entries, animes) && k < |entries|
    requires EntryRowOk(u)
    requires u.id == entries[k].id && u.userId == entries[k].userId && u.animeId == entries[k].animeId
    ensures EntriesOk(entries[k := u], animes)
  {
    var s := entries[k := u];
    forall i, j | 0 <= i < j < |s|
      ensures s[i].id != s[j].id && (s[i].userId, s[i].animeId) != (s[j].userId, s[j].animeId)
    {
      assert entries[i].id != entries[j].id;
      assert (entries[i].userId, entries[i].animeId) != (entries[j].userId, entries[j].animeId);
    }
    forall i | 0 <= i < |s|
      ensures AnimeIndex(animes, s[i].animeId).Some?
    {
      assert AnimeIndex(animes, entries[i].animeId).Some?;
    }
  }

  /** Deleting one user keeps the user table's constraints. */
  lemma UsersOkRemoveAt(users: seq<User>, k: nat)
    requires UsersOk(users) && k < |users|
    ensures UsersOk(RemoveAt(users, k))
  {
    var s := RemoveAt(users, k);
    forall i, j | 0 <= i < j < |s|
      ensures s[i].id != s[j].id && s[i].username != s[j].username && !TextEq(s[i].email, s[j].email)
    {
      var i', j' := if i < k then i else i + 1, if j < k then j else j + 1;
      assert s[i] == users[i'] && s[j] == users[j'];
    }
  }

  /** A well-formed row in front of a valid table, clashing with none of its rows. */
  lemma EntriesOkCons(e: DiaryEntry, rest: seq<DiaryEntry>, animes: seq<Anime>)
    requires EntriesOk(rest, animes)
    requires EntryRowOk(e) && AnimeIndex(animes, e.animeId).Some?
    requires forall x :: x in rest ==> x.id != e.id && (x.userId, x.animeId) != (e.userId, e.animeId)
    ensures EntriesOk([e] + rest, animes)
  {
    var s := [e] + rest;
    forall i, j | 0 <= i < j < |s|
      ensures s[i].id != s[j].id && (s[i].userId, s[i].animeId) != (s[j].userId, s[j].animeId)
    {
      assert s[j] == rest[j - 1];
      if i > 0 {
        assert s[i] == rest[i - 1];
      } else {
        assert s[j] in rest;
      }
    }
  }

  /** Deleting any set of diary rows keeps the table's constraints. */
  lemma {:induction false} EntriesOkFilter(entries: seq<DiaryEntry>, animes: seq<Anime>, p: DiaryEntry -> bool)
    requires EntriesOk(entries, animes)
    ensures EntriesOk(Filter(entries, p), animes)
  {
    if entries != [] {
      var tail := entries[1..];
      EntriesOkSub(entries, tail, animes, (i: nat) => i + 1);
      EntriesOkFilter(tail, animes, p);
      if p(entries[0]) {
        HeadDiffersFromFiltered(entries, animes, p);
        EntriesOkCons(entries[0], Filter(tail, p), animes);
      }
    }
  }

  /** The first diary row clashes with none of the later rows a filter keeps. */
  lemma HeadDiffersFromFiltered(entries: seq<DiaryEntry>, animes: seq<Anime>, p: DiaryEntry -> bool)
    requires EntriesOk(entries, animes) && entries != []
    ensures forall x :: x in Filter(entries[1..], p) ==>
      x.id != entries[0].id && (x.userId, x.animeId) != (entries[0].userId, entries[0].animeId)
  {
    var tail := entries[1..];
    forall x | x in Filter(tail, p)
      ensures x.id != entries[0].id && (x.userId, x.animeId) != (entries[0].userId, entries[0].animeId)
    {
      FilterMembers(tail, p, x);
      var l :| 0 <= l < |tail| && tail[l] == x;
      assert entries[l + 1] == x;
    }
  }

  /** Every stored diary row is individually well formed. */
  lemma StoredEntryRowOk(entries: seq<DiaryEntry>, animes: seq<Anime>, e: DiaryEntry)
    requires EntriesOk(entries, animes) && e in entries
    ensures EntryRowOk(e)
  {
    var k :| 0 <= k < |entries| && entries[k] == e;
  }

  /** Diary rows stay valid against an anime table that keeps every row's primary key in place. */
  lemma EntriesOkAnimesKept(entries: seq<DiaryEntry>, animes: seq<Anime>, animes': seq<Anime>)
    requires EntriesOk(entries, animes)
    requires |animes| <= |animes'|
    requires forall i :: 0 <= i < |animes| ==> animes'[i].id == animes[i].id
    ensures EntriesOk(entries, animes')
  {
    forall i | 0 <= i < |entries|
      ensures AnimeIndex(animes', entries[i].animeId).Some?
    {
      var k := AnimeIndex(animes, entries[i].animeId).value;
      assert animes'[k].id == entries[i].animeId;
    }
  }

  // ---------------------------------------------------------------------------
  // to_dict

  /** `Anime.to_dict()`: the primary `id` and the catalog `mal_id` are both exposed. */
  function AnimeDict(a: Anime): Doc {
    Object(map[
      "id" := Number(a.id),
      "mal_id" := Leaf(a.malId),
      "title" := Leaf(a.title),
      "synopsis" := Leaf(a.synopsis),
      "score" := Leaf(a.score),
      "episodes" := Leaf(a.episodes),
      "image_url" := Leaf(a.imageUrl),
      "status" := Leaf(a.status),
      "created_at" := Number(a.createdAt),
      "updated_at" := Number(a.updatedAt)
    ])
  }

  /** `DiaryEntry.to_dict()`: the `anime` member nests the related anime, or is null. */
  function EntryDict(db: Db, e: DiaryEntry): Doc {
    Object(map[
      "id" := Number(e.id),
      "user_id" := Leaf(e.userId),
      "anime_id" := Number(e.animeId),
      "anime" := (match AnimeOf(db, e) case Some(a) => AnimeDict(a) case None => Leaf(Null)),
      "user_score" := Number(e.userScore),
      "status" := Text(e.status),
      "episodes_watched" := Leaf(e.episodesWatched),
      "notes" := Leaf(e.notes),
      "created_at" := Number(e.createdAt),
      "updated_at" := Number(e.updatedAt)
    ])
  }

  /** The user's public fields (the User model class is not part of this model). */
  function UserDict(u: User): Doc {
    Object(map["id" := Number(u.id), "username" := Text(u.username), "email" := Leaf(u.email)])
  }

  /**
   * In a valid database every stored entry serialises with its anime nested, and
   * the nested anime's `id` is the entry's `anime_id`.
   */
  lemma EntryDictNestsItsAnime(db: Db, k: nat)
    requires Valid(db) && k < |db.entries|
    ensures var d := EntryDict(db, db.entries[k]).fields;
      && d["anime"].Object?
      && d["anime"].fields["id"] == d["anime_id"]
  {
    assert AnimeIndex(db.animes, db.entries[k].animeId).Some?;
  }
}

=== FILE: text.dfy ===
/**
 * String helpers shared by the backend and the frontend: whitespace trimming as
 * Python's `str.strip()` and JavaScript's `String.prototype.trim()` do it, decimal
 * rendering of integers (template literals, the diary count label) and decimal
 * parsing (Flask's `type=int` query conversion).
 */
module Text {
  import opened Wrappers

  /** Characters for which Python's `str.isspace()` holds: what `str.strip()` removes. */
  const PySpace: set<char> := {
    '\U{0009}', '\U{000A}', '\U{000B}', '\U{000C}', '\U{000D}', '\U{001C}',
    '\U{001D}', '\U{001E}', '\U{001F}', '\U{0020}', '\U{0085}', '\U{00A0}',
    '\U{1680}', '\U{2000}', '\U{2001}', '\U{2002}', '\U{2003}', '\U{2004}',
    '\U{2005}', '\U{2006}', '\U{2007}', '\U{2008}', '\U{2009}', '\U{200A}',
    '\U{2028}', '\U{2029}', '\U{202F}', '\U{205F}', '\U{3000}'
  }

  /** ECMAScript WhiteSpace and LineTerminator code points: what `trim()` removes. */
  const JsSpace: set<char> := {
    '\U{0009}', '\U{000A}', '\U{000B}', '\U{000C}', '\U{000D}', '\U{0020}',
    '\U{00A0}', '\U{1680}', '\U{2000}', '\U{2001}', '\U{2002}', '\U{2003}',
    '\U{2004}', '\U{2005}', '\U{2006}', '\U{2007}', '\U{2008}', '\U{2009}',
    '\U{200A}', '\U{2028}', '\U{2029}', '\U{202F}', '\U{205F}', '\U{3000}',
    '\U{FEFF}'
  }

  predicate AllIn(s: string, ws: set<char>) {
    forall i :: 0 <= i < |s| ==> s[i] in ws
  }

  /** Drops the longest prefix of characters in `ws`. */
  function StripLeft(s: string, ws: set<char>): (r: string)
    ensures |r| <= |s| && r == s[|s| - |r|..]
    ensures AllIn(s[..|s| - |r|], ws)
    ensures r != [] ==> r[0] !in ws
  {
    if s == [] || s[0] !in ws then s
    else
      var rest := StripLeft(s[1..], ws);
      assert s[1..][..|s| - 1 - |rest|] == s[1..|s| - |rest|];
      rest
  }

  /** Drops the longest suffix of characters in `ws`. */
  function StripRight(s: string, ws: set<char>): (r: string)
    ensures |r| <= |s| && r == s[..|r|]
    ensures AllIn(s[|r|..], ws)
    ensures r != [] ==> r[|r| - 1] !in ws
  {
    if s == [] || s[|s| - 1] !in ws then s
    else
      var rest := StripRight(s[..|s| - 1], ws);
      assert s[|rest|..] == s[..|s| - 1][|rest|..] + [s[|s| - 1]];
      rest
  }

  /** `s.strip()` (with `PySpace`) or `s.trim()` (with `JsSpace`). */
  function Strip(s: string, ws: set<char>): string {
    StripRight(StripLeft(s, ws), ws)
  }

  /** A string strips to nothing exactly when every character is whitespace. */
  lemma {:induction false} StripEmptyIffAllSpace(s: string, ws: set<char>)
    ensures Strip(s, ws) == [] <==> AllIn(s, ws)
  {
    var l := StripLeft(s, ws);
    var i := |s| - |l|;
    if Strip(s, ws) == [] {
      assert l == s[i..];
      assert AllIn(l, ws);
      forall k | 0 <= k < |s|
        ensures s[k] in ws
      {
        if k < i {
          assert s[..i][k] == s[k];
        } else {
          assert l[k - i] == s[k];
        }
      }
    } else {
      var r := Strip(s, ws);
      assert l == s[i..];
      assert r[0] == l[0] == s[i];
    }
  }

  predicate IsDigit(c: char) {
    '0' <= c <= '9'
  }

  function DigitChar(d: nat): (c: char)
    requires d < 10
    ensures IsDigit(c) && c as int - '0' as int == d
  {
    ('0' as int + d) as char
  }

  /** Decimal digits of a natural number, without leading zeros. */
  function NatToString(n: nat): (s: string)
    ensures |s| >= 1
    ensures forall i :: 0 <= i < |s| ==> IsDigit(s[i])
    ensures |s| > 1 ==> s[0] != '0'
  {
    if n < 10 then [DigitChar(n)]
    else NatToString(n / 10) + [DigitChar(n % 10)]
  }

  /** JavaScript's `String(n)` and Python's `str(n)` for an integer. */
  function IntToString(n: int): string {
    if n < 0 then "-" + NatToString(-n) else NatToString(n)
  }

  /** Value of a non-empty run of decimal digits. */
  function DigitsValue(s: string): nat
    requires forall i :: 0 <= i < |s| ==> IsDigit(s[i])
  {
    if s == [] then 0
    else
      assert IsDigit(s[|s| - 1]);
      DigitsValue(s[..|s| - 1]) * 10 + (s[|s| - 1] as int - '0' as int)
  }

  /**
   * Python's `int(text)` for the forms the model covers: optional surrounding
   * whitespace, an optional sign and one or more ASCII digits.
   */
  function ParseInt(text: string): Option<int> {
    var t := Strip(text, PySpace);
    if |t| > 0 && t[0] == '-' then
      match ParseDigits(t[1..])
      case Some(v) => Some(-v)
      case None => None
    else if |t| > 0 && t[0] == '+' then ParseDigits(t[1..])
    else ParseDigits(t)
  }

  /** A non-empty run of decimal digits and nothing else, read as a number. */
  function ParseDigits(s: string): (r: Option<int>)
    ensures r.Some? <==> s != [] && forall i :: 0 <= i < |s| ==> IsDigit(s[i])
  {
    if s != [] && forall i :: 0 <= i < |s| ==> IsDigit(s[i]) then Some(DigitsValue(s) as int)
    else None
  }

  lemma {:induction false} DigitsOfNat(n: nat)
    ensures DigitsValue(NatToString(n)) == n
  {
    if n >= 10 {
      var s := NatToString(n);
      assert s[..|s| - 1] == NatToString(n / 10);
      DigitsOfNat(n / 10);
    }
  }

  /** Rendering an integer in decimal and parsing it back gives the integer. */
  lemma IntToStringRoundTrip(n: int)
    ensures ParseInt(IntToString(n)) == Some(n)
  {
    if n < 0 {
      NegativeRoundTrip(n);
    } else {
      NaturalRoundTrip(n);
    }
  }

  lemma NaturalRoundTrip(n: nat)
    ensures ParseInt(NatToString(n)) == Some(n)
  {
    var s := NatToString(n);
    DigitNotSpace(s[0]);
    DigitNotSpace(s[|s| - 1]);
    StripUnchanged(s);
    DigitsOfNat(n);
    assert ParseDigits(s) == Some(n);
  }

  lemma NegativeRoundTrip(n: int)
    requires n < 0
    ensures ParseInt(IntToString(n)) == Some(n)
  {
    var m: nat := -n;
    var digits := NatToString(m);
    assert IntToString(n) == "-" + digits;
    assert ParseInt("-" + digits) == Some(n) by {
      NatDigitsParse(m);
      SignedRoundTrip(digits, m);
    }
  }

  /** The digits of a natural number parse back as that number. */
  lemma NatDigitsParse(m: nat)
    ensures ParseDigits(NatToString(m)) == Some(m)
  {
    DigitsOfNat(m);
  }

  /** A minus sign in front of a run of digits that reads as `m` parses as `-m`. */
  lemma SignedRoundTrip(digits: string, m: int)
    requires ParseDigits(digits) == Some(m)
    ensures ParseInt("-" + digits) == Some(-m)
  {
    var s := "-" + digits;
    assert s[|s| - 1] == digits[|digits| - 1];
    DigitNotSpace(digits[|digits| - 1]);
    assert '-' !in PySpace;
    StripUnchanged(s);
    assert s[1..] == digits;
  }

  /** No decimal digit is whitespace. */
  lemma DigitNotSpace(c: char)
    requires IsDigit(c)
    ensures c !in PySpace
  {
  }

  /** A string that neither starts nor ends with whitespace strips to itself. */
  lemma StripUnchanged(s: string)
    requires s != [] && s[0] !in PySpace && s[|s| - 1] !in PySpace
    ensures Strip(s, PySpace) == s
  {
    StripLeftNoSpace(s, PySpace);
    StripRightNoSpace(s, PySpace);
  }

  lemma StripNoEdgeSpace(s: string, ws: set<char>)
    requires s != [] && s[0] !in ws && s[|s| - 1] !in ws
    ensures Strip(s, ws) == s
  {
    StripLeftNoSpace(s, ws);
    StripRightNoSpace(s, ws);
  }

  lemma StripLeftNoSpace(s: string, ws: set<char>)
    requires s != [] && s[0] !in ws
    ensures StripLeft(s, ws) == s
  {
  }

  lemma StripRightNoSpace(s: string, ws: set<char>)
    requires s != [] && s[|s| - 1] !in ws
    ensures StripRight(s, ws) == s
  {
  }

  // ---------------------------------------------------------------------------
  // Numbers in text, as SQLite's numeric affinity reads them

  /** ASCII whitespace (`sqlite3Isspace`), which SQLite skips around a number written in text. */
  const SqlSpace: set<char> := {'\U{0009}', '\U{000A}', '\U{000B}', '\U{000C}', '\U{000D}', ' '}

  /** A number written in text: an integer, or a decimal with a fractional part. */
  datatype Numeral = Integer(i: int) | Decimal(r: real)

  function Pow10(n: nat): (p: nat)
    ensures p >= 1
  {
    if n == 0 then 1 else 10 * Pow10(n - 1)
  }

  /** Position of the first `c` in `s`. */
  function IndexOf(s: string, c: char): (r: Option<nat>)
    ensures r.Some? ==> r.value < |s| && s[r.value] == c && c !in s[..r.value]
    ensures r.None? <==> c !in s
  {
    if s == [] then None
    else if s[0] == c then Some(0)
    else
      match IndexOf(s[1..], c)
      case None => None
      case Some(k) =>
        assert s[..k + 1] == [s[0]] + s[1..][..k];
        Some(k + 1)
  }

  /** Digits, or digits, a point and digits: the number an unsigned numeral spells. */
  function UnsignedNumeral(s: string): (r: Option<Numeral>)
    ensures r.Some? && r.value.Integer? ==> ParseDigits(s) == Some(r.value.i)
    ensures r.Some? && r.value.Decimal? ==> '.' in s
  {
    match ParseDigits(s)
    case Some(n) => Some(Integer(n))
    case None =>
      match IndexOf(s, '.')
      case None => None
      case Some(k) =>
        var frac := s[k + 1..];
        match (ParseDigits(s[..k]), ParseDigits(frac))
        case (Some(w), Some(f)) => Some(Decimal(w as real + f as real / Pow10(|frac|) as real))
        case _ => None
  }

  /**
   * The number SQLite reads from text when it applies numeric affinity: optional
   * surrounding ASCII whitespace, an optional sign, then digits with an optional
   * fractional part. `None` when the text spells no number in these forms.
   */
  function SqlNumeral(text: string): Option<Numeral> {
    SignedNumeral(Strip(text, SqlSpace))
  }

  /** An optional sign, then an unsigned numeral. */
  function SignedNumeral(t: string): Option<Numeral> {
    if |t| > 0 && (t[0] == '-' || t[0] == '+') then
      match UnsignedNumeral(t[1..])
      case Some(Integer(n)) => Some(Integer(if t[0] == '-' then -n else n))
      case Some(Decimal(x)) => Some(Decimal(if t[0] == '-' then -x else x))
      case None => None
    else UnsignedNumeral(t)
  }

  /** SQLite reads the decimal rendering of an integer back as that integer. */
  lemma SqlNumeralOfInteger(n: int)
    ensures SqlNumeral(IntToString(n)) == Some(Integer(n))
  {
    var m: nat := if n < 0 then -n else n;
    var digits := NatToString(m);
    NatDigitsParse(m);
    if n < 0 {
      assert SqlNumeral("-" + digits) == Some(Integer(n)) by {
        SignedSqlNumeral(digits, m);
      }
    } else {
      assert SqlNumeral(digits) == Some(Integer(n)) by {
        UnsignedSqlNumeral(digits, m);
      }
    }
  }

  lemma UnsignedSqlNumeral(digits: string, m: int)
    requires ParseDigits(digits) == Some(m)
    ensures SqlNumeral(digits) == Some(Integer(m))
  {
    UnsignedText(digits);
  }

  lemma SignedSqlNumeral(digits: string, m: int)
    requires ParseDigits(digits) == Some(m)
    ensures SqlNumeral("-" + digits) == Some(Integer(-m))
  {
    var s := "-" + digits;
    assert s[|s| - 1] == digits[|digits| - 1];
    StripNoEdgeSpace(s, SqlSpace);
    assert s[1..] == digits;
    assert UnsignedNumeral(digits) == Some(Integer(m));
  }

  /** A minus sign before digits, a point and a zero reads as the negated decimal. */
  lemma SignedPointZero(digits: string, m: int)
    requires ParseDigits(digits) == Some(m)
    ensures SqlNumeral("-" + digits + ".0") == Some(Decimal(-(m as real)))
  {
    var s := "-" + digits + ".0";
    assert UnsignedNumeral(s[1..]) == Some(Decimal(m as real)) by {
      assert s[1..] == digits + ".0";
      PointZeroUnsigned(digits, m);
    }
    assert IsDigit(s[|s| - 1]) by {
      assert s[|s| - 1] == '0';
    }
    NegatedDecimal(s, m);
  }

  /** A minus sign before an unsigned decimal numeral negates it. */
  lemma NegatedDecimal(s: string, m: int)
    requires |s| > 1 && s[0] == '-' && UnsignedNumeral(s[1..]) == Some(Decimal(m as real))
    requires IsDigit(s[|s| - 1])
    ensures SqlNumeral(s) == Some(Decimal(-(m as real)))
  {
    DigitNotSqlSpace(s[|s| - 1]);
    StripNoEdgeSpace(s, SqlSpace);
  }

  lemma DigitNotSqlSpace(c: char)
    requires IsDigit(c)
    ensures c !in SqlSpace
  {
  }

  /** A minus sign before the digits of m, a point and a zero reads as the decimal -m. */
  lemma NegativePointZero(m: nat)
    ensures SqlNumeral("-" + NatToString(m) + ".0") == Some(Decimal(-(m as real)))
  {
    NatDigitsParse(m);
    SignedPointZero(NatToString(m), m);
  }

  /** An integer written with a point and a zero fraction reads as a decimal of the same value. */
  lemma SqlNumeralOfPointZero(n: nat)
    ensures SqlNumeral(NatToString(n) + ".0") == Some(Decimal(n as real))
  {
    NatDigitsParse(n);
    PointZeroNumeral(NatToString(n), n);
  }

  lemma PointZeroNumeral(digits: string, m: int)
    requires ParseDigits(digits) == Some(m)
    ensures SqlNumeral(digits + ".0") == Some(Decimal(m as real))
  {
    var s := digits + ".0";
    assert s[0] == digits[0] && s[|s| - 1] == '0';
    UnsignedText(s);
    PointZeroUnsigned(digits, m);
  }

  /** Text that starts and ends with a digit reads as an unsigned numeral. */
  lemma UnsignedText(s: string)
    requires s != [] && IsDigit(s[0]) && IsDigit(s[|s| - 1])
    ensures SqlNumeral(s) == UnsignedNumeral(s)
  {
    StripLeftNoSpace(s, SqlSpace);
    StripRightNoSpace(s, SqlSpace);
  }

  lemma PointZeroUnsigned(digits: string, m: int)
    requires ParseDigits(digits) == Some(m)
    ensures UnsignedNumeral(digits + ".0") == Some(Decimal(m as real))
  {
    var s := digits + ".0";
    assert s[|digits|] == '.';
    assert ParseDigits(s).None?;
    assert s[..|digits|] == digits;
    assert IndexOf(s, '.') == Some(|digits|);
    assert s[|digits| + 1..] == "0";
    assert ParseDigits("0") == Some(0);
  }

  /** A leading ASCII space does not change the number a text spells. */
  lemma SqlNumeralLeadingSpace(s: string)
    ensures SqlNumeral(" " + s) == SqlNumeral(s)
  {
    var t := " " + s;
    assert t[1..] == s;
    assert StripLeft(t, SqlSpace) == StripLeft(s, SqlSpace);
  }

  /** Space, digits, a point and a zero read as the decimal of the digits' value. */
  lemma SpacedPointZero(digits: string, m: int)
    requires ParseDigits(digits) == Some(m)
    ensures SqlNumeral(" " + digits + ".0") == Some(Decimal(m as real))
  {
    assert " " + digits + ".0" == " " + (digits + ".0");
    SqlNumeralLeadingSpace(digits + ".0");
    PointZeroNumeral(digits, m);
  }

  /** Text holding a lower-case letter spells no number. */
  lemma SqlNumeralRejectsLetter(s: string, i: nat)
    requires i < |s| && 'a' <= s[i] <= 'z'
    ensures SqlNumeral(s).None?
  {
    LetterIsNoNumberChar(s[i]);
    if SqlNumeral(s).Some? {
      SqlNumeralOnlyNumberChars(s);
      assert false;
    }
  }

  lemma LetterIsNoNumberChar(c: char)
    requires 'a' <= c <= 'z'
    ensures !IsDigit(c) && c !in SqlSpace && c !in {'-', '+', '.'}
  {
  }

  /** Text holding a letter, or any character outside digits, signs, points and ASCII spaces, is not a number. */
  lemma SqlNumeralOnlyNumberChars(text: string)
    requires SqlNumeral(text).Some?
    ensures forall i :: 0 <= i < |text| ==> IsDigit(text[i]) || text[i] in SqlSpace || text[i] in {'-', '+', '.'}
  {
    var l := StripLeft(text, SqlSpace);
    var t := StripRight(l, SqlSpace);
    var a := |text| - |l|;
    forall i | 0 <= i < |text|
      ensures IsDigit(text[i]) || text[i] in SqlSpace || text[i] in {'-', '+', '.'}
    {
      if i < a {
        assert text[..a][i] == text[i];
      } else if i - a >= |t| {
        assert l[|t|..][i - a - |t|] == text[i];
      } else {
        assert t[i - a] == text[i];
        NumeralChar(t, i - a);
      }
    }
  }

  lemma NumeralChar(t: string, k: nat)
    requires k < |t|
    requires SignedNumeral(t).Some?
    ensures IsDigit(t[k]) || t[k] in {'-', '+', '.'}
  {
    if t[0] == '-' || t[0] == '+' {
      if k > 0 {
        UnsignedNumeralChar(t[1..], k - 1);
      }
    } else {
      UnsignedNumeralChar(t, k);
    }
  }

  lemma UnsignedNumeralChar(s: string, k: nat)
    requires k < |s| && UnsignedNumeral(s).Some?
    ensures IsDigit(s[k]) || s[k] == '.'
  {
    if ParseDigits(s).None? {
      var p := IndexOf(s, '.').value;
      if k < p {
        assert s[..p][k] == s[k];
      } else if k > p {
        assert s[p + 1..][k - p - 1] == s[k];
      }
    }
  }

  function AsciiLower(c: char): char {
    if 'A' <= c <= 'Z' then (c as int + 32) as char else c
  }

  /**
   * `order.lower() == 'asc'`. No character other than `A`, `S`, `C` lowercases to
   * `a`, `s` or `c` in Python, so folding ASCII letters decides the comparison.
   */
  predicate IsAscending(order: string) {
    |order| == 3 && AsciiLower(order[0]) == 'a' && AsciiLower(order[1]) == 's'
    && AsciiLower(order[2]) == 'c'
  }

  lemma AscendingSpellings(order: string)
    ensures IsAscending(order) <==>
      |order| == 3 && order[0] in {'a', 'A'} && order[1] in {'s', 'S'} && order[2] in {'c', 'C'}
  {
  }
}

=== FILE: user_controller.dfy ===
/**
 * The `/api/users` routes: registration, listing, lookup, update and deletion of
 * users, each under `handle_errors`. Password hashing is the parameter `hash`, as
 * in UserService.
 */
module UserController {
  import opened Wrappers
  import opened Json
  import opened Store
  import opened Http
  import Service = UserService
  import Diary = DiaryController
  import DiaryService
  import Strings = Text

  const MsgMissingFields: string := "Missing required fields"
  const MsgUserNotFound: string := "User not found"
  const MsgCreated: string := "User created successfully"
  const MsgUpdated: string := "User updated successfully"
  const MsgDeleted: string := "User deleted successfully"

  /** The keys `POST /api/users/register` requires in its body. */
  const RegisterKeys: seq<string> := ["username", "email", "password"]

  /** The service call a complete registration body makes. */
  function CreateFrom(db: Db, d: Data, hash: string -> string): Txn<User>
    requires forall k :: k in RegisterKeys ==> k in d
  {
    Service.CreateUser(db, d["username"], d["email"], d["password"], hash)
  }

  /**
   * `POST /api/users/register`: a body that is missing or lacks `username`, `email`
   * or `password` gets 400 "Missing required fields"; otherwise the service
   * registers the user. A rejected registration changes nothing and is a 400 (a
   * validation error) or a 500 (a non-string where a string belongs); a 201
   * carries the new user, stored last.
   */
  function Register(db: Db, data: Option<Data>, hash: string -> string): (s: Served)
    ensures Lacks(data, RegisterKeys) ==> s == Served(ErrorReply(400, MsgMissingFields), db)
    ensures s.response.status == 201 <==> !Lacks(data, RegisterKeys) && CreateFrom(db, data.value, hash).result.Ok?
    ensures s.response.status != 201 ==> (s.response.status == 400 || s.response.status == 500) && s.db == db
    ensures s.response.status == 201 ==>
      && |s.db.users| == |db.users| + 1
      && s.db.users[..|db.users|] == db.users
      && s.db.animes == db.animes && s.db.entries == db.entries
      && Member(s.response, "user") == Some(UserDict(s.db.users[|db.users|]))
  {
    if Lacks(data, RegisterKeys) then Served(ErrorReply(400, MsgMissingFields), db)
    else
      var t := CreateFrom(db, data.value, hash);
      match t.result
      case Ok(u) =>
        assert t.db.users[..|db.users|] == db.users;
        Served(Response(201, Object(map["message" := Text(MsgCreated), "user" := UserDict(u)])), t.db)
      case Err(x) => Served(HandleErrors(Err(x)), t.db)
  }

  lemma RegisterKeepsValid(db: Db, data: Option<Data>, hash: string -> string)
    requires Valid(db)
    ensures Valid(Register(db, data, hash).db)
  {
    if !Lacks(data, RegisterKeys) {
      var d := data.value;
      Service.CreateUserKeepsValid(db, d["username"], d["email"], d["password"], hash);
    }
  }

  /** A registered user can be fetched by its new id, exactly as registration answered it. */
  lemma RegisterThenGetUser(db: Db, data: Option<Data>, hash: string -> string)
    requires Valid(db)
    requires Register(db, data, hash).response.status == 201
    ensures var s := Register(db, data, hash);
      var u := s.db.users[|db.users|];
      GetUser(s.db, u.id).status == 200 && Member(GetUser(s.db, u.id), "user") == Member(s.response, "user")
  {
    RegisterKeepsValid(db, data, hash);
    var s := Register(db, data, hash);
    var u := s.db.users[|db.users|];
    var k := UserIndex(s.db.users, u.id).value;
    assert k == |db.users|;
  }

  /** Sending the same registration twice: the second is refused, the username being taken. */
  lemma RegisterTwiceRefused(db: Db, data: Option<Data>, hash: string -> string)
    requires Register(db, data, hash).response.status == 201
    ensures var s := Register(db, data, hash);
      var again := Register(s.db, data, hash);
      again.response == ErrorReply(400, Service.MsgUsernameTaken) && again.db == s.db
  {
    var s := Register(db, data, hash);
    var d := data.value;
    Service.CreateUserErrorOrder(s.db, d["username"], d["email"], d["password"], hash);
    assert s.db.users[|db.users|].username == d["username"].s;
  }

  /** `GET /api/users`: every user, in table order. */
  function ListUsers(db: Db): (r: Response)
    ensures r.status == 200
    ensures Member(r, "users").Some? && Member(r, "users").value.List?
    ensures |Member(r, "users").value.items| == |db.users|
    ensures forall i :: 0 <= i < |db.users| ==> Member(r, "users").value.items[i] == UserDict(db.users[i])
  {
    Response(200, Object(map["users" := List(seq(|db.users|, i requires 0 <= i < |db.users| => UserDict(db.users[i])))]))
  }

  /** A registered user is listed last, exactly as registration answered it. */
  lemma RegisterThenList(db: Db, data: Option<Data>, hash: string -> string)
    requires Register(db, data, hash).response.status == 201
    ensures var s := Register(db, data, hash);
      var items := Member(ListUsers(s.db), "users").value.items;
      |items| == |db.users| + 1 && Some(items[|db.users|]) == Member(s.response, "user")
  {
  }

  /**
   * `GET /api/users/<user_id>`: 404 "User not found" exactly when no user has that
   * id; otherwise 200 with that user.
   */
  function GetUser(db: Db, id: nat): (r: Response)
    ensures r.status == 404 <==> forall u :: u in db.users ==> u.id != id
    ensures r.status != 404 ==>
      r.status == 200 && exists u :: u in db.users && u.id == id && Member(r, "user") == Some(UserDict(u))
  {
    match Service.GetUser(db, id)
    case None => ErrorReply(404, MsgUserNotFound)
    case Some(u) => Response(200, Object(map["user" := UserDict(u)]))
  }

  /**
   * `PUT /api/users/<user_id>`: 404 exactly when no user has that id. For a stored
   * user a missing body is a 500 (the service tests keys of `None`), and a taken
   * email or short password a 400; every non-200 changes nothing. A 200 carries the
   * updated user, which keeps its id.
   */
  function UpdateUser(db: Db, id: nat, data: Option<Data>, hash: string -> string): (s: Served)
    ensures s.response.status == 404 <==> forall u :: u in db.users ==> u.id != id
    ensures s.response.status in {200, 400, 404, 500}
    ensures s.response.status != 200 ==> s.db == db
    ensures data.None? && s.response.status != 404 ==> s.response.status == 500
    ensures s.response.status == 200 ==>
      exists u :: u in s.db.users && u.id == id && Member(s.response, "user") == Some(UserDict(u))
  {
    var t := Service.UpdateUser(db, id, data, hash);
    match t.result
    case Ok(Some(u)) =>
      var k := UserIndex(db.users, id).value;
      assert t.db.users[k] == u;
      Served(Response(200, Object(map["message" := Text(MsgUpdated), "user" := UserDict(u)])), t.db)
    case Ok(None) => Served(ErrorReply(404, MsgUserNotFound), t.db)
    case Err(x) => Served(HandleErrors(Err(x)), t.db)
  }

  /**
   * `PUT /api/users/<id>` with a number as the email answers 400 "Email already
   * exists" when another user's email is that number's digits, and changes nothing.
   */
  lemma UpdateUserRefusesNumericEmail(db: Db, id: nat, n: int, hash: string -> string, j: nat)
    requires Service.GetUser(db, id).Some?
    requires j < |db.users| && db.users[j].id != id && db.users[j].email == Str(Strings.IntToString(n))
    ensures var s := UpdateUser(db, id, Some(map["email" := Int(n)]), hash);
      s.response.status == 400 && ErrorMessage(s.response) == Some(Service.MsgEmailTaken) && s.db == db
  {
    Service.UpdateUserRefusesNumericEmail(db, id, n, hash, j);
  }

  lemma UpdateUserKeepsValid(db: Db, id: nat, data: Option<Data>, hash: string -> string)
    requires Valid(db)
    ensures Valid(UpdateUser(db, id, data, hash).db)
  {
    Service.UpdateUserKeepsValid(db, id, data, hash);
  }

  /** After an update, fetching the user answers with what the update answered. */
  lemma UpdateThenGetUser(db: Db, id: nat, data: Option<Data>, hash: string -> string)
    requires Valid(db)
    requires UpdateUser(db, id, data, hash).response.status == 200
    ensures var s := UpdateUser(db, id, data, hash);
      GetUser(s.db, id).status == 200 && Member(GetUser(s.db, id), "user") == Member(s.response, "user")
  {
    var k := UserIndex(db.users, id).value;
    var s := UpdateUser(db, id, data, hash);
    var u := s.db.users[k];
    assert s.db.users == db.users[k := u];
    assert u.id == id;
  }

  /**
   * `DELETE /api/users/<user_id>`: 404 "User not found", changing nothing, exactly
   * when no user has that id; otherwise 200 and the user is gone. `cascade` is
   * whether the user's diary entries go with it, as in UserService.
   */
  function DeleteUser(db: Db, id: nat, cascade: bool): (s: Served)
    ensures s.response.status == 200 || s.response.status == 404
    ensures s.response.status == 404 <==> forall u :: u in db.users ==> u.id != id
    ensures s.response.status == 404 ==> s.db == db
    ensures s.response.status == 200 ==> |s.db.users| == |db.users| - 1
  {
    var t := Service.DeleteUser(db, id, cascade);
    if t.result.value then Served(Response(200, Object(map["message" := Text(MsgDeleted)])), t.db)
    else Served(ErrorReply(404, MsgUserNotFound), t.db)
  }

  /** A deleted user can no longer be fetched, and the database stays valid. */
  lemma DeleteThenGetUser(db: Db, id: nat, cascade: bool)
    requires Valid(db)
    ensures Valid(DeleteUser(db, id, cascade).db)
    ensures GetUser(DeleteUser(db, id, cascade).db, id).status == 404
  {
    Service.DeleteUserKeepsValid(db, id, cascade);
  }

  /**
   * What the deleted user's diary lists afterwards: nothing when the deletion
   * cascades; otherwise the orphaned entries are still listed under that id,
   * exactly as before the deletion.
   */
  lemma DeleteUserEmptiesDiary(db: Db, id: nat, status: Option<string>, cascade: bool)
    requires DeleteUser(db, id, cascade).response.status == 200
    ensures var r := Diary.GetDiary(DeleteUser(db, id, cascade).db, id, status, None, None);
      && r.status == 200
      && (cascade ==> Member(r, "entries").value.items == [])
      && (!cascade ==> Member(r, "entries") == Member(Diary.GetDiary(db, id, status, None, None), "entries"))
  {
    var after := DeleteUser(db, id, cascade).db;
    if !cascade {
      DiaryIgnoresUsers(db, after.users, id, status);
      assert after == db.(users := after.users);
    }
  }

  /** A diary listing reads the entries and the animes only. */
  lemma DiaryIgnoresUsers(db: Db, users: seq<User>, userId: nat, status: Option<string>)
    ensures Diary.GetDiary(db.(users := users), userId, status, None, None) == Diary.GetDiary(db, userId, status, None, None)
  {
    var db' := db.(users := users);
    var res := DiaryService.GetUserDiary(db, userId, status, "created_at", "desc");
    assert DiaryService.GetUserDiary(db', userId, status, "created_at", "desc") == res;
    if res.Ok? {
      EntryListIgnoresUsers(db, users, res.value);
    }
  }

  /** Serialising diary entries reads the animes they refer to, not the users. */
  lemma EntryListIgnoresUsers(db: Db, users: seq<User>, entries: seq<DiaryEntry>)
    ensures Diary.EntryList(db.(users := users), entries) == Diary.EntryList(db, entries)
  {
    var db' := db.(users := users);
    var a, b := Diary.EntryList(db', entries), Diary.EntryList(db, entries);
    forall i | 0 <= i < |entries|
      ensures a.items[i] == b.items[i]
    {
      assert AnimeOf(db', entries[i]) == AnimeOf(db, entries[i]);
    }
  }
}

=== FILE: user_service.dfy ===
/**
 * UserService: registration, authentication, lookup, update and deletion of users.
 *
 * Password hashing lives in the User model class, which is not part of this model:
 * `hash` stands for `set_password` (a salted hash of the password) and `check` for
 * `check_password`; both are parameters.
 */
module UserService {
  import opened Wrappers
  import opened Json
  import opened Store
  import Text

  const MsgUsernameShort: string := "Username must be at least 3 characters"
  const MsgInvalidEmail: string := "Invalid email"
  const MsgPasswordShort: string := "Password must be at least 8 characters"
  const MsgUsernameTaken: string := "Username already exists"
  const MsgEmailTaken: string := "Email already exists"
  const MsgUpdateFailed: string := "Error updating user"

  /** Python's `len(v)` on a scalar: only a `str` has a length. */
  function PyLen(v: Value): (r: Result<nat, Exc>)
    ensures r.Ok? <==> v.Str?
    ensures r.Ok? ==> r.value == |v.s|
    ensures r.Err? ==> r.error.Internal?
  {
    match v
    case Str(s) => Ok(|s|)
    case _ => Err(Internal("object of type '" + TypeName(v) + "' has no len()"))
  }

  /** `not v or len(v) < n`, where `len` raises on a truthy non-string. */
  function TooShort(v: Value, n: nat): (r: Result<bool, Exc>)
    ensures r == Ok(false) <==> v.Str? && v.s != "" && |v.s| >= n
    ensures r.Err? ==> r.error.Internal? && PyTruthy(v) && !v.Str?
  {
    if !PyTruthy(v) then Ok(true)
    else
      match PyLen(v)
      case Err(x) => Err(x)
      case Ok(len) => Ok(len < n)
  }

  /** `not v or '@' not in v`, where `in` raises on a truthy non-string. */
  function NotAnEmail(v: Value): (r: Result<bool, Exc>)
    ensures r == Ok(false) <==> v.Str? && '@' in v.s
    ensures r.Err? ==> r.error.Internal? && PyTruthy(v) && !v.Str?
  {
    if !PyTruthy(v) then Ok(true)
    else if v.Str? then Ok('@' !in v.s)
    else Err(Internal("argument of type '" + TypeName(v) + "' is not iterable"))
  }

  /** `User.query.filter_by(username=name).first()`. */
  function UserNamed(users: seq<User>, name: Value): Option<nat> {
    Find(users, (u: User) => TextEq(Str(u.username), name))
  }

  /** `User.query.filter_by(email=email)`, skipping the user with primary key `except`. */
  function UserWithEmail(users: seq<User>, email: Value, except: Option<int>): Option<nat> {
    Find(users, (u: User) => TextEq(u.email, email) && (except.Some? ==> u.id != except.value))
  }

  /**
   * `create_user(username, email, password)`. Validation raises `ValueError` in the
   * order username (at least 3 characters), email (contains `@`), password (at
   * least 8 characters), then duplicate username, then duplicate email; a truthy
   * non-string where a string is expected raises `TypeError` instead.
   */
  function CreateUser(db: Db, username: Value, email: Value, password: Value, hash: string -> string)
    : (t: Txn<User>)
    ensures t.result.Err? ==> t.db == db
    ensures t.result.Ok? ==>
      && username.Str? && |username.s| >= 3
      && email.Str? && '@' in email.s
      && password.Str? && |password.s| >= 8
      && t.result.value == User(NextUserId(db.users), username.s, email, hash(password.s))
      && t.db == db.(users := db.users + [t.result.value])
      && (forall u :: u in db.users ==> u.username != username.s && !TextEq(u.email, email))
  {
    match TooShort(username, 3)
    case Err(x) => Txn(Err(x), db)
    case Ok(true) => Txn(Err(ValueError(MsgUsernameShort)), db)
    case Ok(false) =>
      match NotAnEmail(email)
      case Err(x) => Txn(Err(x), db)
      case Ok(true) => Txn(Err(ValueError(MsgInvalidEmail)), db)
      case Ok(false) =>
        match TooShort(password, 8)
        case Err(x) => Txn(Err(x), db)
        case Ok(true) => Txn(Err(ValueError(MsgPasswordShort)), db)
        case Ok(false) =>
          if UserNamed(db.users, username).Some? then Txn(Err(ValueError(MsgUsernameTaken)), db)
          else if UserWithEmail(db.users, email, None).Some? then Txn(Err(ValueError(MsgEmailTaken)), db)
          else
            var user := User(NextUserId(db.users), username.s, email, hash(password.s));
            assert forall u :: u in db.users ==> u.username != username.s && !TextEq(u.email, email) by {
              forall u | u in db.users
                ensures u.username != username.s && !TextEq(u.email, email)
              {
                var k :| 0 <= k < |db.users| && db.users[k] == u;
                assert !TextEq(Str(db.users[k].username), username);
                assert !TextEq(db.users[k].email, email);
              }
            }
            Txn(Ok(user), db.(users := db.users + [user]))
  }

  /**
   * The validation errors of `create_user` come in a fixed order: a request that
   * fails an earlier check gets that check's message whatever else is wrong with it.
   */
  lemma CreateUserErrorOrder(db: Db, username: Value, email: Value, password: Value, hash: string -> string)
    ensures var r := CreateUser(db, username, email, password, hash).result;
      var badName := !PyTruthy(username) || (username.Str? && |username.s| < 3);
      var nameOk := username.Str? && |username.s| >= 3;
      var badEmail := !PyTruthy(email) || (email.Str? && '@' !in email.s);
      var emailOk := email.Str? && '@' in email.s;
      var badPassword := !PyTruthy(password) || (password.Str? && |password.s| < 8);
      var passwordOk := password.Str? && |password.s| >= 8;
      var nameTaken := (exists k :: 0 <= k < |db.users| && TextEq(Str(db.users[k].username), username));
      var emailTaken := (exists k :: 0 <= k < |db.users| && TextEq(db.users[k].email, email));
      && (badName ==> r == Err(ValueError(MsgUsernameShort)))
      && (nameOk && badEmail ==> r == Err(ValueError(MsgInvalidEmail)))
      && (nameOk && emailOk && badPassword ==> r == Err(ValueError(MsgPasswordShort)))
      && (nameOk && emailOk && passwordOk && nameTaken ==> r == Err(ValueError(MsgUsernameTaken)))
      && (nameOk && emailOk && passwordOk && !nameTaken && emailTaken ==> r == Err(ValueError(MsgEmailTaken)))
      && (nameOk && emailOk && passwordOk && !nameTaken && !emailTaken ==> r.Ok?)
  {
    if username.Str? && email.Str? && password.Str? {
      if exists k :: 0 <= k < |db.users| && db.users[k].username == username.s {
        var k :| 0 <= k < |db.users| && db.users[k].username == username.s;
        assert TextEq(Str(db.users[k].username), username);
      } else {
        assert forall k :: 0 <= k < |db.users| ==> !TextEq(Str(db.users[k].username), username);
        if exists k :: 0 <= k < |db.users| && TextEq(db.users[k].email, email) {
          var k :| 0 <= k < |db.users| && TextEq(db.users[k].email, email);
          assert UserWithEmail(db.users, email, None).Some?;
        }
      }
    }
  }

  /** Registering keeps usernames and emails unique across users. */
  lemma CreateUserKeepsValid(db: Db, username: Value, email: Value, password: Value, hash: string -> string)
    requires Valid(db)
    ensures Valid(CreateUser(db, username, email, password, hash).db)
  {
    var t := CreateUser(db, username, email, password, hash);
    if t.result.Ok? {
      var u := t.result.value;
      var s := t.db.users;
      forall i, j | 0 <= i < j < |s|
        ensures s[i].id != s[j].id && s[i].username != s[j].username && !TextEq(s[i].email, s[j].email)
      {
        if j == |db.users| {
          assert s[i] in db.users;
          TextEqFacts(s[i].email, s[j].email, s[j].email);
        }
      }
    }
  }

  /**
   * `authenticate_user(username, password)`: the first user with that username, if
   * the password checks against its stored hash.
   */
  function AuthenticateUser(db: Db, username: Value, password: Value, check: (string, Value) -> bool)
    : (r: Option<User>)
    ensures r.Some? ==>
      && r.value in db.users
      && TextEq(Str(r.value.username), username)
      && check(r.value.digest, password)
  {
    match UserNamed(db.users, username)
    case Some(k) => if check(db.users[k].digest, password) then Some(db.users[k]) else None
    case None => None
  }

  /**
   * With unique usernames, authentication succeeds exactly when some user has that
   * username and the password checks against that user's hash.
   */
  lemma AuthenticateUserIff(db: Db, username: string, password: Value, check: (string, Value) -> bool)
    requires Valid(db)
    ensures AuthenticateUser(db, Str(username), password, check).Some? <==>
      exists k :: 0 <= k < |db.users| && db.users[k].username == username && check(db.users[k].digest, password)
  {
    if exists k :: 0 <= k < |db.users| && db.users[k].username == username && check(db.users[k].digest, password) {
      var k :| 0 <= k < |db.users| && db.users[k].username == username && check(db.users[k].digest, password);
      var f := UserNamed(db.users, Str(username));
      assert TextEq(Str(db.users[k].username), Str(username));
      assert f.Some?;
      assert f.value == k;
    }
  }

  /**
   * A number given as the username finds the user named by its digits: SQLite
   * compares the TEXT column with the number's text.
   */
  lemma AuthenticateNumericUsername(db: Db, n: int, password: Value, check: (string, Value) -> bool, k: nat)
    requires Valid(db)
    requires k < |db.users| && db.users[k].username == Text.IntToString(n)
    ensures AuthenticateUser(db, Int(n), password, check) ==
      (if check(db.users[k].digest, password) then Some(db.users[k]) else None)
  {
    TextEqFindsDigits(db.users[k].username, n);
    var f := UserNamed(db.users, Int(n));
    assert f.Some?;
    TextEqFindsDigits(db.users[f.value].username, n);
    assert f.value == k;
  }

  /**
   * A user registered with a password can then authenticate with it, provided the
   * hash check accepts every password against its own hash.
   */
  lemma CreateThenAuthenticate(db: Db, username: Value, email: Value, password: Value,
                               hash: string -> string, check: (string, Value) -> bool)
    requires forall p: string :: check(hash(p), Str(p))
    requires CreateUser(db, username, email, password, hash).result.Ok?
    ensures var t := CreateUser(db, username, email, password, hash);
      AuthenticateUser(t.db, username, password, check) == Some(t.result.value)
  {
    var t := CreateUser(db, username, email, password, hash);
    var s := t.db.users;
    forall k | 0 <= k < |db.users|
      ensures !TextEq(Str(s[k].username), username)
    {
      assert s[k] in db.users;
    }
    assert TextEq(Str(s[|db.users|].username), username);
    assert UserNamed(s, username) == Some(|db.users|);
  }

  /** `get_user(user_id)`: the user with that primary key. */
  function GetUser(db: Db, id: int): (r: Option<User>)
    ensures r.Some? ==> r.value in db.users && r.value.id == id
    ensures r.None? <==> forall u :: u in db.users ==> u.id != id
  {
    match UserIndex(db.users, id)
    case Some(k) => Some(db.users[k])
    case None =>
      assert forall u :: u in db.users ==> u.id != id by {
        forall u | u in db.users
          ensures u.id != id
        {
          var k :| 0 <= k < |db.users| && db.users[k] == u;
        }
      }
      None
  }

  /**
   * `update_user(user_id, data)`: `None` for an absent user. An `email` held by a
   * different user is rejected (the user's own is accepted, and no format check
   * applies); a `password` shorter than 8 characters is rejected before the commit.
   * A null email fails the NOT NULL constraint at commit and is rolled back.
   */
  function UpdateUser(db: Db, id: int, data: Option<Data>, hash: string -> string)
    : (t: Txn<Option<User>>)
    ensures t.result.Err? ==> t.db == db
    ensures t.result == Ok(None) <==> GetUser(db, id).None?
    ensures t.result == Ok(None) ==> t.db == db
  {
    match UserIndex(db.users, id)
    case None => Txn(Ok(None), db)
    case Some(k) =>
      if data.None? then Txn(Err(Internal("argument of type 'NoneType' is not iterable")), db)
      else
        var d := data.value;
        if "email" in d && UserWithEmail(db.users, d["email"], Some(id)).Some? then
          Txn(Err(ValueError(MsgEmailTaken)), db)
        else
          var u := db.users[k];
          var withEmail := if "email" in d then u.(email := d["email"]) else u;
          var checked: Result<User, Exc> :=
            if "password" !in d then Ok(withEmail)
            else match PyLen(d["password"])
              case Err(x) => Err(x)
              case Ok(n) =>
                if n < 8 then Err(ValueError(MsgPasswordShort))
                else Ok(withEmail.(digest := hash(d["password"].s)));
          match checked
          case Err(x) => Txn(Err(x), db)
          case Ok(updated) =>
            if updated.email.Null? then Txn(Err(ValueError(MsgUpdateFailed)), db)
            else Txn(Ok(Some(updated)), db.(users := db.users[k := updated]))
  }

  /**
   * A successful update changes only the email and the password hash, and only
   * when the request names them; the user keeps its id and username.
   */
  lemma UpdateUserChangesOnlyGivenKeys(db: Db, id: int, d: Data, hash: string -> string)
    requires UpdateUser(db, id, Some(d), hash).result.Ok?
    requires GetUser(db, id).Some?
    ensures var t := UpdateUser(db, id, Some(d), hash);
      var prev := GetUser(db, id).value;
      var u := t.result.value.value;
      && t.result.value.Some?
      && u.id == prev.id && u.username == prev.username
      && ("email" in d ==> u.email == d["email"])
      && ("email" !in d ==> u.email == prev.email)
      && ("password" in d ==> d["password"].Str? && |d["password"].s| >= 8 && u.digest == hash(d["password"].s))
      && ("password" !in d ==> u.digest == prev.digest)
      && t.db.animes == db.animes && t.db.entries == db.entries
  {
  }

  /** The user's own email is never reported as taken by another user. */
  lemma UpdateUserOwnEmailAccepted(db: Db, id: int, d: Data, hash: string -> string)
    requires Valid(db)
    requires GetUser(db, id).Some?
    requires "email" in d && d["email"] == GetUser(db, id).value.email
    ensures UpdateUser(db, id, Some(d), hash).result != Err(ValueError(MsgEmailTaken))
  {
    var k := UserIndex(db.users, id).value;
    forall j | 0 <= j < |db.users| && db.users[j].id != id
      ensures !TextEq(db.users[j].email, d["email"])
    {
      assert j != k;
    }
    assert UserWithEmail(db.users, d["email"], Some(id)).None?;
  }

  /**
   * A number given as the email is refused when another user's email is its
   * digits: SQLite compares the TEXT column with the number's text, though
   * Python's `==` tells `5` from `"5"`.
   */
  lemma UpdateUserRefusesNumericEmail(db: Db, id: int, n: int, hash: string -> string, j: nat)
    requires GetUser(db, id).Some?
    requires j < |db.users| && db.users[j].id != id && db.users[j].email == Str(Text.IntToString(n))
    ensures UpdateUser(db, id, Some(map["email" := Int(n)]), hash).result == Err(ValueError(MsgEmailTaken))
  {
    TextEqFindsDigits(Text.IntToString(n), n);
    assert UserWithEmail(db.users, Int(n), Some(id)).Some?;
    UpdateUserEmailTaken(db, id, map["email" := Int(n)], hash);
  }

  /** An email that another user's email matches is refused before anything else is checked. */
  lemma UpdateUserEmailTaken(db: Db, id: int, d: Data, hash: string -> string)
    requires GetUser(db, id).Some?
    requires "email" in d && UserWithEmail(db.users, d["email"], Some(id)).Some?
    ensures UpdateUser(db, id, Some(d), hash) == Txn(Err(ValueError(MsgEmailTaken)), db)
  {
  }

  /** Updating keeps usernames and emails unique and emails non-null. */
  lemma UpdateUserKeepsValid(db: Db, id: int, data: Option<Data>, hash: string -> string)
    requires Valid(db)
    ensures Valid(UpdateUser(db, id, data, hash).db)
  {
    var t := UpdateUser(db, id, data, hash);
    if t.result.Ok? && t.result.value.Some? {
      var k := UserIndex(db.users, id).value;
      var d := data.value;
      var u := t.result.value.value;
      var s := t.db.users;
      forall j | 0 <= j < |s| && j != k
        ensures s[j] == db.users[j]
        ensures s[j].id != u.id && s[j].username != u.username && !TextEq(s[j].email, u.email)
      {
      }
      forall i, j | 0 <= i < j < |s|
        ensures s[i].id != s[j].id && s[i].username != s[j].username && !TextEq(s[i].email, s[j].email)
      {
        if i == k {
          TextEqFacts(s[i].email, s[j].email, s[j].email);
        } else if j != k {
          assert s[i] == db.users[i] && s[j] == db.users[j];
        }
      }
    }
  }

  /**
   * `delete_user(user_id)`: `False` for an absent user; otherwise the user is
   * deleted. Whether the user's diary entries go too is `cascade`: the ON DELETE
   * CASCADE of `diary_entry.user_id` fires only when SQLite enforces foreign keys
   * (`PRAGMA foreign_keys=ON`, which the application never issues) or when the
   * User model declares an ORM cascade; without either the entries stay behind.
   */
  function DeleteUser(db: Db, id: int, cascade: bool): (t: Txn<bool>)
    ensures t.result.Ok?
    ensures t.result.value <==> GetUser(db, id).Some?
    ensures !t.result.value ==> t.db == db
    ensures t.result.value ==>
      && t.db.animes == db.animes
      && |t.db.users| == |db.users| - 1
      && (forall u :: u in t.db.users ==> u in db.users)
      && (cascade ==> forall e :: e in t.db.entries <==> e in db.entries && !SqlEq(e.userId, Int(id)))
      && (!cascade ==> t.db.entries == db.entries)
  {
    match UserIndex(db.users, id)
    case None => Txn(Ok(false), db)
    case Some(k) =>
      assert forall u :: u in RemoveAt(db.users, k) ==> u in db.users by {
        forall u | u in RemoveAt(db.users, k)
          ensures u in db.users
        {
          var i :| 0 <= i < |RemoveAt(db.users, k)| && RemoveAt(db.users, k)[i] == u;
          if i >= k {
            assert db.users[i + 1] == u;
          }
        }
      }
      if !cascade then Txn(Ok(true), db.(users := RemoveAt(db.users, k)))
      else
        var entries := Filter(db.entries, (e: DiaryEntry) => !SqlEq(e.userId, Int(id)));
        assert forall e :: e in entries <==> e in db.entries && !SqlEq(e.userId, Int(id)) by {
          forall e
            ensures e in entries <==> e in db.entries && !SqlEq(e.userId, Int(id))
          {
            FilterMembers(db.entries, (e: DiaryEntry) => !SqlEq(e.userId, Int(id)), e);
          }
        }
        Txn(Ok(true), Db(RemoveAt(db.users, k), db.animes, entries))
  }

  /** After a deletion no user has that primary key, and the database stays valid. */
  lemma DeleteUserKeepsValid(db: Db, id: int, cascade: bool)
    requires Valid(db)
    ensures Valid(DeleteUser(db, id, cascade).db)
    ensures GetUser(DeleteUser(db, id, cascade).db, id).None?
  {
    var t := DeleteUser(db, id, cascade);
    if t.result.value {
      var k := UserIndex(db.users, id).value;
      UsersOkRemoveAt(db.users, k);
      if cascade {
        EntriesOkFilter(db.entries, db.animes, (e: DiaryEntry) => !SqlEq(e.userId, Int(id)));
      }
      var s := t.db.users;
      forall i | 0 <= i < |s|
        ensures s[i].id != id
      {
        if i < k {
          assert db.users[i].id != db.users[k].id;
        } else {
          assert db.users[k].id != db.users[i + 1].id;
        }
      }
    }
  }
}

=== FILE: wrappers.dfy ===
/** Failure-carrying result types shared by every module of the model. */
module Wrappers {

  /** An optional value: Python's `None`, a missing row, or JavaScript's `undefined`. */
  datatype Option<+T> = None | Some(value: T) {
    function GetOr(default: T): T {
      match this
      case Some(v) => v
      case None => default
    }
  }

  /** The value of a computation that may raise `E` instead. */
  datatype Result<+T, +E> = Ok(value: T) | Err(error: E)
}
